=== FILE: README.md ===
# Mini-golf point of sale: a Dafny model of its rules

The application sells rounds of a seven-hole mini-golf course. At the front
desk a registered player sets up a roster, the server charges the game at the
weekday or weekend price per head, the players enter strokes hole by hole, and
the results screen ranks them. An admin dashboard reports daily, weekly and
monthly takings, an hourly chart and a transaction ledger that can be exported
as CSV.

This project models the deterministic rules underneath those screens as pure
functions over immutable data, and proves what they promise:

| module | file | models |
|---|---|---|
| `Wrappers` | wrappers.dfy | `Option` and `Result` |
| `Text` | text.dfy | decimal digits, `Join`/`Split`, JavaScript `trim`, ASCII `toLowerCase`, code-unit string order |
| `Sorting` | sorting.dfy | a sort by any total preorder (insertion sort), sorted and a permutation |
| `Decimal` | decimal.dfy | `Number.prototype.toFixed` on exact ratios, and the `numeric(10, 2)` money columns |
| `PhoneNormalizer` | phone.dfy | server/utils/phoneNormalizer.ts |
| `Schema` | schema.dfy | the tables and insert validators of shared/schema.ts |
| `Storage` | storage.dfy | every query of server/storage.ts, as a fold over the table contents |
| `Routes` | routes.dfy | the handlers of server/routes.ts, with the request and the clock as parameters |
| `PlainObject` | plain_object.dfy | the properties every plain JavaScript object inherits from `Object.prototype` |
| `Gameplay` | gameplay.dfy | the score-entry state machine of client/src/pages/gameplay.tsx |
| `PlayerSetup` | player_setup.dfy | roster resizing and validation in client/src/pages/player-setup.tsx |
| `Results` | results.dfy | grouping, totals, ranking, rank icons and the duration text of client/src/pages/results.tsx |
| `Sales` | sales.dfy | the CSV export of client/src/pages/sales.tsx |

Conventions used throughout:

- Money is an integer number of paise (1 rupee = 100 paise). A money column
  holds at most 10 digits with 2 after the point, so an amount is valid when
  its magnitude is below 10^10 paise.
- An instant is an integer number of milliseconds on the venue's local clock.
  The start of a calendar day is a multiple of 86 400 000.
- A table is a sequence of rows in insertion order. The database is a record
  of four such tables (`Storage.Db`).
- Everything nondeterministic is an explicit parameter: fresh ids, `now`,
  the day of the week, and the calendar's "one month later".
- JavaScript's `%` truncates toward zero. `Results.JsRem` models it for
  negative durations.

## Model

| member | source | states |
|---|---|---|
| `PhoneNormalizer.NormalizePhoneNumber` | server/utils/phoneNormalizer.ts:14-28 | the output consists of decimal digits only, and an empty input gives the empty string |
| `PhoneNormalizer.DigitsOf` | server/utils/phoneNormalizer.ts:20 | removing non-digits leaves only digits and never lengthens the text |
| `PhoneNormalizer.DigitsOfDigits` | server/utils/phoneNormalizer.ts:20 | a string of digits passes the digit filter unchanged |
| `PhoneNormalizer.StripCountryCode` | server/utils/phoneNormalizer.ts:23-25 | the digits come back either unchanged or with a leading "91" removed; they change exactly when they start with "91" and are longer than 10 |
| `PhoneNormalizer.NormalizeLength` | server/utils/phoneNormalizer.ts:20-25 | at most one prefix is stripped: the output is as long as the digit count, or 2 shorter |
| `PhoneNormalizer.NormalizeShortNumber` | server/utils/phoneNormalizer.ts:23 | a digit string of at most 10 digits, such as a bare local number, is returned unchanged |
| `PhoneNormalizer.NormalizeIgnoresNonDigit` | server/utils/phoneNormalizer.ts:20 | inserting any non-digit character anywhere does not change the result |
| `PhoneNormalizer.CountryCodeDropped` | server/utils/phoneNormalizer.ts:10 | "+91 " followed by a 10-digit local number gives that local number |
| `PhoneNormalizer.SeparatedNumber` | server/utils/phoneNormalizer.ts:9 | a local number split by a space or any other separator gives the digits joined |
| `PhoneNormalizer.DashedCountryCode` | server/utils/phoneNormalizer.ts:11 | "+91 " followed by a dash-split local number gives the 10 local digits |
| `PhoneNormalizer.DocumentedExamples` | server/utils/phoneNormalizer.ts:8-12 | the four documented inputs all give "8015989208" |
| `PhoneNormalizer.NormalizeCodePrefixed` | server/utils/phoneNormalizer.ts:23-25 | more than 10 digits starting with "91" lose exactly those two digits |
| `PhoneNormalizer.NormalizeTwiceStripsAgain` | server/utils/phoneNormalizer.ts:20-25 | the normaliser is not idempotent: "9191" plus 9 or more digits is changed again by a second application |
| `Text.TrimEmptyIff` | client/src/pages/player-setup.tsx:70 | `trim()` gives the empty string exactly when every character is JavaScript whitespace |
| `Text.TrimPadded` | client/src/pages/player-setup.tsx:82 | trimming a word padded with whitespace on both sides gives the word |
| `Text.SplitJoin` | client/src/pages/sales.tsx:58-60 | joining fields that do not contain the separator and splitting again gives the fields back |
| `Text.JoinSplit` | client/src/pages/sales.tsx:58-60 | splitting any text at a separator and joining again gives the text back |
| `Sorting.SortBy` | client/src/pages/results.tsx:56 | the result is ordered by the given total preorder and is a permutation of the input |
| `Decimal.ToFixed` | server/routes.ts:80 | `toFixed(places)` of num/den reads back as the magnitude rounded to the nearest unit of the last place, with a leading '-' exactly when the value is negative |
| `Decimal.Rescale` | shared/schema.ts:25 | a decimal brought to a number of places is the integer nearest to its scaled value, a tie going away from zero |
| `Decimal.NumericToPaise` | shared/schema.ts:25 | storing a decimal text into `numeric(10, 2)` succeeds exactly when it parses and its magnitude rounded to two places fits; the stored amount is that rounded magnitude in paise, with the text's sign |
| `Decimal.MoneyRoundTrip` | shared/schema.ts:25 | the two-decimal text of any amount that fits is stored as that same amount |
| `Decimal.MoneyOverflow` | shared/schema.ts:25 | an amount of 10^10 paise or more is refused with a numeric overflow |
| `Schema.ParseInsertGame` | shared/schema.ts:83-91 | a game body is accepted exactly when every field is valid; the accepted fields are those sent; a refusal names exactly the invalid fields |
| `Schema.ClientCannotSetCost` | shared/schema.ts:87-91 | the id, cost and completion time a client sends do not affect validation or the inserted row |
| `Schema.EmptyRosterRefused` | shared/schema.ts:84 | an empty list of player names is refused |
| `Schema.PlayerCountBounds` | shared/schema.ts:85 | a count that is not an integer in 1..8 is refused |
| `Schema.ParseInsertPricing` | shared/schema.ts:97-100 | a pricing body is accepted exactly when both prices and `updatedBy` are present |
| `Schema.PricingTimestampServerSide` | shared/schema.ts:97-100 | a client-supplied id or `updatedAt` does not affect the inserted pricing |
| `Schema.ParseScoreBatch` | shared/schema.ts:93-95 | a score batch is accepted exactly when every element has a name and 32-bit hole and strokes, and it keeps order and length |
| `Storage.GamesInWindow` | server/storage.ts:105-108 | a game is kept exactly when its completion time lies in the window, both ends included |
| `Storage.GamesByDateRange` | server/storage.ts:103-110 | exactly the games of the inclusive window, each as often as stored, newest first |
| `Storage.GetGames` | server/storage.ts:90-101 | with both bounds the games of that window, otherwise every game; always newest first |
| `Storage.FindGame` | server/storage.ts:85-88 | the row with the given id, or nothing exactly when no row has it |
| `Storage.GetSalesStats` | server/storage.ts:244-262 | the game count, revenue sum and head-count sum over the games of the inclusive window |
| `Storage.EmptyWindowIsZero` | server/storage.ts:257-261 | a window holding no game reports zero games, zero revenue and zero players |
| `Storage.WindowSplit` | server/storage.ts:252-255 | splitting a window at any instant splits all three totals: nothing is counted twice or lost |
| `Storage.DailySales` | server/storage.ts:146-169 | the game count, revenue and head count of exactly the games completed on the date's calendar day |
| `Storage.DayWindowIsGamesOnDay` | server/storage.ts:146-151 | the window from 00:00:00.000 to 23:59:59.999 selects exactly the games of that calendar day, in table order |
| `Storage.WeeklySales` | server/storage.ts:171-192 | the totals of the games completed from the start to seven days later, both instants included |
| `Storage.MonthlySales` | server/storage.ts:194-215 | the totals of the games completed from the start to one calendar month later, both instants included |
| `Storage.DayWindowIsCalendarDay` | server/storage.ts:146-150 | the daily window holds exactly the instants of the same calendar day, from 00:00:00.000 to 23:59:59.999 |
| `Storage.WeeklyWindowsShareAnInstant` | server/storage.ts:171-185 | the weekly window is [start, start + 7 days] with both ends included, so a game at the boundary counts in two consecutive weeks |
| `Storage.GamesAtHour` | server/storage.ts:225-234 | the games whose local hour is h, and no others |
| `Storage.HourlySales` | server/storage.ts:217-242 | one bucket per hour of the date's calendar day in which a game finished, ascending, each holding that hour's game count and revenue |
| `Storage.HourlyBuckets` | server/storage.ts:223-241 | one bucket per hour that has a game, strictly ascending by hour, each holding that hour's count and revenue |
| `Storage.HourlyCountsSumToDaily` | server/storage.ts:217-242 | the hourly counts of a day add up to that day's total game count |
| `Storage.PricingHistory` | server/storage.ts:141-144 | every pricing row, newest first |
| `Storage.CurrentPricing` | server/storage.ts:126-131 | a row with the greatest `updatedAt`, or nothing exactly when the table is empty |
| `Storage.CreatePricing` | server/storage.ts:133-139 | both prices are stored as money and the row is appended; the insert fails exactly when a price does not parse or fit |
| `Storage.LatestPricingWins` | server/storage.ts:126-144 | after appending a row stamped later than all others, that row is the current pricing and heads the history |
| `Storage.ScoresByGame` | server/storage.ts:120-124 | exactly the game's scores, ordered by hole and then by player name |
| `Storage.CreateGame` | server/storage.ts:77-83 | the game row is appended with its cost stored as money; the insert fails exactly when the cost does not fit or the player is not registered |
| `Storage.CreateScores` | server/storage.ts:112-118 | each element of a batch becomes a score row of the game; a non-empty batch for an unknown game is refused |
| `Routes.CreateGameRoute` | server/routes.ts:66-91 | an invalid body or missing pricing is refused and leaves the database unchanged; an accepted game is appended, with the day's price times the head count as its cost |
| `Routes.GameCostRule` | server/routes.ts:76-80 | a valid game with pricing configured is charged weekend price × players on a weekend and weekday price × players otherwise |
| `Routes.NoPricingNoGame` | server/routes.ts:71-74 | with an empty pricing table every game request is refused and nothing is stored |
| `Routes.AddScoresRoute` | server/routes.ts:94-109 | a batch is stored exactly when every element is valid and the game exists, and nothing is stored otherwise |
| `Routes.GetGameRoute` | server/routes.ts:112-126 | "Game not found" exactly when no game has the id; otherwise that game with exactly its scores |
| `Routes.ScoresVisibleAfterAdd` | server/routes.ts:94-126 | every score a successful batch stores is returned with its game |
| `Routes.GetPricingRoute` | server/routes.ts:129-139 | "Pricing not found" exactly when there is no pricing row, otherwise the newest row |
| `Routes.AdminPricingRoute` | server/routes.ts:313-325 | a price change is accepted exactly when both prices are given and each stores into `numeric(10, 2)`; the appended row holds those stored amounts and is stamped with the signed-in user and the current time; a refused change leaves the table as it was |
| `Routes.PriceChangeTakesEffect` | server/routes.ts:313-325 | a price change made after every earlier one becomes the current pricing |
| `Routes.SeedPricing` | server/routes.ts:28-38 | at start-up, an empty pricing table with an admin present gets one row of ₹60.00 on weekdays and ₹80.00 at weekends; otherwise nothing changes |
| `Routes.SeedPricesParse` | server/routes.ts:33-34 | the seed texts "60.00" and "80.00" are stored as 6000 and 8000 paise |
| `Routes.SeededPricingIsCurrent` | server/routes.ts:28-38 | after seeding with an admin present, a current pricing always exists |
| `Routes.Growth` | server/routes.ts:201-207 | "0" when the baseline is not positive; otherwise a one-decimal text, negative exactly when the value fell, reading back as the rounded percentage change |
| `Routes.GrowthIsRoundedPercentage` | server/routes.ts:201-203 | ten times the growth figure is within one half of 1000 × (today − yesterday) / yesterday |
| `Routes.GrowthExamples` | server/routes.ts:201-203 | 100 to 200 reads "100.0", and 100 to 90 reads "-10.0" |
| `Routes.DashboardStats` | server/routes.ts:191-219 | today's totals are those of today's calendar day; each growth figure is the percentage change over yesterday followed by "%", or "0%" when yesterday had no games or no positive revenue |
| `Routes.YesterdayPrecedesToday` | server/routes.ts:193-198 | yesterday's window ends one millisecond before today's begins |
| `Routes.AvgPerGame` | server/routes.ts:279-281 | "₹0" with no games; otherwise "₹" followed by a whole-rupee text, with no division by zero |
| `Routes.AvgIsNearestRupee` | server/routes.ts:279-281 | the average is the whole-rupee amount nearest to revenue / games |
| `Routes.PeriodWindow` | server/routes.ts:257-273 | a window exists exactly for "day", "week" and "month": the calendar day of the request, the seven days up to the request, and the calendar month that starts one month before it |
| `Routes.SalesForPeriod` | server/routes.ts:251-286 | any period other than "day", "week" or "month" is refused with "Invalid period"; otherwise the totals of that period's window |
| `Routes.WeekEndsNow` | server/routes.ts:261-264 | the weekly report counts the games of the seven days ending at the request time |
| `Routes.FindBucket` | server/routes.ts:297 | the first bucket for the hour, or nothing exactly when no bucket has that hour |
| `Routes.HourLabelAsWritten` | server/routes.ts:302 | the label as the handler writes it: "AM" exactly for hours up to 12, after the hour on the 12-hour dial |
| `Routes.HourLabel` | server/routes.ts:302 | the clock label ends in "AM" before noon and "PM" from noon on, with the hour on the 12-hour dial |
| `Routes.NoonLabelledAsMidnight` | server/routes.ts:302 | the handler labels hour 12 "12AM", while noon is a "PM" hour |
| `Routes.LabelsAgreeExceptNoon` | server/routes.ts:302 | the handler's label and the clock label agree on every opening hour except noon |
| `Routes.HourPointOf` | server/routes.ts:297-303 | an hour without a bucket gets 0 games and "0" revenue; an hour with one gets its count and revenue; the label is the handler's, "AM" for every hour up to 12 |
| `Routes.HourlySeries` | server/routes.ts:295-304 | exactly 12 points, for the hours 9 to 20 in order, each the handler's point for its hour |
| `Routes.CorrectedHourPointOf` | server/routes.ts:297-303 | the same count and revenue as the handler's point, under the clock label with noon as "12PM" |
| `Routes.CorrectedHourlySeries` | server/routes.ts:295-304 | 12 points for the hours 9 to 20, each the corrected point for its hour |
| `Routes.SeriesDifferOnlyAtNoon` | server/routes.ts:295-304 | the handler's series and the corrected one agree on hour, count and revenue everywhere and on the label exactly away from noon, where the handler says "AM" and the clock says "PM" |
| `Routes.HourlySeriesCounts` | server/routes.ts:289-304 | fed the day's hourly sales, each point carries the number of that day's games finished in its hour |
| `Routes.LeadPlayer` | server/routes.ts:235 | the first name, or "Unknown" when the list is empty or the first name is empty |
| `Routes.RecentGames` | server/routes.ts:222-248 | at most 10 entries: the first of today's games in newest-first order, with the lead player |
| `Routes.RecentGamesAreNewestOfToday` | server/routes.ts:230-232 | every recent game was completed today, and none is older than a game of today left out |
| `Routes.Transactions` | server/routes.ts:338-367 | one ledger line per game of the day's newest-first list, in that order, carrying the game's id, time, lead player, head count, cost and weekday or weekend kind |
| `Routes.TransactionsAreTheDay` | server/routes.ts:338-367 | the ledger lists only games of that calendar day, newest first, and every game of the day appears with its cost |
| `Gameplay.FillHole` | client/src/pages/gameplay.tsx:59-63 | stored entries are kept; every rostered player without one gets 0, except a name of an `Object.prototype` property, which reads the inherited value and gets nothing |
| `Gameplay.Init` | client/src/pages/gameplay.tsx:54-64 | after initialisation holes 1..7 exist and no rostered player reads `undefined` on them; stored values are kept, missing ones are 0, and a name of an `Object.prototype` property without a stored entry still has none |
| `Gameplay.SelectScore` | client/src/pages/gameplay.tsx:84-97 | the entry for the current hole and that player is set; every other entry, the hole and the roster are unchanged |
| `Gameplay.ManualScore` | client/src/pages/gameplay.tsx:99-138 | "" records 0; digits with a value in 1..40 are recorded; any other text leaves the state unchanged |
| `Gameplay.ManualScoreRange` | client/src/pages/gameplay.tsx:117-137 | manual entry never records a value outside 0..40 |
| `Gameplay.SelectKeepsRunningTotal` | client/src/pages/gameplay.tsx:142-151 | choosing a score on the current hole does not change anyone's running total, since only the holes before it count |
| `Gameplay.TotalIsNumberIff` | client/src/pages/gameplay.tsx:142-151 | a total stays a number exactly when none of the holes it sums reads an inherited `Object.prototype` value; adding one makes it a string |
| `Gameplay.TotalBeforeBounds` | client/src/pages/gameplay.tsx:142-151 | when no hole before the current one reads an inherited value and every entry is within [lo, hi], the running total is a number within the holes played times lo and times hi |
| `Gameplay.MissingScores` | client/src/pages/gameplay.tsx:159-168 | on holes 5 and 7 no player is missing; on the other holes exactly the players whose current score is 0; an inherited value is truthy and never missing |
| `Gameplay.FinalPayload` | client/src/pages/gameplay.tsx:181-193 | one request per player in roster order, on hole 1, with strokes equal to the sum over holes 1..7, or not a number once an inherited value was added |
| `Gameplay.Next` | client/src/pages/gameplay.tsx:157-206 | blocked exactly when a player is missing a score; otherwise on to the next hole before hole 7, and the final totals on hole 7 |
| `Gameplay.Previous` | client/src/pages/gameplay.tsx:208-215 | goes back one hole above hole 1 and does nothing on hole 1 |
| `Gameplay.CursorStaysOnCourse` | client/src/pages/gameplay.tsx:179-215 | moving back or forward keeps the hole within 1..7 and keeps every score |
| `Gameplay.FinalTotalIsRunningPlusLast` | client/src/pages/gameplay.tsx:142-193 | each final total is the running total before hole 7 plus the hole-7 score, and is not a number when either is not |
| `Gameplay.FreshCardBlocks` | client/src/pages/gameplay.tsx:54-168 | on a fresh card exactly the players not named after an `Object.prototype` property block the first hole, in roster order; with none of them the card moves to hole 2 |
| `Gameplay.InheritedTotalRefused` | client/src/pages/gameplay.tsx:179-198 | a player reading an inherited value on any hole makes the server refuse the whole batch of totals |
| `Gameplay.InheritedNameSaveRefused` | client/src/pages/gameplay.tsx:54-198 | a lone player named "constructor" is never asked for a score, and the totals sent from hole 7 are refused |
| `Gameplay.ScoreButtons` | client/src/pages/gameplay.tsx:286 | six buttons: −2..3 on holes 5 and 7, and 1..6 elsewhere |
| `Gameplay.ButtonsUnblock` | client/src/pages/gameplay.tsx:159-177 | once every player has picked a button value or reads an inherited value, the hole no longer blocks |
| `Gameplay.PayloadAccepted` | client/src/pages/gameplay.tsx:179-198 | final totals built from per-hole entries between -2 and 40 pass the server's score validation exactly when no player reads an inherited value on any hole |
| `PlayerSetup.Resize` | client/src/pages/player-setup.tsx:35 | n slots; a slot below the old length keeps its name and the rest are "" |
| `PlayerSetup.ResizeKeepsPrefix` | client/src/pages/player-setup.tsx:35 | growing the roster keeps every name already typed |
| `PlayerSetup.InitialSlots` | client/src/pages/player-setup.tsx:17-18 | the screen opens with four blank slots |
| `PlayerSetup.FilledNames` | client/src/pages/player-setup.tsx:70 | exactly the names that are not blank after trimming, untrimmed, each as often as it was typed |
| `PlayerSetup.FilledNamesAppend` | client/src/pages/player-setup.tsx:70 | filtering a roster split in two filters each part and keeps them in order, so the kept names are in the order typed |
| `PlayerSetup.FilledDropsWhitespace` | client/src/pages/player-setup.tsx:70 | a slot of nothing but whitespace is never sent |
| `PlayerSetup.SizeTestFindsRepeat` | client/src/pages/player-setup.tsx:82-83 | the set of keys is smaller than the list exactly when two keys are equal |
| `PlayerSetup.StartGame` | client/src/pages/player-setup.tsx:69-94 | refused as missing exactly when the non-blank count differs from the selected count; as duplicate exactly when the count matches and two names agree after trim and lower-case; otherwise the non-blank names are accepted |
| `PlayerSetup.SameKeyRefused` | client/src/pages/player-setup.tsx:82-90 | two non-blank names with the same trimmed lower-case key cannot start together |
| `PlayerSetup.CaseAndSpacingClash` | client/src/pages/player-setup.tsx:82-90 | a name clashes with its own lower-case form padded with whitespace |
| `PlayerSetup.GamePayload` | client/src/pages/player-setup.tsx:96-111 | the request carries the non-blank names untrimmed and in order, the selected count, and weekend exactly on day 0 or 6 |
| `PlayerSetup.AcceptedRosterValidates` | client/src/pages/player-setup.tsx:96-111 | an accepted roster of up to 8 players passes the server's game validation unchanged |
| `PlayerSetup.LargeGroupsRefused` | client/src/pages/player-setup.tsx:140 | counts 9 and 10 can be selected, but the server refuses the game |
| `Results.Group` | client/src/pages/results.tsx:28-39 | one well-formed card per player name, and a card for exactly the players that have a row, except names of `Object.prototype` properties, which the plain-object grouping never lists |
| `Results.InheritedNameVanishes` | client/src/pages/results.tsx:33-39 | a player named "constructor" gets no card, while the other players still do |
| `Results.GroupIsLastRow` | client/src/pages/results.tsx:32-37 | a player's stroke on a hole is that of the last row for the player and hole; a name of an `Object.prototype` property has none |
| `Results.SetStrokeTotal` | client/src/pages/results.tsx:42-45 | overwriting a hole changes the total by the new strokes minus the old, or adds the new strokes for a new hole |
| `Results.Standings` | client/src/pages/results.tsx:39-53 | one standing per card, carrying its name and total |
| `Results.Ranking` | client/src/pages/results.tsx:55-56 | the standings of the grouped scores, ordered by total ascending |
| `Results.WinnerHasFewestStrokes` | client/src/pages/results.tsx:56 | the first standing has no more strokes than any other |
| `Results.RankIconOf` | client/src/pages/results.tsx:61-72 | gold, silver and bronze for indices 0, 1 and 2, and position index + 1 otherwise |
| `Results.JsRem` | client/src/pages/results.tsx:213 | JavaScript's remainder: equal to `%` for a non-negative dividend, non-positive for a negative one, and always dividend minus a multiple of the divisor |
| `Results.DurationParts` | client/src/pages/results.tsx:211-231 | only positive parts, units strictly descending, and minutes and seconds below 60 |
| `Results.DurationPartsValue` | client/src/pages/results.tsx:211-217 | the parts of a non-negative duration add up to it truncated to whole seconds; under a second there are none |
| `Results.FormatDuration` | client/src/pages/results.tsx:203-235 | "N/A" exactly when a time is missing; otherwise "0 secs" when there are no parts, else the part texts joined by spaces |
| `Results.ShortOrNegativeDuration` | client/src/pages/results.tsx:233 | any duration under one second, negative ones included, reads "0 secs" |
| `Results.SingularUnits` | client/src/pages/results.tsx:219-233 | 1 h 1 min 1 s reads "1 hour 1 min 1 sec" |
| `Sales.Fields` | client/src/pages/sales.tsx:59 | five fields, the head count written as an integer |
| `Sales.Csv` | client/src/pages/sales.tsx:53-70 | nothing exactly when the transactions are absent; otherwise the text starts with the header and a newline, and no transactions give just that |
| `Sales.LineReadsBackIff` | client/src/pages/sales.tsx:58-60 | splitting a row's line at commas gives its five fields back exactly when no field contains a comma |
| `Sales.LineUnbroken` | client/src/pages/sales.tsx:58-60 | a row without newlines in its fields makes a single line |
| `Sales.CsvReadsBack` | client/src/pages/sales.tsx:56-60 | when no field holds a comma or newline, the body splits into one line per row in order, each reading back as its fields |
| `Sales.ThousandsSeparatorShiftsColumns` | client/src/pages/sales.tsx:58-60 | a cost written "₹1,200" does not read back as its own field: the line no longer splits into the row's five fields |
| `Sales.QuotedCsv` | client/src/pages/sales.tsx:53-70 | as the export, but every field is quoted; no transactions give the same text |
| `Sales.QuotedLineReadsBack` | client/src/pages/sales.tsx:58-60 | a quoted line always reads back as its five fields, whatever they contain |
| `Sales.QuotedCsvReadsBack` | client/src/pages/sales.tsx:56-60 | with quoting, the body splits into one line per row and each reads back as its fields, commas included |
| `Sales.ThousandsSeparatorKept` | client/src/pages/sales.tsx:58-60 | with quoting, a cost "₹1,200" stays the fourth of five fields |

## Left out

- HTTP and Express plumbing are not modelled: status codes, JSON bodies, sessions, `requireAuth`, and admin login and logout with bcrypt. A handler is a function from the database and request to a new database and a result.
- The Drizzle/PostgreSQL driver is not modelled; each query is a fold over the table contents. Concurrency between requests is out of scope.
- React rendering, toasts, navigation, react-query caching and sessionStorage persistence are left out. Only the state transitions of the handlers are modelled.
- Calendar and time-zone arithmetic is not modelled. The local clock has no daylight saving, so a day is 86 400 000 ms. "One month later" is the parameter `addMonths`, and the weekday comes from the caller.
- Floating point is replaced by exact arithmetic. Prices are read as exact decimals rather than with `parseFloat`. Cost, growth and average are exact ratios rounded as `toFixed` would round the exact value, not the binary double.
- `toLocaleString` and `toLocaleTimeString` renderings are not modelled. The dashboard and ledger return amounts in paise and instants in ms, and the CSV takes time and cost as already-rendered text.
- `encodeURI`, the `data:` URI prefix and the download link of the CSV export are left out. The model stops at the CSV text.
- The numeric grammar is narrowed. `Decimal.NumericToPaise` accepts optionally signed digits with an optional fractional part. PostgreSQL's exponents and surrounding spaces are not modelled. A third or later decimal is rounded half away from zero, as PostgreSQL rounds `numeric`.
- `Text.ToLower` lower-cases ASCII letters only. Other scripts compare case-sensitively in the model.
- `Results.Group` keeps cards in first-appearance order, while `Object.keys` lists integer-like names first. Only the order of equal totals after sorting could differ.
- `Results.Group` drops a row whose player name is an `Object.prototype` property, as the plain object does. What the write does to the inherited value is not modelled. A `__proto__` row writes hole numbers onto `Object.prototype`, and the effect of that on later players named like a hole number is not modelled either.
- `Gameplay.TotalBefore`: a total that has become a string, by adding an inherited function, is `None`. Its text is not modelled. The server refuses it as a non-number.
- `Sorting.SortBy`: stability is not proved. JavaScript's sort is stable, and ORDER BY leaves ties unspecified, so the order among equal keys is left open.
- `Storage.ScoresByGame`: names compare by character code (`Text.StrLe`), not by PostgreSQL's collation.
- `Results.FormatDuration`: the results screen reads a `startedAt` field that the games table does not have. The model takes both times as options, so in practice the result is "N/A".
- Player registration, the users table and the `updatedBy` foreign key are left out. An admin id is a parameter, and registered players are the rows of `Db.players`.
- The demo-number screen is left out. No server logic of it is part of this model.
- The revenue-impact estimate on the pricing screen is left out; it is a display-only float guess.
- `Routes.PeriodWindow`: the weekly and monthly starts are `now` minus 7 days and `addMonths(now, -1)`. The clock is still the parameter `now`.

## Findings

| source | as written | input that shows it | evidently intended | confidence | as-written member | corrected member |
|---|---|---|---|---|---|---|
| server/routes.ts:302 | `hour <= 12 ? hour + "AM" : (hour - 12) + "PM"` | hour 12 (the noon bucket of the hourly chart) | noon is labelled "12PM"; "12AM" is midnight | high; not executed | `Routes.NoonLabelledAsMidnight` (on `Routes.HourLabelAsWritten`, used by `Routes.HourPointOf` and `Routes.HourlySeries`) | `Routes.HourLabel`, used by `Routes.CorrectedHourPointOf` and `Routes.CorrectedHourlySeries`, with `Routes.LabelsAgreeExceptNoon` and `Routes.SeriesDifferOnlyAtNoon` |
| client/src/pages/sales.tsx:58-60 | fields are joined with "," without quoting, and the cost comes from server/routes.ts:359 as `₹` + `toLocaleString()` | a ₹1,200 game: the cost field "₹1,200" splits into "₹1" and "200" | each transaction stays five columns, with the cost quoted | medium; not executed | `Sales.ThousandsSeparatorShiftsColumns` (on `Sales.Csv`, characterised by `Sales.LineReadsBackIff`) | `Sales.QuotedCsv`, with `Sales.QuotedCsvReadsBack` and `Sales.ThousandsSeparatorKept` |

=== FILE: decimal.dfy ===
/** Fixed-point money and the two decimal renderings the application relies on:
    JavaScript's `Number.prototype.toFixed` (evaluated on the exact rational
    value) and PostgreSQL's `numeric(10, 2)` column, which rounds its input to
    two places and refuses values with more than eight integer digits.
    Money is an integer number of paise (hundredths of a rupee). */
module Decimal {
  import opened Text
  import opened Wrappers

  const PAISE_PER_RUPEE: nat := 100

  /** numeric(10, 2) keeps ten significant digits, two of them after the
      point: every magnitude it accepts is below 10^10 paise. */
  const MONEY_LIMIT: nat := 10_000_000_000

  function Abs(x: int): nat {
    if x < 0 then -x else x
  }

  /** The integer nearest to n / d, taking the larger one on a tie. */
  function RoundDiv(n: nat, d: nat): (r: nat)
    requires d > 0
    ensures 2 * d * r <= 2 * n + d
    ensures 2 * n + d < 2 * d * r + 2 * d
  {
    var q := (2 * n + d) / (2 * d);
    assert 2 * n + d == (2 * d) * q + (2 * n + d) % (2 * d);
    q
  }

  /** A decimal number read from text: (-1 if negative) * digits / 10^scale. */
  datatype Dec = Dec(negative: bool, digits: nat, scale: nat)

  /** Reads `[-|+]digits[.digits]`; anything else is refused. */
  function ParseDecimal(s: string): Option<Dec> {
    var signed := |s| > 0 && (s[0] == '-' || s[0] == '+');
    var negative := |s| > 0 && s[0] == '-';
    var body := if signed then s[1..] else s;
    var parts := Split(body, '.');
    if |parts| == 1 && |parts[0]| > 0 && AllDigits(parts[0]) then
      Some(Dec(negative, ParseNat(parts[0]), 0))
    else if |parts| == 2 && |parts[0]| > 0 && |parts[1]| > 0
            && AllDigits(parts[0]) && AllDigits(parts[1]) then
      ParseNatAppend(parts[0], parts[1]);
      Some(Dec(negative, ParseNat(parts[0] + parts[1]), |parts[1]|))
    else None
  }

  lemma DigitsHaveNoPoint(s: string)
    requires AllDigits(s)
    ensures '.' !in s
  {
  }

  /** The digits of `n` with a point before the last `places` of them and at
      least one digit before the point. */
  function FixedText(n: nat, places: nat): (r: string)
    ensures |r| > 0 && IsDigit(r[0])
    ensures ParseDecimal(r) == Some(Dec(false, n, places))
  {
    var m := PadDigits(NatToString(n), places + 1);
    if places == 0 then
      DigitsHaveNoPoint(m);
      assert Split(m, '.') == [m];
      m
    else
      PointedDigitsParse(m, places);
      m[..|m| - places] + "." + m[|m| - places..]
  }

  lemma PointedDigitsParse(m: string, places: nat)
    requires AllDigits(m) && 0 < places < |m|
    ensures var r := m[..|m| - places] + "." + m[|m| - places..];
      IsDigit(r[0]) && ParseDecimal(r) == Some(Dec(false, ParseNat(m), places))
  {
    var a := m[..|m| - places];
    var b := m[|m| - places..];
    assert a + b == m;
    ReadPointed(a, b);
  }

  /** `a.b` with digit strings on both sides reads as the digits of `a + b`
      scaled by |b|. */
  lemma ReadPointed(a: string, b: string)
    requires AllDigits(a) && AllDigits(b) && |a| > 0 && |b| > 0
    ensures AllDigits(a + b)
    ensures var r := a + "." + b;
      IsDigit(r[0]) && ParseDecimal(r) == Some(Dec(false, ParseNat(a + b), |b|))
  {
    ParseNatAppend(a, b);
    DigitsHaveNoPoint(a);
    DigitsHaveNoPoint(b);
    var r := a + "." + b;
    assert Join([a, b], '.') == r;
    SplitJoin([a, b], '.');
    assert r[0] == a[0];
    assert !(r[0] == '-' || r[0] == '+');
    assert Split(r, '.') == [a, b];
  }

  /** `(num / den).toFixed(places)` on the exact value: the sign is written
      separately and the magnitude is rounded to the nearest multiple of
      10^-places, ties going up. A negative value that rounds to zero keeps
      its '-' sign, as in JavaScript. */
  function ToFixed(num: int, den: nat, places: nat): (r: string)
    requires den > 0
    ensures |r| > 0
    ensures r[0] == '-' <==> num < 0
    ensures ParseDecimal(r) == Some(Dec(num < 0, RoundDiv(Abs(num) * Pow10(places), den), places))
  {
    var f := FixedText(RoundDiv(Abs(num) * Pow10(places), den), places);
    if num < 0 then
      var r := "-" + f;
      assert r[1..] == f;
      r
    else f
  }

  /** Magnitude of `d` at `scale` decimal places, rounding half away from
      zero: the integer nearest to digits * 10^scale / 10^d.scale, the larger
      one on a tie. */
  function Rescale(d: Dec, scale: nat): (r: nat)
    ensures 2 * Pow10(d.scale) * r <= 2 * d.digits * Pow10(scale) + Pow10(d.scale)
    ensures 2 * d.digits * Pow10(scale) + Pow10(d.scale) < 2 * Pow10(d.scale) * r + 2 * Pow10(d.scale)
  {
    if d.scale <= scale then
      var k := Pow10(scale - d.scale);
      Pow10Add(d.scale, scale - d.scale);
      ScaledUp(d.digits, k, Pow10(d.scale), Pow10(scale));
      d.digits * k
    else
      var k := Pow10(d.scale - scale);
      var q := RoundDiv(d.digits, k);
      Pow10Add(scale, d.scale - scale);
      RoundedDown(d.digits, k, q, Pow10(scale), Pow10(d.scale));
      q
  }

  lemma {:induction false} Pow10Add(a: nat, b: nat)
    ensures Pow10(a + b) == Pow10(a) * Pow10(b)
    decreases a
  {
    if a > 0 {
      Pow10Add(a - 1, b);
      assert Pow10(a + b) == 10 * Pow10(a - 1 + b);
    }
  }

  lemma ScaledUp(n: nat, k: nat, p: nat, q: nat)
    requires q == p * k && p > 0
    ensures 2 * p * (n * k) <= 2 * n * q + p
    ensures 2 * n * q + p < 2 * p * (n * k) + 2 * p
  {
    assert n * q == p * (n * k);
  }

  lemma RoundedDown(n: nat, k: nat, r: nat, p: nat, q: nat)
    requires k > 0 && p > 0 && q == p * k
    requires 2 * k * r <= 2 * n + k
    requires 2 * n + k < 2 * k * r + 2 * k
    ensures 2 * q * r <= 2 * n * p + q
    ensures 2 * n * p + q < 2 * q * r + 2 * q
  {
    assert (2 * k * r) * p <= (2 * n + k) * p;
    assert (2 * n + k) * p < (2 * k * r + 2 * k) * p;
  }

  /** Storing text into a numeric(10, 2) column: parse, round to two places,
      refuse an overflow. The result is in paise. */
  function NumericToPaise(s: string): (r: Result<int, string>)
    ensures r.Ok? ==> Abs(r.value) < MONEY_LIMIT
    ensures r.Ok? <==> ParseDecimal(s).Some? && Rescale(ParseDecimal(s).value, 2) < MONEY_LIMIT
    ensures r.Ok? ==> var d := ParseDecimal(s).value;
      r.value == (if d.negative then -(Rescale(d, 2) as int) else Rescale(d, 2) as int)
  {
    match ParseDecimal(s)
    case None => Err("invalid input syntax for type numeric")
    case Some(d) =>
      var m := Rescale(d, 2);
      if m >= MONEY_LIMIT then Err("numeric field overflow")
      else
        var paise := if d.negative then -(m as int) else m as int;
        Ok(paise)
  }

  /** The two-decimal text of an amount of paise, as `toFixed(2)` renders
      rupees and as the numeric(10, 2) column prints them. */
  function MoneyText(paise: int): string {
    ToFixed(paise, PAISE_PER_RUPEE, 2)
  }

  /** Every amount the column can hold survives rendering and re-reading. */
  lemma MoneyRoundTrip(paise: int)
    requires Abs(paise) < MONEY_LIMIT
    ensures NumericToPaise(MoneyText(paise)) == Ok(paise)
  {
    var n := RoundDiv(Abs(paise) * 100, 100);
    assert n == Abs(paise);
    assert Pow10(2) == 100;
    assert ParseDecimal(MoneyText(paise)) == Some(Dec(paise < 0, n, 2));
    assert Rescale(Dec(paise < 0, n, 2), 2) == n;
  }

  /** An amount of a hundred million rupees or more does not fit the column. */
  lemma MoneyOverflow(paise: int)
    requires Abs(paise) >= MONEY_LIMIT
    ensures NumericToPaise(MoneyText(paise)) == Err("numeric field overflow")
  {
    var n := RoundDiv(Abs(paise) * 100, 100);
    assert n == Abs(paise);
    assert Pow10(2) == 100;
    assert ParseDecimal(MoneyText(paise)) == Some(Dec(paise < 0, n, 2));
    assert Rescale(Dec(paise < 0, n, 2), 2) == n;
  }
}

=== FILE: gameplay.dfy ===
/** The score-entry screen of client/src/pages/gameplay.tsx as a state
    machine: a cursor over the seven holes, the roster, and a map from hole
    to player to strokes. Rendering, session persistence and navigation are
    left out; the transitions are pure functions of the state. */
module Gameplay {
  import opened Wrappers
  import opened Text
  import opened Schema
  import opened PlainObject

  const FIRST_HOLE: int := 1
  const LAST_HOLE: int := 7

  /** The holes on which zero and negative scores are allowed. */
  predicate IsBonusHole(hole: int) {
    hole == 5 || hole == 7
  }

  type Scores = map<int, map<string, int>>

  datatype Play = Play(hole: int, names: seq<string>, scores: Scores)

  predicate ValidCursor(p: Play) {
    FIRST_HOLE <= p.hole <= LAST_HOLE
  }

  /** The stored strokes of `name` on `hole`, if any. */
  function Entry(scores: Scores, hole: int, name: string): Option<int> {
    if hole in scores && name in scores[hole] then Some(scores[hole][name]) else None
  }

  function HoleOf(scores: Scores, hole: int): map<string, int> {
    if hole in scores then scores[hole] else map[]
  }

  /** What `scoresByHole[hole][name]` yields: the own entry; a truthy value
      inherited from `Object.prototype`, when the hole's object exists, has
      no own entry for the name, and the name is in `PROTOTYPE_KEYS`; or
      `undefined`. */
  datatype Cell = Own(strokes: int) | Inherited | Undefined

  function Read(scores: Scores, hole: int, name: string): Cell {
    if hole in scores && name in scores[hole] then Own(scores[hole][name])
    else if hole in scores && name in PROTOTYPE_KEYS then Inherited
    else Undefined
  }

  // ---------------------------------------------------------------------------
  // Initialisation

  /** One hole's object after the roster loop: every listed name that reads
      `undefined` is given 0. A name in `PROTOTYPE_KEYS` without an own entry
      reads the inherited value instead, so it is given nothing. */
  function FillHole(m: map<string, int>, names: seq<string>): (r: map<string, int>)
    ensures forall n :: n in r <==> n in m || (n in names && n !in PROTOTYPE_KEYS)
    ensures forall n :: n in m ==> r[n] == m[n]
    ensures forall n :: n in names && n !in m && n !in PROTOTYPE_KEYS ==> r[n] == 0
  {
    map n | n in m.Keys + (set x | x in names && x !in PROTOTYPE_KEYS) :: if n in m then m[n] else 0
  }

  /** The state when the screen opens: hole 1, every hole 1..7 present, and
      no player reading `undefined` on any of them. The restored entries are
      kept, the missing ones are 0, and a player named after an inherited
      property who had no entry still has none. */
  function Init(names: seq<string>, stored: Scores): (r: Play)
    ensures r.hole == FIRST_HOLE && r.names == names
    ensures forall h :: FIRST_HOLE <= h <= LAST_HOLE ==> h in r.scores
    ensures forall h, n :: FIRST_HOLE <= h <= LAST_HOLE && n in names ==> !Read(r.scores, h, n).Undefined?
    ensures forall h, n :: Entry(stored, h, n).Some? ==> Entry(r.scores, h, n) == Entry(stored, h, n)
    ensures forall h, n ::
      Entry(stored, h, n).None? && FIRST_HOLE <= h <= LAST_HOLE && n in names && n !in PROTOTYPE_KEYS ==>
        Entry(r.scores, h, n) == Some(0)
    ensures forall h, n :: Entry(r.scores, h, n).Some? ==>
      Entry(stored, h, n).Some? || (FIRST_HOLE <= h <= LAST_HOLE && n in names && n !in PROTOTYPE_KEYS)
  {
    Play(FIRST_HOLE, names, FillHoles(names, stored))
  }

  function CourseHoles(): (r: set<int>)
    ensures forall h :: h in r <==> FIRST_HOLE <= h <= LAST_HOLE
  {
    set h: int | FIRST_HOLE <= h <= LAST_HOLE && h in [1, 2, 3, 4, 5, 6, 7]
  }

  /** The loop over holes 1..7: each is created if absent and filled; every
      other stored hole is left as it was. */
  function FillHoles(names: seq<string>, stored: Scores): (r: Scores)
    ensures forall h :: FIRST_HOLE <= h <= LAST_HOLE ==> h in r && r[h] == FillHole(HoleOf(stored, h), names)
    ensures forall h :: h in r && !(FIRST_HOLE <= h <= LAST_HOLE) ==> h in stored && r[h] == stored[h]
  {
    map h | h in stored.Keys + CourseHoles() ::
      if FIRST_HOLE <= h <= LAST_HOLE then FillHole(HoleOf(stored, h), names) else stored[h]
  }

  // ---------------------------------------------------------------------------
  // Entering scores

  /** `handleScoreSelect`: records `strokes` for `name` on the current hole. */
  function SelectScore(p: Play, name: string, strokes: int): (r: Play)
    ensures r.hole == p.hole && r.names == p.names
    ensures Entry(r.scores, p.hole, name) == Some(strokes)
    ensures forall h, n :: h != p.hole || n != name ==> Entry(r.scores, h, n) == Entry(p.scores, h, n)
  {
    p.(scores := p.scores[p.hole := HoleOf(p.scores, p.hole)[name := strokes]])
  }

  const MIN_MANUAL_STROKES: int := 1
  const MAX_MANUAL_STROKES: int := 40

  /** `handleManualScore`: an empty field clears the entry to 0, a field of
      decimal digits between 1 and 40 is recorded, and anything else is
      ignored. */
  function ManualScore(p: Play, name: string, text: string): (r: Play)
    ensures text == "" ==> r == SelectScore(p, name, 0)
    ensures text != "" && AllDigits(text) && MIN_MANUAL_STROKES <= ParseNat(text) <= MAX_MANUAL_STROKES ==>
      r == SelectScore(p, name, ParseNat(text))
    ensures text != "" && (!AllDigits(text) || !(MIN_MANUAL_STROKES <= ParseNat(text) <= MAX_MANUAL_STROKES)) ==>
      r == p
  {
    if text == "" then SelectScore(p, name, 0)
    else if !AllDigits(text) then p
    else
      var n := ParseNat(text);
      if MIN_MANUAL_STROKES <= n <= MAX_MANUAL_STROKES then SelectScore(p, name, n) else p
  }

  /** A manual entry never records anything outside 0..40. */
  lemma ManualScoreRange(p: Play, name: string, text: string)
    ensures var v := Entry(ManualScore(p, name, text).scores, p.hole, name);
      v == Entry(p.scores, p.hole, name) || (v.Some? && 0 <= v.value <= MAX_MANUAL_STROKES)
  {
  }

  /** `getCurrentHoleScore`, which is `value || 0`: an own entry as it is,
      0 for `undefined`, and the inherited value, which is truthy, as it is. */
  function CurrentHoleScore(p: Play, name: string): (r: Cell)
    ensures !r.Undefined?
  {
    match Read(p.scores, p.hole, name)
    case Undefined => Own(0)
    case c => c
  }

  /** One step of `total += scoresByHole[hole][name]` behind the guard
      `!== undefined`. `None` stands for a total that has become a string:
      adding an inherited function concatenates its source text, and every
      later addition concatenates too. */
  function AddCell(total: Option<int>, c: Cell): Option<int> {
    match (total, c)
    case (Some(t), Own(v)) => Some(t + v)
    case (Some(t), Undefined) => Some(t)
    case _ => None
  }

  /** The strokes of `name` summed over holes 1 .. upTo - 1, as the two
      totalling loops compute them. */
  function TotalBefore(scores: Scores, name: string, upTo: int): Option<int>
    decreases upTo
  {
    if upTo <= FIRST_HOLE then Some(0)
    else AddCell(TotalBefore(scores, name, upTo - 1), Read(scores, upTo - 1, name))
  }

  /** `calculateTotalScore`: the strokes of the holes already played. */
  function RunningTotal(p: Play, name: string): Option<int> {
    TotalBefore(p.scores, name, p.hole)
  }

  /** A total stays a number exactly when none of the holes it sums reads an
      inherited value. */
  lemma {:induction false} TotalIsNumberIff(scores: Scores, name: string, upTo: int)
    ensures TotalBefore(scores, name, upTo).Some? <==>
      forall h :: FIRST_HOLE <= h < upTo ==> !Read(scores, h, name).Inherited?
    decreases upTo
  {
    if upTo > FIRST_HOLE {
      TotalIsNumberIff(scores, name, upTo - 1);
    }
  }

  /** The total up to a hole depends only on what the earlier holes read. */
  lemma {:induction false} TotalBeforeFrame(a: Scores, b: Scores, name: string, upTo: int)
    requires forall h :: FIRST_HOLE <= h < upTo ==> Read(a, h, name) == Read(b, h, name)
    ensures TotalBefore(a, name, upTo) == TotalBefore(b, name, upTo)
    decreases upTo
  {
    if upTo > FIRST_HOLE {
      TotalBeforeFrame(a, b, name, upTo - 1);
    }
  }

  /** Entering a score on the current hole leaves every running total as it
      was: only completed holes count. */
  lemma SelectKeepsRunningTotal(p: Play, name: string, strokes: int, other: string)
    ensures RunningTotal(SelectScore(p, name, strokes), other) == RunningTotal(p, other)
  {
    TotalBeforeFrame(SelectScore(p, name, strokes).scores, p.scores, other, p.hole);
  }

  /** When no hole of 1 .. upTo - 1 reads an inherited value and every entry
      lies in [lo, hi], the total is a number within the same bounds scaled
      by the number of holes. */
  lemma {:induction false} TotalBeforeBounds(scores: Scores, name: string, upTo: int, lo: int, hi: int)
    requires FIRST_HOLE <= upTo && lo <= 0 <= hi
    requires forall h :: FIRST_HOLE <= h < upTo ==>
      !Read(scores, h, name).Inherited? && lo <= Entry(scores, h, name).GetOr(0) <= hi
    ensures TotalBefore(scores, name, upTo).Some?
    ensures (upTo - FIRST_HOLE) * lo <= TotalBefore(scores, name, upTo).value <= (upTo - FIRST_HOLE) * hi
    decreases upTo
  {
    if upTo > FIRST_HOLE {
      TotalBeforeBounds(scores, name, upTo - 1, lo, hi);
      assert (upTo - FIRST_HOLE) * lo == (upTo - 1 - FIRST_HOLE) * lo + lo;
      assert (upTo - FIRST_HOLE) * hi == (upTo - 1 - FIRST_HOLE) * hi + hi;
    }
  }

  // ---------------------------------------------------------------------------
  // Moving between holes

  /** The outcome of pressing "next". */
  datatype Advance =
    | Blocked(missing: seq<string>)          // some players have no score
    | Moved(next: Play)                       // on to the following hole
    | Finished(payload: seq<ScoreRequest>)    // the last hole: the totals to submit

  /** The players that still block the current hole, in roster order: none
      on holes 5 and 7, and those whose score is 0 on the others. An
      inherited value is neither `undefined` nor falsy, so it never blocks. */
  function MissingScores(p: Play, names: seq<string>): (r: seq<string>)
    ensures IsBonusHole(p.hole) ==> r == []
    ensures forall n :: n in r <==> n in names && !IsBonusHole(p.hole) && CurrentHoleScore(p, n) == Own(0)
    ensures forall n :: n in names && Read(p.scores, p.hole, n).Inherited? ==> n !in r
    ensures (forall n :: n in names ==> CurrentHoleScore(p, n) != Own(0)) ==> r == []
    ensures |r| <= |names|
  {
    if |names| == 0 then []
    else
      (if !IsBonusHole(p.hole) && CurrentHoleScore(p, names[0]) == Own(0) then [names[0]] else [])
      + MissingScores(p, names[1..])
  }

  /** The totals submitted at the end: one row per player in roster order,
      on hole 1, with the strokes summed over holes 1..7; a total that has
      become a string is not an integer, written `None`. */
  function FinalPayload(p: Play): (r: seq<ScoreRequest>)
    ensures |r| == |p.names|
    ensures forall i :: 0 <= i < |r| ==>
      r[i] == ScoreRequest(Some(p.names[i]), Some(1), TotalBefore(p.scores, p.names[i], LAST_HOLE + 1))
  {
    seq(|p.names|, i requires 0 <= i < |p.names| =>
      ScoreRequest(Some(p.names[i]), Some(1), TotalBefore(p.scores, p.names[i], LAST_HOLE + 1)))
  }

  /** `handleNextHole`. */
  function Next(p: Play): (r: Advance)
    ensures r.Blocked? <==> |MissingScores(p, p.names)| > 0
    ensures r.Blocked? ==> r.missing == MissingScores(p, p.names)
    ensures r.Moved? <==> |MissingScores(p, p.names)| == 0 && p.hole != LAST_HOLE
    ensures r.Moved? ==> r.next == p.(hole := p.hole + 1)
    ensures r.Finished? ==> r.payload == FinalPayload(p)
  {
    var missing := MissingScores(p, p.names);
    if |missing| > 0 then Blocked(missing)
    else if p.hole == LAST_HOLE then Finished(FinalPayload(p))
    else Moved(p.(hole := p.hole + 1))
  }

  /** `handlePreviousHole`. */
  function Previous(p: Play): (r: Play)
    ensures p.hole > FIRST_HOLE ==> r == p.(hole := p.hole - 1)
    ensures p.hole <= FIRST_HOLE ==> r == p
  {
    if p.hole > FIRST_HOLE then p.(hole := p.hole - 1) else p
  }

  /** Neither button takes the cursor off the course, and neither changes
      the roster or the scores. */
  lemma CursorStaysOnCourse(p: Play)
    requires ValidCursor(p)
    ensures ValidCursor(Previous(p)) && Previous(p).scores == p.scores && Previous(p).names == p.names
    ensures Next(p).Moved? ==> ValidCursor(Next(p).next) && Next(p).next.scores == p.scores
  {
  }

  /** The submitted total is the running total shown on the last hole plus
      that hole's score. */
  lemma FinalTotalIsRunningPlusLast(p: Play, i: int)
    requires p.hole == LAST_HOLE && 0 <= i < |p.names|
    ensures FinalPayload(p)[i].strokes == AddCell(RunningTotal(p, p.names[i]), CurrentHoleScore(p, p.names[i]))
  {
  }

  /** The roster without the names that find an inherited value. */
  function OwnNames(names: seq<string>): (r: seq<string>)
    ensures forall n :: n in r <==> n in names && n !in PROTOTYPE_KEYS
  {
    if |names| == 0 then []
    else (if names[0] in PROTOTYPE_KEYS then [] else [names[0]]) + OwnNames(names[1..])
  }

  /** On a fresh card every player blocks hole 1, since every score starts
      at 0, except a player named after an inherited property, who reads the
      inherited value. With only such players the card moves on to hole 2. */
  lemma FreshCardBlocks(names: seq<string>)
    ensures var p := Init(names, map[]);
      Next(p) == (if |OwnNames(names)| > 0 then Blocked(OwnNames(names)) else Moved(p.(hole := FIRST_HOLE + 1)))
  {
    var p := Init(names, map[]);
    forall n | n in names ensures CurrentHoleScore(p, n) == Own(0) <==> n !in PROTOTYPE_KEYS {
      assert FIRST_HOLE in p.scores;
    }
    MissingExactly(p, names);
  }

  lemma {:induction false} MissingExactly(p: Play, names: seq<string>)
    requires !IsBonusHole(p.hole)
    requires forall n :: n in names ==> (CurrentHoleScore(p, n) == Own(0) <==> n !in PROTOTYPE_KEYS)
    ensures MissingScores(p, names) == OwnNames(names)
    decreases |names|
  {
    if |names| > 0 {
      MissingExactly(p, names[1..]);
    }
  }

  /** A hole on which a player reads an inherited value turns that player's
      final total into a string, and the server refuses the whole batch. */
  lemma InheritedTotalRefused(p: Play, i: int, h: int)
    requires 0 <= i < |p.names| && FIRST_HOLE <= h <= LAST_HOLE
    requires Read(p.scores, h, p.names[i]).Inherited?
    ensures ParseScoreBatch(FinalPayload(p)) == None
  {
    TotalIsNumberIff(p.scores, p.names[i], LAST_HOLE + 1);
    assert !ScoreRequestValid(FinalPayload(p)[i]);
  }

  /** A lone player named "constructor" is never asked for a score, and the
      total submitted from hole 7 is refused. */
  lemma InheritedNameSaveRefused()
    ensures Next(Init(["constructor"], map[])) == Moved(Init(["constructor"], map[]).(hole := 2))
    ensures var p := Init(["constructor"], map[]).(hole := LAST_HOLE);
      Next(p).Finished? && ParseScoreBatch(Next(p).payload) == None
  {
    FreshCardBlocks(["constructor"]);
    var p := Init(["constructor"], map[]).(hole := LAST_HOLE);
    assert Read(p.scores, FIRST_HOLE, "constructor").Inherited?;
    InheritedTotalRefused(p, 0, FIRST_HOLE);
    assert MissingScores(p, p.names) == [];
  }

  // ---------------------------------------------------------------------------
  // Score buttons

  /** The quick-pick buttons: -2..3 on holes 5 and 7, 1..6 elsewhere. */
  function ScoreButtons(hole: int): (r: seq<int>)
    ensures |r| == 6
    ensures forall i :: 0 <= i < 6 ==> r[i] == (if IsBonusHole(hole) then i - 2 else i + 1)
  {
    if IsBonusHole(hole) then [-2, -1, 0, 1, 2, 3] else [1, 2, 3, 4, 5, 6]
  }

  /** Once every player has picked a button on the current hole, "next" is
      not blocked: every button of an ordinary hole is non-zero, and a bonus
      hole never blocks. */
  lemma ButtonsUnblock(p: Play)
    requires forall n :: n in p.names ==>
      CurrentHoleScore(p, n).Own? ==> CurrentHoleScore(p, n).strokes in ScoreButtons(p.hole)
    ensures !Next(p).Blocked?
  {
    if !IsBonusHole(p.hole) {
      forall n | n in p.names ensures CurrentHoleScore(p, n) != Own(0) {
        if CurrentHoleScore(p, n).Own? {
          var i :| 0 <= i < 6 && ScoreButtons(p.hole)[i] == CurrentHoleScore(p, n).strokes;
        }
      }
    }
  }

  /** Played with the buttons and the manual field alone, the totals the
      last hole submits pass the server's validation exactly when no player
      reads an inherited value on any hole. */
  lemma PayloadAccepted(p: Play)
    requires forall h, n :: FIRST_HOLE <= h <= LAST_HOLE && n in p.names ==>
      -2 <= Entry(p.scores, h, n).GetOr(0) <= MAX_MANUAL_STROKES
    ensures ParseScoreBatch(FinalPayload(p)).Some? <==>
      forall h, n :: FIRST_HOLE <= h <= LAST_HOLE && n in p.names ==> !Read(p.scores, h, n).Inherited?
  {
    var r := FinalPayload(p);
    if forall h, n :: FIRST_HOLE <= h <= LAST_HOLE && n in p.names ==> !Read(p.scores, h, n).Inherited? {
      forall i | 0 <= i < |r| ensures ScoreRequestValid(r[i]) {
        TotalBeforeBounds(p.scores, p.names[i], LAST_HOLE + 1, -2, MAX_MANUAL_STROKES);
      }
    } else {
      var h, n :| FIRST_HOLE <= h <= LAST_HOLE && n in p.names && Read(p.scores, h, n).Inherited?;
      var i :| 0 <= i < |p.names| && p.names[i] == n;
      InheritedTotalRefused(p, i, h);
    }
  }
}

=== FILE: phone.dfy ===
/** The phone-number normaliser of server/utils/phoneNormalizer.ts: keep the
    decimal digits, then drop one leading Indian country code "91" when the
    digit string is longer than a bare ten-digit number. */
module PhoneNormalizer {
  import opened Text

  /** `s.replace(/\D/g, '')`: the decimal digits of `s`, in order. */
  function DigitsOf(s: string): (r: string)
    ensures AllDigits(r)
    ensures |r| <= |s|
  {
    if |s| == 0 then ""
    else (if IsDigit(s[0]) then [s[0]] else []) + DigitsOf(s[1..])
  }

  /** Filtering digits distributes over concatenation. */
  lemma {:induction false} DigitsOfAppend(a: string, b: string)
    ensures DigitsOf(a + b) == DigitsOf(a) + DigitsOf(b)
    decreases |a|
  {
    if |a| == 0 {
      assert a + b == b;
    } else {
      assert (a + b)[0] == a[0];
      assert (a + b)[1..] == a[1..] + b;
      DigitsOfAppend(a[1..], b);
    }
  }

  /** A string of digits only is its own digit filter. */
  lemma {:induction false} DigitsOfDigits(s: string)
    requires AllDigits(s)
    ensures DigitsOf(s) == s
    decreases |s|
  {
    if |s| > 0 {
      DigitsOfDigits(s[1..]);
    }
  }

  const COUNTRY_CODE: string := "91"
  const LOCAL_LENGTH: nat := 10

  /** Drops a leading "91" from a digit string longer than ten digits. */
  function StripCountryCode(d: string): (r: string)
    ensures r == d || (|d| > LOCAL_LENGTH && d == COUNTRY_CODE + r)
    ensures (|d| > LOCAL_LENGTH && d[..2] == COUNTRY_CODE) <==> r != d
  {
    if |d| > LOCAL_LENGTH && d[..2] == COUNTRY_CODE then
      assert d == d[..2] + d[2..];
      d[2..]
    else d
  }

  /** `normalizePhoneNumber`: the result is the digit string `d` of the input,
      with the prefix "91" removed exactly when `d` starts with it and has
      more than ten digits. */
  function NormalizePhoneNumber(phoneNumber: string): (r: string)
    ensures AllDigits(r)
    ensures phoneNumber == "" ==> r == ""
    ensures r == StripCountryCode(DigitsOf(phoneNumber))
  {
    if phoneNumber == "" then ""
    else
      var normalized := DigitsOf(phoneNumber);
      assert AllDigits(StripCountryCode(normalized));
      StripCountryCode(normalized)
  }

  /** At most one prefix is removed: the result has all the digits or all
      but two of them. */
  lemma NormalizeLength(phoneNumber: string)
    ensures var n := |DigitsOf(phoneNumber)|;
      |NormalizePhoneNumber(phoneNumber)| == n || |NormalizePhoneNumber(phoneNumber)| == n - 2
  {
  }

  /** A number of ten digits or fewer, given as digits only, is unchanged. */
  lemma NormalizeShortNumber(s: string)
    requires AllDigits(s) && |s| <= LOCAL_LENGTH
    ensures NormalizePhoneNumber(s) == s
  {
    DigitsOfDigits(s);
  }

  /** Spaces, dashes, '+' and any other non-digit can be inserted anywhere
      without changing the normalised number. */
  lemma NormalizeIgnoresNonDigit(a: string, c: char, b: string)
    requires !IsDigit(c)
    ensures NormalizePhoneNumber(a + [c] + b) == NormalizePhoneNumber(a + b)
  {
    DigitsOfAppend(a + [c], b);
    DigitsOfAppend(a, [c]);
    DigitsOfAppend(a, b);
    assert DigitsOf([c]) == "";
    assert DigitsOf(a + [c] + b) == DigitsOf(a + b);
  }

  /** "+91" followed by a space and a ten-digit number normalises to that number. */
  lemma CountryCodeDropped(local: string)
    requires AllDigits(local) && |local| == LOCAL_LENGTH
    ensures NormalizePhoneNumber("+91 " + local) == local
  {
    var full := COUNTRY_CODE + local;
    DigitsOfDigits(full);
    assert full[..2] == COUNTRY_CODE && full[2..] == local;
    assert "+91 " + local == "" + ['+'] + ("91" + [' '] + local);
    NormalizeIgnoresNonDigit("", '+', "91" + [' '] + local);
    assert "" + ("91" + [' '] + local) == "91" + [' '] + local;
    NormalizeIgnoresNonDigit("91", ' ', local);
  }

  /** A number of at most ten digits with one separator inside it normalises
      to its digits. */
  lemma SeparatedNumber(a: string, c: char, b: string)
    requires AllDigits(a) && AllDigits(b) && |a| + |b| <= LOCAL_LENGTH && !IsDigit(c)
    ensures NormalizePhoneNumber(a + [c] + b) == a + b
  {
    NormalizeIgnoresNonDigit(a, c, b);
    NormalizeShortNumber(a + b);
  }

  /** "+91 " followed by a ten-digit number with a dash inside it normalises
      to the ten digits. */
  lemma DashedCountryCode(a: string, b: string)
    requires AllDigits(a) && AllDigits(b) && |a| + |b| == LOCAL_LENGTH
    ensures NormalizePhoneNumber("+91 " + a + "-" + b) == a + b
  {
    assert "+91 " + a + "-" + b == ("+91 " + a) + ['-'] + b;
    NormalizeIgnoresNonDigit("+91 " + a, '-', b);
    assert "+91 " + a + b == "+91 " + (a + b);
    CountryCodeDropped(a + b);
  }

  /** The examples given with `normalizePhoneNumber`: each of these inputs
      normalises to "8015989208". */
  lemma DocumentedExamples(input: string)
    requires || input == "80159 89208" || input == "+91 8015989208"
             || input == "+91 80159-89208" || input == "8015989208"
    ensures NormalizePhoneNumber(input) == "8015989208"
  {
    var a, b := "80159", "89208";
    assert a + b == "8015989208";
    if input == "80159 89208" {
      assert input == a + [' '] + b;
      SeparatedNumber(a, ' ', b);
    } else if input == "8015989208" {
      NormalizeShortNumber(input);
    } else if input == "+91 8015989208" {
      assert input == "+91 " + (a + b);
      CountryCodeDropped(a + b);
    } else {
      assert input == "+91 " + a + "-" + b;
      DashedCountryCode(a, b);
    }
  }

  /** A digit string of more than ten digits that starts with "91" loses
      exactly those two digits. */
  lemma NormalizeCodePrefixed(d: string)
    requires AllDigits(d) && |d| > LOCAL_LENGTH && d[..2] == COUNTRY_CODE
    ensures NormalizePhoneNumber(d) == d[2..]
  {
    DigitsOfDigits(d);
  }

  /** Normalising is not idempotent: thirteen digits that begin "9191" lose
      one prefix on the first pass and another on the second. */
  lemma NormalizeTwiceStripsAgain(rest: string)
    requires AllDigits(rest) && |rest| >= 9
    ensures NormalizePhoneNumber("9191" + rest) == "91" + rest
    ensures NormalizePhoneNumber("91" + rest) == rest
    ensures NormalizePhoneNumber(NormalizePhoneNumber("9191" + rest)) != NormalizePhoneNumber("9191" + rest)
  {
    var once := "91" + rest;
    var twice := "9191" + rest;
    assert twice[..2] == COUNTRY_CODE && twice[2..] == once;
    assert once[..2] == COUNTRY_CODE && once[2..] == rest;
    NormalizeCodePrefixed(twice);
    NormalizeCodePrefixed(once);
    assert |rest| != |once|;
  }
}

=== FILE: plain_object.dfy ===
/** What a plain JavaScript object (`{}`) already answers before anything is
    written into it. Both score screens index such objects by player name. */
module PlainObject {

  /** The properties every plain object inherits from `Object.prototype`.
      Looking up a player name among them finds a truthy value (a function,
      or `Object.prototype` itself for `__proto__`) instead of `undefined`,
      unless the object has an own entry under that name. */
  const PROTOTYPE_KEYS: set<string> := {
    "constructor", "hasOwnProperty", "isPrototypeOf", "propertyIsEnumerable",
    "toLocaleString", "toString", "valueOf", "__proto__",
    "__defineGetter__", "__defineSetter__", "__lookupGetter__", "__lookupSetter__"}
}

=== FILE: player_setup.dfy ===
/** The roster screen of client/src/pages/player-setup.tsx: the name slots
    follow the selected player count, a start is refused when a slot is
    blank or two names clash, and an accepted roster becomes the body of the
    game-creation request. */
module PlayerSetup {
  import opened Wrappers
  import opened Text
  import opened Schema

  /** The count buttons offer 1 through 10 players. */
  const PLAYER_COUNT_CHOICES: seq<int> := [1, 2, 3, 4, 5, 6, 7, 8, 9, 10]
  const DEFAULT_PLAYER_COUNT: nat := 4

  /** The name slots after the count changes to `n`: the first names are
      kept and any new slot is blank. */
  function Resize(names: seq<string>, n: nat): (r: seq<string>)
    ensures |r| == n
    ensures forall i :: 0 <= i < n ==> r[i] == (if i < |names| then names[i] else "")
  {
    seq(n, i requires 0 <= i < n => if i < |names| then names[i] else "")
  }

  /** Shrinking and growing back blanks the dropped slots; growing keeps
      every name already typed. */
  lemma ResizeKeepsPrefix(names: seq<string>, n: nat)
    requires n >= |names|
    ensures Resize(names, n)[..|names|] == names
  {
  }

  /** The screen opens with four blank slots. */
  lemma InitialSlots()
    ensures Resize([], DEFAULT_PLAYER_COUNT) == ["", "", "", ""]
  {
  }

  predicate Blank(name: string) {
    Trim(name) == ""
  }

  /** `playerNames.filter(name => name.trim())`: the non-blank names, as
      typed, in order. */
  function FilledNames(names: seq<string>): (r: seq<string>)
    ensures |r| <= |names|
    ensures forall x :: x in r <==> x in names && !Blank(x)
    ensures forall x :: multiset(r)[x] == (if Blank(x) then 0 else multiset(names)[x])
  {
    if |names| == 0 then []
    else
      var head := if Blank(names[0]) then [] else [names[0]];
      var rest := FilledNames(names[1..]);
      FilterStep(names, head, rest);
      head + rest
  }

  /** One step of the filter: the first name, kept or dropped, before the
      filtered rest. */
  lemma FilterStep(names: seq<string>, head: seq<string>, rest: seq<string>)
    requires |names| > 0 && head == (if Blank(names[0]) then [] else [names[0]])
    requires forall x :: multiset(rest)[x] == (if Blank(x) then 0 else multiset(names[1..])[x])
    ensures forall x :: multiset(head + rest)[x] == (if Blank(x) then 0 else multiset(names)[x])
  {
    assert names == [names[0]] + names[1..];
    assert multiset(names) == multiset{names[0]} + multiset(names[1..]);
    assert multiset(head + rest) == multiset(head) + multiset(rest);
  }

  /** Filtering a roster split in two filters each part and keeps them in
      order, so the names that are sent keep the order they were typed in. */
  lemma {:induction false} FilledNamesAppend(a: seq<string>, b: seq<string>)
    ensures FilledNames(a + b) == FilledNames(a) + FilledNames(b)
    decreases |a|
  {
    if |a| > 0 {
      var head := if Blank(a[0]) then [] else [a[0]];
      assert FilledNames(a + b) == head + FilledNames(a[1..] + b) by {
        assert (a + b)[0] == a[0] && (a + b)[1..] == a[1..] + b;
      }
      FilledNamesAppend(a[1..], b);
      assert FilledNames(a) == head + FilledNames(a[1..]);
      Regroup(FilledNames(a + b), FilledNames(a), head, FilledNames(a[1..]), FilledNames(b));
    } else {
      assert a + b == b;
      assert FilledNames(a) == [];
    }
  }

  lemma Regroup(whole: seq<string>, left: seq<string>, head: seq<string>, x: seq<string>, y: seq<string>)
    requires whole == head + (x + y) && left == head + x
    ensures whole == left + y
  {
  }

  /** A blank slot is never sent, and a slot of spaces counts as blank. */
  lemma FilledDropsWhitespace(names: seq<string>, i: int)
    requires 0 <= i < |names| && forall k :: 0 <= k < |names[i]| ==> IsJsWhitespace(names[i][k])
    ensures names[i] !in FilledNames(names)
  {
    TrimEmptyIff(names[i]);
  }

  /** Names clash when they agree after trimming and lower-casing. */
  function NameKey(name: string): string {
    ToLower(Trim(name))
  }

  /** `filledNames.map(name => name.trim().toLowerCase())`. */
  function KeysOf(names: seq<string>): (r: seq<string>)
    ensures |r| == |names|
    ensures forall i :: 0 <= i < |r| ==> r[i] == NameKey(names[i])
  {
    seq(|names|, i requires 0 <= i < |names| => NameKey(names[i]))
  }

  /** `new Set(keys)`. */
  function ElemSet(ks: seq<string>): (r: set<string>)
    ensures |r| <= |ks|
    ensures forall k :: k in r <==> k in ks
  {
    if |ks| == 0 then {} else {ks[0]} + ElemSet(ks[1..])
  }

  predicate HasRepeat(ks: seq<string>) {
    exists i, j :: 0 <= i < j < |ks| && ks[i] == ks[j]
  }

  /** Two names clash when they agree after trimming and lower-casing. */
  predicate HasClash(names: seq<string>) {
    HasRepeat(KeysOf(names))
  }

  /** The handler's test `uniqueNames.size !== filledNames.length` detects
      exactly a repeated key. */
  lemma {:induction false} SizeTestFindsRepeat(ks: seq<string>)
    ensures |ElemSet(ks)| != |ks| <==> HasRepeat(ks)
    decreases |ks|
  {
    if |ks| > 0 {
      var rest := ks[1..];
      SizeTestFindsRepeat(rest);
      RepeatCons(ks);
      var n, m := |ElemSet(ks)|, |ElemSet(rest)|;
      if ks[0] in rest {
        assert n == m by {
          assert ElemSet(ks) == {ks[0]} + ElemSet(rest);
          assert ks[0] in ElemSet(rest);
          assert ElemSet(ks) == ElemSet(rest);
        }
        assert m <= |rest|;
      } else {
        assert n == 1 + m by {
          assert ElemSet(ks) == {ks[0]} + ElemSet(rest);
          assert ks[0] !in ElemSet(rest);
        }
      }
    }
  }

  /** A sequence repeats a value when its head recurs in the tail or the
      tail repeats one. */
  lemma RepeatCons(ks: seq<string>)
    requires |ks| > 0
    ensures HasRepeat(ks) <==> ks[0] in ks[1..] || HasRepeat(ks[1..])
  {
    var rest := ks[1..];
    if HasRepeat(ks) {
      var i, j :| 0 <= i < j < |ks| && ks[i] == ks[j];
      if i == 0 {
        assert rest[j - 1] == ks[0];
      } else {
        assert rest[i - 1] == rest[j - 1];
      }
    }
    if ks[0] in rest {
      var j :| 0 <= j < |rest| && rest[j] == ks[0];
      assert ks[j + 1] == ks[0];
    }
    if HasRepeat(rest) {
      var i, j :| 0 <= i < j < |rest| && rest[i] == rest[j];
      assert ks[i + 1] == ks[j + 1];
    }
  }

  datatype SetupError = MissingNames | DuplicateNames

  /** `handleStartGame`: the non-blank names must number exactly the selected
      count and must not clash; then the roster is accepted. */
  function StartGame(names: seq<string>, count: int): (r: Result<seq<string>, SetupError>)
    ensures r.Ok? <==> |FilledNames(names)| == count && !HasClash(FilledNames(names))
    ensures r == Err(DuplicateNames) <==> |FilledNames(names)| == count && HasClash(FilledNames(names))
    ensures r == Err(MissingNames) <==> |FilledNames(names)| != count
    ensures r.Ok? ==> r.value == FilledNames(names)
  {
    var filled := FilledNames(names);
    if |filled| != count then Err(MissingNames)
    else
      SizeTestFindsRepeat(KeysOf(filled));
      if |ElemSet(KeysOf(filled))| != |filled| then Err(DuplicateNames)
      else Ok(filled)
  }

  /** Two non-blank names with the same key are refused together. */
  lemma SameKeyRefused(a: string, b: string)
    requires !Blank(a) && !Blank(b) && NameKey(a) == NameKey(b)
    ensures StartGame([a, b], 2) == Err(DuplicateNames)
  {
    assert [a, b][1..] == [b];
    assert FilledNames([b]) == [b] by {
      assert [b][1..] == [];
    }
    assert FilledNames([a, b]) == [a, b];
    var ks := KeysOf([a, b]);
    assert ks[0] == ks[1];
  }

  /** A name clashes with its own lower-cased form padded with whitespace:
      "Ann" and " ann " cannot play together. */
  lemma CaseAndSpacingClash(name: string, pre: string, post: string)
    requires |name| > 0 && !IsJsWhitespace(name[0]) && !IsJsWhitespace(name[|name| - 1])
    requires forall k :: 0 <= k < |pre| ==> IsJsWhitespace(pre[k])
    requires forall k :: 0 <= k < |post| ==> IsJsWhitespace(post[k])
    ensures StartGame([name, pre + ToLower(name) + post], 2) == Err(DuplicateNames)
  {
    PaddedLowerSameKey(name, pre, post);
    SameKeyRefused(name, pre + ToLower(name) + post);
  }

  lemma PaddedLowerSameKey(name: string, pre: string, post: string)
    requires |name| > 0 && !IsJsWhitespace(name[0]) && !IsJsWhitespace(name[|name| - 1])
    requires forall k :: 0 <= k < |pre| ==> IsJsWhitespace(pre[k])
    requires forall k :: 0 <= k < |post| ==> IsJsWhitespace(post[k])
    ensures !Blank(name) && !Blank(pre + ToLower(name) + post)
    ensures NameKey(name) == NameKey(pre + ToLower(name) + post)
  {
    var lower := ToLower(name);
    var other := pre + lower + post;
    assert Trim(name) == name by {
      assert name == name[..0] + name + name[..0];
      TrimPadded(name[..0], name, name[..0]);
    }
    assert Trim(other) == lower by {
      ToLowerIdempotent(name);
      TrimPadded(pre, lower, post);
    }
    assert NameKey(other) == lower by {
      ToLowerIdempotent(name);
    }
  }

  // ---------------------------------------------------------------------------
  // The game-creation request

  /** Saturday (6) and Sunday (0) are weekend days. */
  predicate IsWeekendDay(dayOfWeek: int) {
    dayOfWeek == 0 || dayOfWeek == 6
  }

  /** `handleProceedAfterRules`: the body posted to create the game. The
      registered player's id comes from the session and may be missing. */
  function GamePayload(playerId: Option<string>, names: seq<string>, count: int, dayOfWeek: int): (r: GameRequest)
    ensures r.playerNames == Some(FilledNames(names))
    ensures r.playerCount == Some(count as real)
    ensures r.isWeekend == Some(IsWeekendDay(dayOfWeek))
    ensures r.playerId == playerId
    ensures r.id.None? && r.totalCost.None? && r.completedAt.None?
  {
    GameRequest(None, playerId, Some(FilledNames(names)), Some(count as real), None, Some(IsWeekendDay(dayOfWeek)), None)
  }

  /** An accepted roster of up to eight players, sent by a registered
      player, passes the server's validation unchanged. */
  lemma AcceptedRosterValidates(playerId: string, names: seq<string>, count: int, dayOfWeek: int)
    requires StartGame(names, count).Ok? && count in PLAYER_COUNT_CHOICES && count <= MAX_PLAYERS
    ensures var g := ParseInsertGame(GamePayload(Some(playerId), names, count, dayOfWeek));
      && g.Ok?
      && g.value == InsertGame(playerId, FilledNames(names), count, IsWeekendDay(dayOfWeek))
  {
    var req := GamePayload(Some(playerId), names, count, dayOfWeek);
    assert ValidPlayerCount(count as real) by {
      assert 1 <= count;
      assert (count as real).Floor == count;
    }
    assert |FilledNames(names)| >= 1 by {
      assert |FilledNames(names)| == count;
    }
    assert forall f: GameField :: GameFieldValid(req, f);
  }

  /** Counts 9 and 10 can be selected and accepted on this screen, but the
      server refuses the game. */
  lemma LargeGroupsRefused(playerId: Option<string>, names: seq<string>, count: int, dayOfWeek: int)
    requires count == 9 || count == 10
    ensures count in PLAYER_COUNT_CHOICES
    ensures var g := ParseInsertGame(GamePayload(playerId, names, count, dayOfWeek));
      g.Err? && PlayerCountField in g.error
  {
  }
}

=== FILE: results.dfy ===
/** The results screen of client/src/pages/results.tsx: the game's score rows
    are grouped into one card per player, totalled, ranked from the fewest
    strokes, and the playing time is written out in hours, minutes and
    seconds. */
module Results {
  import opened Wrappers
  import opened Text
  import opened PlainObject
  import opened Sorting
  import opened Schema
  import opened Storage

  // ---------------------------------------------------------------------------
  // Grouping

  /** One player's strokes per hole. `holes` lists the holes in the order
      they were first seen and always has exactly the keys of `strokes`. */
  datatype Card = Card(name: string, holes: seq<int>, strokes: map<int, int>)

  predicate WellFormed(c: Card) {
    && (forall h :: h in c.holes ==> h in c.strokes)
    && (forall h :: h in c.strokes ==> h in c.holes)
    && (forall i, j :: 0 <= i < j < |c.holes| ==> c.holes[i] != c.holes[j])
  }

  /** `scoresByPlayer[name][hole] = strokes` on one card. */
  function SetStroke(c: Card, hole: int, strokes: int): (r: Card)
    requires WellFormed(c)
    ensures WellFormed(r) && r.name == c.name
    ensures r.strokes == c.strokes[hole := strokes]
  {
    if hole in c.strokes then c.(strokes := c.strokes[hole := strokes])
    else Card(c.name, c.holes + [hole], c.strokes[hole := strokes])
  }

  /** The position of `name`'s card, if it has one. */
  function FindCard(cards: seq<Card>, name: string): (r: Option<nat>)
    ensures r.Some? ==> r.value < |cards| && cards[r.value].name == name
    ensures r.None? <==> forall i :: 0 <= i < |cards| ==> cards[i].name != name
  {
    if |cards| == 0 then None
    else if cards[0].name == name then Some(0)
    else match FindCard(cards[1..], name)
      case None => None
      case Some(i) => Some(i + 1)
  }

  predicate Grouped(cards: seq<Card>) {
    && (forall i :: 0 <= i < |cards| ==> WellFormed(cards[i]))
    && (forall i, j :: 0 <= i < j < |cards| ==> cards[i].name != cards[j].name)
  }

  /** One score row folded into the cards: the player's card is updated, or
      a new card is added at the end for a player not seen before. */
  function AddRow(cards: seq<Card>, s: Score): (r: seq<Card>)
    requires Grouped(cards)
    ensures Grouped(r)
    ensures |r| == |cards| || |r| == |cards| + 1
    ensures forall i :: 0 <= i < |cards| ==> r[i].name == cards[i].name
    ensures forall i :: 0 <= i < |cards| && cards[i].name != s.playerName ==> r[i] == cards[i]
    ensures |r| == |cards| + 1 ==> r[|cards|].name == s.playerName
    ensures CardNames(r) == CardNames(cards) + {s.playerName}
  {
    match FindCard(cards, s.playerName)
    case Some(i) =>
      var c := SetStroke(cards[i], s.hole, s.strokes);
      CardNamesUpdate(cards, i, c);
      cards[i := c]
    case None =>
      var c := Card(s.playerName, [s.hole], map[s.hole := s.strokes]);
      assert WellFormed(c);
      CardNamesAppend(cards, c);
      cards + [c]
  }

  /** Replacing a card by one for the same player keeps the cards grouped
      and their players. */
  lemma CardNamesUpdate(cards: seq<Card>, i: nat, c: Card)
    requires Grouped(cards) && WellFormed(c)
    requires i < |cards| && c.name == cards[i].name
    ensures Grouped(cards[i := c])
    ensures CardNames(cards[i := c]) == CardNames(cards) == CardNames(cards) + {c.name}
  {
    var r := cards[i := c];
    assert forall k :: 0 <= k < |cards| ==> r[k].name == cards[k].name;
    assert c.name in CardNames(cards);
  }

  /** A card for a new player, added at the end, keeps the cards grouped. */
  lemma CardNamesAppend(cards: seq<Card>, c: Card)
    requires Grouped(cards) && WellFormed(c)
    requires forall k :: 0 <= k < |cards| ==> cards[k].name != c.name
    ensures Grouped(cards + [c])
    ensures CardNames(cards + [c]) == CardNames(cards) + {c.name}
  {
    var r := cards + [c];
    assert forall k :: 0 <= k < |cards| ==> r[k] == cards[k];
    assert r[|cards|] == c;
  }

  /** The players the cards are for. */
  function CardNames(cards: seq<Card>): set<string> {
    set i | 0 <= i < |cards| :: cards[i].name
  }

  /** The players the rows are for. */
  function RowNames(scores: seq<Score>): set<string> {
    set k | 0 <= k < |scores| :: scores[k].playerName
  }

  /** The cards of the rows, in order of each player's first row: one card
      for every player with a row whose name is not an inherited property,
      and none for anybody else. A name in `PROTOTYPE_KEYS` already finds a
      truthy value in `scoresByPlayer = {}`, so no own entry is made for it:
      its strokes are written onto the inherited value and `Object.keys`
      never lists the name. */
  function Group(scores: seq<Score>): (r: seq<Card>)
    ensures Grouped(r)
    ensures CardNames(r) == RowNames(scores) - PROTOTYPE_KEYS
    decreases |scores|
  {
    if |scores| == 0 then []
    else
      var prefix := scores[..|scores| - 1];
      var s := scores[|scores| - 1];
      assert RowNames(scores) == RowNames(prefix) + {s.playerName} by {
        RowNamesSnoc(scores);
      }
      if s.playerName in PROTOTYPE_KEYS then Group(prefix)
      else AddRow(Group(prefix), s)
  }

  /** A player named "constructor" gets no card, so the results screen
      neither ranks nor counts them. */
  lemma InheritedNameVanishes(s: Score, t: Score)
    requires s.playerName == "constructor" && t.playerName == "Asha"
    ensures Group([s]) == []
    ensures |Group([s, t])| == 1 && Group([s, t])[0].name == "Asha"
  {
    assert [s, t][..1] == [s];
    assert [s][..0] == [];
  }

  /** The players of the rows are those of all but the last row and the
      last row's player. */
  lemma RowNamesSnoc(scores: seq<Score>)
    requires |scores| > 0
    ensures RowNames(scores) == RowNames(scores[..|scores| - 1]) + {scores[|scores| - 1].playerName}
  {
    var prefix := scores[..|scores| - 1];
    assert forall k :: 0 <= k < |prefix| ==> scores[k] == prefix[k];
  }

  /** The reference reading of the rows: the strokes of the last row for
      this player and hole. */
  function LastStroke(scores: seq<Score>, name: string, hole: int): Option<int>
    decreases |scores|
  {
    if |scores| == 0 then None
    else
      var s := scores[|scores| - 1];
      if s.playerName == name && s.hole == hole then Some(s.strokes)
      else LastStroke(scores[..|scores| - 1], name, hole)
  }

  function Lookup(cards: seq<Card>, name: string, hole: int): Option<int> {
    match FindCard(cards, name)
    case None => None
    case Some(i) => if hole in cards[i].strokes then Some(cards[i].strokes[hole]) else None
  }

  /** Grouping keeps exactly what the rows say: each player and hole holds
      the strokes of the last row for them, and nothing else is recorded,
      except that a player named after an inherited property has no card. */
  lemma {:induction false} GroupIsLastRow(scores: seq<Score>, name: string, hole: int)
    ensures Lookup(Group(scores), name, hole)
         == if name in PROTOTYPE_KEYS then None else LastStroke(scores, name, hole)
    decreases |scores|
  {
    if name in PROTOTYPE_KEYS {
      NoCardNoLookup(Group(scores), name, hole);
    } else if |scores| > 0 {
      var prefix := scores[..|scores| - 1];
      var s := scores[|scores| - 1];
      GroupIsLastRow(prefix, name, hole);
      var before := Group(prefix);
      if s.playerName in PROTOTYPE_KEYS {
        assert Group(scores) == before;
      } else {
        var after := AddRow(before, s);
        assert Group(scores) == after;
        match FindCard(before, s.playerName)
        case Some(i) =>
          assert after == before[i := SetStroke(before[i], s.hole, s.strokes)];
          LookupAfterUpdate(before, i, SetStroke(before[i], s.hole, s.strokes), name, hole);
        case None =>
          LookupAfterAppend(before, Card(s.playerName, [s.hole], map[s.hole := s.strokes]), name, hole);
      }
    }
  }

  /** A name with no card looks up nothing. */
  lemma NoCardNoLookup(cards: seq<Card>, name: string, hole: int)
    requires name !in CardNames(cards)
    ensures Lookup(cards, name, hole) == None
  {
    assert forall i :: 0 <= i < |cards| ==> cards[i].name in CardNames(cards);
  }

  lemma LookupAfterUpdate(cards: seq<Card>, i: nat, c: Card, name: string, hole: int)
    requires Grouped(cards) && i < |cards| && c.name == cards[i].name
    ensures FindCard(cards[i := c], name) == FindCard(cards, name)
    ensures Lookup(cards[i := c], name, hole)
         == if name == c.name then (if hole in c.strokes then Some(c.strokes[hole]) else None)
            else Lookup(cards, name, hole)
  {
    FindCardUnique(cards, name);
    FindCardUnique(cards[i := c], name);
  }

  lemma LookupAfterAppend(cards: seq<Card>, c: Card, name: string, hole: int)
    requires forall i :: 0 <= i < |cards| ==> cards[i].name != c.name
    ensures Lookup(cards + [c], name, hole)
         == if name == c.name then (if hole in c.strokes then Some(c.strokes[hole]) else None)
            else Lookup(cards, name, hole)
  {
    var r := FindCard(cards + [c], name);
    if name == c.name {
      FindCardAppended(cards, c);
    } else {
      FindCardPrefix(cards, c, name);
    }
  }

  lemma {:induction false} FindCardPrefix(cards: seq<Card>, c: Card, name: string)
    requires c.name != name
    ensures FindCard(cards + [c], name) == FindCard(cards, name)
    decreases |cards|
  {
    if |cards| > 0 {
      assert (cards + [c])[1..] == cards[1..] + [c];
      FindCardPrefix(cards[1..], c, name);
    }
  }

  lemma {:induction false} FindCardAppended(cards: seq<Card>, c: Card)
    requires forall i :: 0 <= i < |cards| ==> cards[i].name != c.name
    ensures FindCard(cards + [c], c.name) == Some(|cards|)
    decreases |cards|
  {
    if |cards| > 0 {
      assert (cards + [c])[1..] == cards[1..] + [c];
      FindCardAppended(cards[1..], c);
    }
  }

  /** With distinct names, a card is found exactly at its own position. */
  lemma FindCardUnique(cards: seq<Card>, name: string)
    requires forall i, j :: 0 <= i < j < |cards| ==> cards[i].name != cards[j].name
    ensures forall i :: 0 <= i < |cards| && cards[i].name == name ==> FindCard(cards, name) == Some(i)
  {
    forall i | 0 <= i < |cards| && cards[i].name == name ensures FindCard(cards, name) == Some(i) {
      var r := FindCard(cards, name);
      assert r.Some?;
    }
  }

  // ---------------------------------------------------------------------------
  // Totals and ranking

  function SumOver(holes: seq<int>, strokes: map<int, int>): int
    requires forall h :: h in holes ==> h in strokes
  {
    if |holes| == 0 then 0
    else
      var h := holes[0];
      assert h in holes;
      strokes[h] + SumOver(holes[1..], strokes)
  }

  /** The sum of a card's strokes over its holes. */
  function Total(c: Card): int
    requires WellFormed(c)
  {
    SumOver(c.holes, c.strokes)
  }

  /** Recording a hole adds its strokes to the total, replacing what an
      earlier row for the same hole had put there. */
  lemma SetStrokeTotal(c: Card, hole: int, strokes: int)
    requires WellFormed(c)
    ensures Total(SetStroke(c, hole, strokes))
         == Total(c) - (if hole in c.strokes then c.strokes[hole] else 0) + strokes
  {
    if hole in c.strokes {
      SumOverUpdate(c.holes, c.strokes, hole, strokes);
    } else {
      SumOverAppend(c.holes, c.strokes, hole, strokes);
    }
  }

  lemma {:induction false} SumOverUpdate(holes: seq<int>, m: map<int, int>, hole: int, v: int)
    requires forall h :: h in holes ==> h in m
    requires forall i, j :: 0 <= i < j < |holes| ==> holes[i] != holes[j]
    requires hole in m
    ensures SumOver(holes, m[hole := v]) == SumOver(holes, m) + (if hole in holes then v - m[hole] else 0)
    decreases |holes|
  {
    if |holes| > 0 {
      SumOverUpdate(holes[1..], m, hole, v);
      if holes[0] == hole {
        assert hole !in holes[1..];
      }
    }
  }

  lemma {:induction false} SumOverAppend(holes: seq<int>, m: map<int, int>, hole: int, v: int)
    requires forall h :: h in holes ==> h in m
    requires hole !in holes
    ensures SumOver(holes + [hole], m[hole := v]) == SumOver(holes, m) + v
    decreases |holes|
  {
    if |holes| == 0 {
      assert holes + [hole] == [hole];
    } else {
      assert (holes + [hole])[1..] == holes[1..] + [hole];
      SumOverAppend(holes[1..], m, hole, v);
    }
  }

  /** A player of the results table: name and total strokes. */
  datatype Standing = Standing(name: string, total: int)

  function Standings(cards: seq<Card>): (r: seq<Standing>)
    requires Grouped(cards)
    ensures |r| == |cards|
    ensures forall i :: 0 <= i < |r| ==> r[i] == Standing(cards[i].name, Total(cards[i]))
  {
    seq(|cards|, i requires 0 <= i < |cards| && Grouped(cards) => Standing(cards[i].name, Total(cards[i])))
  }

  predicate FewerStrokes(a: Standing, b: Standing) {
    a.total <= b.total
  }

  lemma FewerStrokesOrders()
    ensures TotalPreorder(FewerStrokes)
  {
  }

  /** The results table: every player once, ordered from the fewest strokes. */
  function Ranking(scores: seq<Score>): (r: seq<Standing>)
    ensures forall i, j :: 0 <= i < j < |r| ==> r[i].total <= r[j].total
    ensures multiset(r) == multiset(Standings(Group(scores)))
  {
    FewerStrokesOrders();
    SortBy(FewerStrokes, Standings(Group(scores)))
  }

  /** The winner has no more strokes than anyone in the table. */
  lemma WinnerHasFewestStrokes(scores: seq<Score>)
    requires |Ranking(scores)| > 0
    ensures forall s :: s in Ranking(scores) ==> Ranking(scores)[0].total <= s.total
  {
    var r := Ranking(scores);
    forall s | s in r ensures r[0].total <= s.total {
      var i :| 0 <= i < |r| && r[i] == s;
    }
  }

  datatype RankIcon = Gold | Silver | Bronze | Place(position: nat)

  /** `getRankIcon`: medals for the first three places, the 1-based place
      number after that. */
  function RankIconOf(index: nat): (r: RankIcon)
    ensures index == 0 <==> r == Gold
    ensures index == 1 <==> r == Silver
    ensures index == 2 <==> r == Bronze
    ensures index >= 3 <==> r == Place(index + 1)
  {
    match index
    case 0 => Gold
    case 1 => Silver
    case 2 => Bronze
    case _ => Place(index + 1)
  }

  // ---------------------------------------------------------------------------
  // Duration

  // The millisecond constants are those of the storage layer.

  /** JavaScript's `%`: the remainder takes the sign of the dividend. */
  function JsRem(a: int, b: int): (r: int)
    requires b > 0
    ensures a >= 0 ==> r == a % b
    ensures a < 0 ==> -b < r <= 0
    ensures exists q :: a == q * b + r
  {
    if a >= 0 then
      assert a == (a / b) * b + a % b;
      a % b
    else
      var r := -((-a) % b);
      assert a == -((-a) / b) * b + r;
      r
  }

  datatype TimeUnit = Hours | Minutes | Seconds

  function UnitMs(u: TimeUnit): int {
    match u
    case Hours => MS_PER_HOUR
    case Minutes => MS_PER_MINUTE
    case Seconds => MS_PER_SECOND
  }

  function UnitName(u: TimeUnit, n: int): string {
    match u
    case Hours => if n == 1 then "hour" else "hours"
    case Minutes => if n == 1 then "min" else "mins"
    case Seconds => if n == 1 then "sec" else "secs"
  }

  function PartIf(n: int, u: TimeUnit): seq<(nat, TimeUnit)> {
    if n > 0 then [(n, u)] else []
  }

  /** The non-zero components of a duration, hours first. `Math.floor` of a
      quotient by a positive divisor is Dafny's `/`. */
  function DurationParts(ms: int): (r: seq<(nat, TimeUnit)>)
    ensures forall i :: 0 <= i < |r| ==> r[i].0 > 0
    ensures forall i, j :: 0 <= i < j < |r| ==> UnitMs(r[i].1) > UnitMs(r[j].1)
    ensures forall i :: 0 <= i < |r| && r[i].1 != Hours ==> r[i].0 < 60
  {
    var hours := ms / MS_PER_HOUR;
    var minutes := JsRem(ms, MS_PER_HOUR) / MS_PER_MINUTE;
    var seconds := JsRem(ms, MS_PER_MINUTE) / MS_PER_SECOND;
    PartIf(hours, Hours) + PartIf(minutes, Minutes) + PartIf(seconds, Seconds)
  }

  function PartsValue(parts: seq<(nat, TimeUnit)>): int {
    if |parts| == 0 then 0 else parts[0].0 * UnitMs(parts[0].1) + PartsValue(parts[1..])
  }

  /** Reading the parts back gives the duration to the whole second below;
      a negative duration has no parts. */
  lemma DurationPartsValue(ms: int)
    ensures ms >= 0 ==> PartsValue(DurationParts(ms)) == ms - ms % MS_PER_SECOND
    ensures ms < MS_PER_SECOND ==> DurationParts(ms) == []
  {
    var h := ms / MS_PER_HOUR;
    var m := JsRem(ms, MS_PER_HOUR) / MS_PER_MINUTE;
    var s := JsRem(ms, MS_PER_MINUTE) / MS_PER_SECOND;
    assert DurationParts(ms) == PartIf(h, Hours) + PartIf(m, Minutes) + PartIf(s, Seconds);
    if ms >= 0 {
      Decompose(ms);
      PartsValueOf(h, m, s);
    }
    if ms < 0 {
      assert h < 0 && m <= 0 && s <= 0;
    }
  }

  /** Hours, the minutes left over and the seconds left over make up a
      non-negative duration to the whole second below. */
  lemma Decompose(ms: int)
    requires ms >= 0
    ensures var h, rh := ms / MS_PER_HOUR, ms % MS_PER_HOUR;
      && h >= 0 && rh / MS_PER_MINUTE >= 0 && (ms % MS_PER_MINUTE) / MS_PER_SECOND >= 0
      && ms - ms % MS_PER_SECOND
         == h * MS_PER_HOUR + (rh / MS_PER_MINUTE) * MS_PER_MINUTE + ((ms % MS_PER_MINUTE) / MS_PER_SECOND) * MS_PER_SECOND
  {
    var h, rh := ms / MS_PER_HOUR, ms % MS_PER_HOUR;
    var m, rm := rh / MS_PER_MINUTE, rh % MS_PER_MINUTE;
    var s, rs := rm / MS_PER_SECOND, rm % MS_PER_SECOND;
    assert ms == h * MS_PER_HOUR + rh;
    assert rh == m * MS_PER_MINUTE + rm;
    assert rm == s * MS_PER_SECOND + rs;
    DivModUnique(ms, h * 60 + m, rm, MS_PER_MINUTE);
    DivModUnique(ms, (h * 60 + m) * 60 + s, rs, MS_PER_SECOND);
  }

  lemma DivModUnique(a: int, q: int, r: int, b: int)
    requires b > 0 && 0 <= r < b && a == q * b + r
    ensures a % b == r && a / b == q
  {
    var q', r' := a / b, a % b;
    assert (q - q') * b == r' - r;
    if q - q' >= 1 {
      MulAtLeast(q - q', b);
    } else if q' - q >= 1 {
      MulAtLeast(q' - q, b);
    }
  }

  lemma MulAtLeast(k: int, b: int)
    requires k >= 1 && b > 0
    ensures k * b >= b
  {
  }

  lemma PartsValueOf(h: int, m: int, s: int)
    requires h >= 0 && m >= 0 && s >= 0
    ensures PartsValue(PartIf(h, Hours) + PartIf(m, Minutes) + PartIf(s, Seconds))
         == h * MS_PER_HOUR + m * MS_PER_MINUTE + s * MS_PER_SECOND
  {
    var a, b, c := PartIf(h, Hours), PartIf(m, Minutes), PartIf(s, Seconds);
    PartsValueAppend(a, b);
    PartsValueAppend(a + b, c);
  }

  lemma {:induction false} PartsValueAppend(a: seq<(nat, TimeUnit)>, b: seq<(nat, TimeUnit)>)
    ensures PartsValue(a + b) == PartsValue(a) + PartsValue(b)
    decreases |a|
  {
    if |a| == 0 {
      assert a + b == b;
    } else {
      assert (a + b)[1..] == a[1..] + b;
      PartsValueAppend(a[1..], b);
    }
  }

  function PartText(p: (nat, TimeUnit)): string {
    NatToString(p.0) + " " + UnitName(p.1, p.0)
  }

  function PartTexts(parts: seq<(nat, TimeUnit)>): (r: seq<string>)
    ensures |r| == |parts|
    ensures forall i :: 0 <= i < |r| ==> r[i] == PartText(parts[i])
  {
    seq(|parts|, i requires 0 <= i < |parts| => PartText(parts[i]))
  }

  /** The duration line: "N/A" without both instants, "0 secs" when no
      component is positive, otherwise the components joined by spaces. */
  function FormatDuration(startedAt: Option<int>, completedAt: Option<int>): (r: string)
    ensures startedAt.None? || completedAt.None? <==> r == "N/A"
    ensures startedAt.Some? && completedAt.Some? ==>
      var parts := DurationParts(completedAt.value - startedAt.value);
      r == (if |parts| == 0 then "0 secs" else Join(PartTexts(parts), ' '))
  {
    if startedAt.None? || completedAt.None? then "N/A"
    else
      var parts := DurationParts(completedAt.value - startedAt.value);
      if |parts| == 0 then "0 secs"
      else
        var texts := PartTexts(parts);
        JoinNotNA(texts);
        Join(texts, ' ')
  }

  lemma JoinNotNA(texts: seq<string>)
    requires |texts| > 0
    requires forall i :: 0 <= i < |texts| ==> |texts[i]| > 0 && IsDigit(texts[i][0])
    ensures Join(texts, ' ') != "N/A"
  {
    if |texts| > 1 {
      assert Join(texts, ' ')[0] == texts[0][0];
    }
  }

  /** A game that ends before it starts, or within its first second, reads
      "0 secs". */
  lemma ShortOrNegativeDuration(start: int, end: int)
    requires end - start < MS_PER_SECOND
    ensures FormatDuration(Some(start), Some(end)) == "0 secs"
  {
    var ms := end - start;
    DurationPartsValue(ms);
    assert DurationParts(ms) == [];
  }

  /** One hour, one minute and one second read in the singular. */
  lemma SingularUnits(start: int, end: int)
    requires end - start == MS_PER_HOUR + MS_PER_MINUTE + MS_PER_SECOND
    ensures FormatDuration(Some(start), Some(end)) == "1 hour 1 min 1 sec"
  {
    var parts := DurationParts(end - start);
    SingularParts(end - start);
    var texts := PartTexts(parts);
    assert FormatDuration(Some(start), Some(end)) == Join(texts, ' ');
    SingularJoin(texts);
  }

  lemma SingularJoin(texts: seq<string>)
    requires texts == PartTexts([(1, Hours), (1, Minutes), (1, Seconds)])
    ensures Join(texts, ' ') == "1 hour 1 min 1 sec"
  {
    SingularTexts(texts);
    JoinThree(texts[0], texts[1], texts[2], ' ');
    assert texts == [texts[0], texts[1], texts[2]];
  }

  lemma SingularParts(ms: int)
    requires ms == MS_PER_HOUR + MS_PER_MINUTE + MS_PER_SECOND
    ensures DurationParts(ms) == [(1, Hours), (1, Minutes), (1, Seconds)]
  {
    DivModUnique(ms, 1, MS_PER_MINUTE + MS_PER_SECOND, MS_PER_HOUR);
    DivModUnique(ms, 61, MS_PER_SECOND, MS_PER_MINUTE);
    assert JsRem(ms, MS_PER_HOUR) / MS_PER_MINUTE == 1;
    assert JsRem(ms, MS_PER_MINUTE) / MS_PER_SECOND == 1;
  }

  lemma SingularTexts(texts: seq<string>)
    requires texts == PartTexts([(1, Hours), (1, Minutes), (1, Seconds)])
    ensures texts[0] + [' '] + texts[1] + [' '] + texts[2] == "1 hour 1 min 1 sec"
  {
    assert NatToString(1) == "1";
    assert texts[0] == "1 hour";
    assert texts[1] == "1 min";
    assert texts[2] == "1 sec";
  }

  lemma JoinThree(a: string, b: string, c: string, sep: char)
    ensures Join([a, b, c], sep) == a + [sep] + b + [sep] + c
  {
    assert [a, b, c][1..] == [b, c];
    assert [b, c][1..] == [c];
    assert Join([c], sep) == c;
    assert Join([b, c], sep) == b + [sep] + c;
    assert Join([a, b, c], sep) == a + [sep] + (b + [sep] + c);
  }
}

=== FILE: routes.dfy ===
/** The arithmetic and dispatch of the HTTP handlers in server/routes.ts,
    with the request and the clock as parameters. Money stays in paise;
    `toLocaleString` and `toLocaleTimeString` renderings are not modelled, so
    the amounts and instants they would format are returned as numbers. */
module Routes {
  import opened Wrappers
  import opened Text
  import opened Decimal
  import opened Schema
  import opened Storage

  /** Why a handler refused a request. */
  datatype Failure =
    | Invalid(fields: seq<GameField>)   // the body failed insertGameSchema
    | Rejected(message: string)          // any other `{ message }` reply

  // ---------------------------------------------------------------------------
  // POST /api/games

  /** The per-player price for the kind of day, in paise. */
  function PricePerPlayer(p: Pricing, isWeekend: bool): int {
    if isWeekend then p.weekendPrice else p.weekdayPrice
  }

  /** Creates a game: the body is validated, the current pricing is required,
      and the cost is the day's per-player price times the head count,
      rendered to two decimals and stored in the numeric column. A refused
      request leaves the database as it was. */
  function CreateGameRoute(db: Db, req: GameRequest, id: string, now: int): (r: (Db, Result<Game, Failure>))
    ensures r.1.Err? ==> r.0 == db
    ensures ParseInsertGame(req).Err? ==> r.1 == Err(Invalid(ParseInsertGame(req).error))
    ensures ParseInsertGame(req).Ok? && CurrentPricing(db.pricing).None? ==>
      r.1 == Err(Rejected("Pricing not configured"))
    ensures r.1.Ok? ==>
      && ParseInsertGame(req).Ok? && CurrentPricing(db.pricing).Some?
      && var ins := ParseInsertGame(req).value;
         var g := r.1.value;
         && g.totalCost == PricePerPlayer(CurrentPricing(db.pricing).value, ins.isWeekend) * ins.playerCount
         && g == Game(id, ins.playerId, ins.playerNames, ins.playerCount, g.totalCost, ins.isWeekend, now)
         && r.0 == db.(games := db.games + [g])
  {
    match ParseInsertGame(req)
    case Err(fields) => (db, Err(Invalid(fields)))
    case Ok(ins) =>
      match CurrentPricing(db.pricing)
      case None => (db, Err(Rejected("Pricing not configured")))
      case Some(p) =>
        var cost := PricePerPlayer(p, ins.isWeekend) * ins.playerCount;
        match CreateGame(db, ins, MoneyText(cost), id, now)
        case Err(e) => (db, Err(Rejected(e)))
        case Ok((g, db')) =>
          if Abs(cost) >= MONEY_LIMIT then
            MoneyOverflow(cost);
            assert false;
            (db, Err(Rejected("numeric field overflow")))
          else
            MoneyRoundTrip(cost);
            (db', Ok(g))
  }

  /** With pricing configured and the player registered, a valid request
      always succeeds for any cost the column can hold, and the game costs
      weekend price times head count on a weekend and weekday price times
      head count otherwise. */
  lemma GameCostRule(db: Db, req: GameRequest, id: string, now: int)
    requires ParseInsertGame(req).Ok? && CurrentPricing(db.pricing).Some?
    requires PlayerExists(db, ParseInsertGame(req).value.playerId)
    requires var ins := ParseInsertGame(req).value;
      Abs(PricePerPlayer(CurrentPricing(db.pricing).value, ins.isWeekend) * ins.playerCount) < MONEY_LIMIT
    ensures var ins := ParseInsertGame(req).value;
      var p := CurrentPricing(db.pricing).value;
      && CreateGameRoute(db, req, id, now).1.Ok?
      && CreateGameRoute(db, req, id, now).1.value.totalCost
         == (if ins.isWeekend then p.weekendPrice else p.weekdayPrice) * ins.playerCount
  {
    var ins := ParseInsertGame(req).value;
    var cost := PricePerPlayer(CurrentPricing(db.pricing).value, ins.isWeekend) * ins.playerCount;
    MoneyRoundTrip(cost);
  }

  /** With an empty pricing table no game is stored, whatever the body. */
  lemma NoPricingNoGame(db: Db, req: GameRequest, id: string, now: int)
    requires |db.pricing| == 0
    ensures CreateGameRoute(db, req, id, now).0 == db
    ensures CreateGameRoute(db, req, id, now).1.Err?
  {
  }

  // ---------------------------------------------------------------------------
  // POST /api/games/:gameId/scores, GET /api/games/:gameId, GET /api/pricing

  /** Adds a batch of scores to a game: an invalid element refuses the whole
      batch, and a missing game stores nothing. */
  function AddScoresRoute(db: Db, gameId: string, reqs: seq<ScoreRequest>, ids: seq<string>): (r: (Db, Result<seq<Score>, Failure>))
    requires |ids| == |reqs|
    ensures r.1.Err? ==> r.0 == db
    ensures r.1.Ok? <==> ParseScoreBatch(reqs).Some? && (|reqs| == 0 || GameExists(db, gameId))
    ensures r.1.Ok? ==> |r.1.value| == |reqs| && r.0 == db.(scores := db.scores + r.1.value)
  {
    match ParseScoreBatch(reqs)
    case None => (db, Err(Rejected("Invalid score batch")))
    case Some(batch) =>
      match CreateScores(db, gameId, batch, ids)
      case Err(e) => (db, Err(Rejected(e)))
      case Ok(db') => (db', Ok(ScoreRows(gameId, batch, ids)))
  }

  /** A game with its scores, ordered by hole and then player name. */
  function GetGameRoute(db: Db, gameId: string): (r: Result<(Game, seq<Score>), Failure>)
    ensures r.Err? <==> forall g :: g in db.games ==> g.id != gameId
    ensures r.Err? ==> r.error == Rejected("Game not found")
    ensures r.Ok? ==> r.value.0 in db.games && r.value.0.id == gameId
    ensures r.Ok? ==> forall s :: s in r.value.1 <==> s in db.scores && s.gameId == gameId
  {
    match FindGame(db.games, gameId)
    case None => Err(Rejected("Game not found"))
    case Some(g) => Ok((g, ScoresByGame(db.scores, gameId)))
  }

  /** Every score a successful batch stores is returned with its game. */
  lemma ScoresVisibleAfterAdd(db: Db, gameId: string, reqs: seq<ScoreRequest>, ids: seq<string>)
    requires |ids| == |reqs|
    requires AddScoresRoute(db, gameId, reqs, ids).1.Ok?
    requires exists g :: g in db.games && g.id == gameId
    ensures var (db', added) := AddScoresRoute(db, gameId, reqs, ids);
      GetGameRoute(db', gameId).Ok?
      && forall s :: s in added.value ==> s in GetGameRoute(db', gameId).value.1
  {
    var (db', added) := AddScoresRoute(db, gameId, reqs, ids);
    var batch := ParseScoreBatch(reqs).value;
    assert added.value == ScoreRows(gameId, batch, ids);
    var g :| g in db.games && g.id == gameId;
    assert g in db'.games;
    forall s | s in added.value ensures s.gameId == gameId && s in db'.scores {
      var i :| 0 <= i < |added.value| && added.value[i] == s;
    }
  }

  /** `GET /api/pricing`: the current pricing or "Pricing not found". */
  function GetPricingRoute(db: Db): (r: Result<Pricing, Failure>)
    ensures r.Err? <==> |db.pricing| == 0
    ensures r.Err? ==> r.error == Rejected("Pricing not found")
    ensures r.Ok? ==> r.value in db.pricing && forall p :: p in db.pricing ==> p.updatedAt <= r.value.updatedAt
  {
    match CurrentPricing(db.pricing)
    case None => Err(Rejected("Pricing not found"))
    case Some(p) => Ok(p)
  }

  // ---------------------------------------------------------------------------
  // Pricing administration and the start-up seed

  /** `POST /api/admin/pricing`: `updatedBy` is always the signed-in user,
      whatever the body says. */
  function AdminPricingRoute(db: Db, body: PricingRequest, userId: string, id: string, now: int): (r: (Db, Result<Pricing, Failure>))
    ensures r.1.Ok? <==>
      && body.weekdayPrice.Some? && body.weekendPrice.Some?
      && NumericToPaise(body.weekdayPrice.value).Ok? && NumericToPaise(body.weekendPrice.value).Ok?
    ensures r.1.Err? ==> r.0 == db
    ensures r.1.Ok? ==>
      && r.1.value.weekdayPrice == NumericToPaise(body.weekdayPrice.value).value
      && r.1.value.weekendPrice == NumericToPaise(body.weekendPrice.value).value
      && r.1.value.updatedBy == userId
      && r.1.value.updatedAt == now
      && r.0 == db.(pricing := db.pricing + [r.1.value])
  {
    match ParseInsertPricing(body.(updatedBy := Some(userId)))
    case None => (db, Err(Rejected("Invalid pricing")))
    case Some(ins) =>
      match CreatePricing(db.pricing, ins, id, now)
      case Err(e) => (db, Err(Rejected(e)))
      case Ok(rows) =>
        assert rows == db.pricing + [rows[|db.pricing|]];
        (db.(pricing := rows), Ok(rows[|db.pricing|]))
  }

  /** A price change made later than every earlier one is what new games are
      charged from then on. */
  lemma PriceChangeTakesEffect(db: Db, body: PricingRequest, userId: string, id: string, now: int)
    requires forall p :: p in db.pricing ==> p.updatedAt < now
    requires AdminPricingRoute(db, body, userId, id, now).1.Ok?
    ensures var (db', p) := AdminPricingRoute(db, body, userId, id, now);
      CurrentPricing(db'.pricing) == Some(p.value)
  {
    var ins := ParseInsertPricing(body.(updatedBy := Some(userId))).value;
    LatestPricingWins(db.pricing, ins, id, now);
  }

  const SEED_WEEKDAY_PRICE: string := "60.00"
  const SEED_WEEKEND_PRICE: string := "80.00"

  /** Start-up: when there is no pricing row and the admin user exists, a
      row of ₹60.00 on weekdays and ₹80.00 at weekends is inserted. */
  function SeedPricing(db: Db, adminId: Option<string>, id: string, now: int): (r: Db)
    ensures CurrentPricing(db.pricing).Some? || adminId.None? ==> r == db
    ensures |db.pricing| == 0 && adminId.Some? ==>
      r == db.(pricing := [Pricing(id, 6000, 8000, now, adminId.value)])
  {
    if CurrentPricing(db.pricing).Some? || adminId.None? then db
    else
      SeedPricesParse(SEED_WEEKDAY_PRICE, SEED_WEEKEND_PRICE);
      match CreatePricing(db.pricing, InsertPricing(SEED_WEEKDAY_PRICE, SEED_WEEKEND_PRICE, adminId.value), id, now)
      case Err(_) => db
      case Ok(rows) => db.(pricing := rows)
  }

  lemma SeedPricesParse(weekday: string, weekend: string)
    requires weekday == SEED_WEEKDAY_PRICE && weekend == SEED_WEEKEND_PRICE
    ensures NumericToPaise(weekday) == Ok(6000)
    ensures NumericToPaise(weekend) == Ok(8000)
  {
    SeedPriceParses(weekday, "60", 60);
    SeedPriceParses(weekend, "80", 80);
  }

  lemma SeedPriceParses(s: string, a: string, n: nat)
    requires |a| == 2 && AllDigits(a) && 10 * DigitValue(a[0]) + DigitValue(a[1]) == n && n < 100
    requires s == a + "." + "00"
    ensures NumericToPaise(s) == Ok(n * 100)
  {
    TwoDigitValue(a);
    WholeRupeesParse(s, a, n);
  }

  lemma TwoDigitValue(a: string)
    requires |a| == 2 && AllDigits(a)
    ensures ParseNat(a) == 10 * DigitValue(a[0]) + DigitValue(a[1])
  {
    var a1 := a[..1];
    assert a1[..0] == [];
    assert ParseNat(a1) == DigitValue(a[0]);
    assert a[..|a| - 1] == a1;
  }

  /** "<n>.00" is stored as n rupees. */
  lemma WholeRupeesParse(s: string, a: string, n: nat)
    requires AllDigits(a) && |a| > 0 && ParseNat(a) == n && n * 100 < MONEY_LIMIT
    requires s == a + "." + "00"
    ensures NumericToPaise(s) == Ok(n * 100)
  {
    var zeros := "00";
    assert AllDigits(zeros) && ParseNat(zeros) == 0;
    assert s == a + "." + zeros;
    ReadPointed(a, zeros);
    ParseNatAppend(a, zeros);
    assert Pow10(2) == 100;
    assert ParseDecimal(s) == Some(Dec(false, n * 100, 2));
    assert Rescale(Dec(false, n * 100, 2), 2) == n * 100;
  }

  /** After seeding with an admin present, a game can always be priced. */
  lemma SeededPricingIsCurrent(db: Db, adminId: string, id: string, now: int)
    ensures CurrentPricing(SeedPricing(db, Some(adminId), id, now).pricing).Some?
  {
  }

  // ---------------------------------------------------------------------------
  // GET /api/admin/dashboard-stats

  /** Percentage change from `previous` to `current` to one decimal, or "0"
      when there is no positive baseline. */
  function Growth(current: int, previous: int): (r: string)
    ensures previous <= 0 ==> r == "0"
    ensures previous > 0 ==>
      && |r| > 0 && (r[0] == '-' <==> current < previous)
      && ParseDecimal(r) == Some(Dec(current < previous, RoundDiv(Abs(current - previous) * 1000, previous), 1))
  {
    if previous > 0 then
      var d := current - previous;
      assert Abs(d * 100) * Pow10(1) == Abs(d) * 1000;
      ToFixed(d * 100, previous, 1)
    else "0"
  }

  /** Growth is a percentage rounded to the nearest tenth: ten times its
      value is within a half of 1000 * (current - previous) / previous. */
  lemma GrowthIsRoundedPercentage(current: int, previous: int)
    requires previous > 0
    ensures var d := ParseDecimal(Growth(current, previous)).value;
      var tenths := if d.negative then -(d.digits as int) else d.digits as int;
      && d.scale == 1
      && 2 * previous * tenths <= 2000 * (current - previous) + previous
      && 2000 * (current - previous) - previous <= 2 * previous * tenths
  {
    var m := Abs(current - previous) * 1000;
    var q := RoundDiv(m, previous);
    assert 2 * previous * q <= 2 * m + previous;
    assert 2 * m + previous < 2 * previous * q + 2 * previous;
    if current < previous {
      assert m == -1000 * (current - previous);
      assert 2 * previous * -(q as int) == -(2 * previous * q);
    } else {
      assert m == 1000 * (current - previous);
    }
  }

  /** Doubling from 100 reads "100.0"; dropping from 100 to 90 reads "-10.0". */
  lemma GrowthExamples(up: int, down: int, base: int)
    requires up == 200 && down == 90 && base == 100
    ensures ParseDecimal(Growth(up, base)) == Some(Dec(false, 1000, 1))
    ensures ParseDecimal(Growth(down, base)) == Some(Dec(true, 100, 1)) && Growth(down, base)[0] == '-'
  {
    assert Abs(up - base) * 1000 == 100_000;
    assert Abs(down - base) * 1000 == 10_000;
    var x := RoundDiv(Abs(up - base) * 1000, base);
    assert 200 * x <= 200_100 && 200_100 < 200 * x + 200;
    assert x == 1000;
    var y := RoundDiv(Abs(down - base) * 1000, base);
    assert 200 * y <= 20_100 && 20_100 < 200 * y + 200;
    assert y == 100;
  }

  datatype Dashboard = Dashboard(
    todayGames: nat,
    todayRevenue: int,
    totalPlayers: int,
    gamesGrowth: string,
    revenueGrowth: string)

  /** Today's totals and their growth over yesterday, with `now` the request
      time. */
  function DashboardStats(games: seq<Game>, now: int): (r: Dashboard)
    ensures var t, y := DailySales(games, now), DailySales(games, now - MS_PER_DAY);
      && r.todayGames == t.totalGames && r.todayRevenue == t.totalRevenue && r.totalPlayers == t.totalPlayers
      && (y.totalGames == 0 ==> r.gamesGrowth == "0%")
      && (y.totalRevenue <= 0 ==> r.revenueGrowth == "0%")
      && (y.totalGames > 0 ==> r.gamesGrowth == Growth(t.totalGames, y.totalGames) + "%")
      && (y.totalRevenue > 0 ==> r.revenueGrowth == Growth(t.totalRevenue, y.totalRevenue) + "%")
  {
    var today := DailySales(games, now);
    var yesterday := DailySales(games, now - MS_PER_DAY);
    var gamesGrowth := Growth(today.totalGames, yesterday.totalGames);
    var revenueGrowth := Growth(today.totalRevenue, yesterday.totalRevenue);
    assert yesterday.totalGames == 0 ==> gamesGrowth + "%" == "0%";
    assert yesterday.totalRevenue <= 0 ==> revenueGrowth + "%" == "0%";
    Dashboard(today.totalGames, today.totalRevenue, today.totalPlayers, gamesGrowth + "%", revenueGrowth + "%")
  }

  /** "Yesterday" is the calendar day that ends just before today begins. */
  lemma YesterdayPrecedesToday(now: int)
    ensures StartOfDay(now - MS_PER_DAY) == StartOfDay(now) - MS_PER_DAY
    ensures EndOfDay(now - MS_PER_DAY) + 1 == StartOfDay(now)
  {
    assert (now - MS_PER_DAY) % MS_PER_DAY == now % MS_PER_DAY;
  }

  // ---------------------------------------------------------------------------
  // GET /api/admin/sales/:period

  const RUPEE: string := "\U{20B9}"

  /** `avgPerGame`: revenue per game in whole rupees, or "₹0" with no games. */
  function AvgPerGame(totalGames: nat, totalRevenue: int): (r: string)
    ensures totalGames == 0 ==> r == RUPEE + "0"
    ensures totalGames > 0 ==>
      && |r| > 1 && r[..1] == RUPEE
      && ParseDecimal(r[1..]) == Some(Dec(totalRevenue < 0, RoundDiv(Abs(totalRevenue), totalGames * PAISE_PER_RUPEE), 0))
  {
    if totalGames > 0 then
      var t := ToFixed(totalRevenue, totalGames * PAISE_PER_RUPEE, 0);
      assert (RUPEE + t)[1..] == t;
      RUPEE + t
    else RUPEE + "0"
  }

  /** The average is the whole-rupee amount nearest to revenue / games. */
  lemma AvgIsNearestRupee(totalGames: nat, totalRevenue: nat)
    requires totalGames > 0
    ensures var v := ParseDecimal(AvgPerGame(totalGames, totalRevenue)[1..]).value.digits;
      && 2 * totalGames * PAISE_PER_RUPEE * v <= 2 * totalRevenue + totalGames * PAISE_PER_RUPEE
      && 2 * totalRevenue < 2 * totalGames * PAISE_PER_RUPEE * v + totalGames * PAISE_PER_RUPEE
  {
  }

  datatype PeriodReport = PeriodReport(totalGames: nat, totalRevenue: int, totalPlayers: int, avgPerGame: string)

  function Report(s: SalesStats): PeriodReport {
    PeriodReport(s.totalGames, s.totalRevenue, s.totalPlayers, AvgPerGame(s.totalGames, s.totalRevenue))
  }

  /** The window each period covers: the calendar day of `now`, the seven
      days up to `now`, or from one calendar month before `now` to one month
      after that. */
  function PeriodWindow(period: string, now: int, addMonths: (int, int) -> int): (r: Option<(int, int)>)
    ensures r.Some? <==> period == "day" || period == "week" || period == "month"
    ensures period == "day" ==> r == Some((StartOfDay(now), EndOfDay(now)))
    ensures period == "week" ==> r == Some((now - 7 * MS_PER_DAY, now))
    ensures period == "month" ==> r == Some((addMonths(now, -1), addMonths(addMonths(now, -1), 1)))
  {
    if period == "day" then Some((StartOfDay(now), EndOfDay(now)))
    else if period == "week" then Some((now - 7 * MS_PER_DAY, now - 7 * MS_PER_DAY + 7 * MS_PER_DAY))
    else if period == "month" then Some((addMonths(now, -1), addMonths(addMonths(now, -1), 1)))
    else None
  }

  /** `GET /api/admin/sales/:period`. */
  function SalesForPeriod(games: seq<Game>, period: string, now: int, addMonths: (int, int) -> int): (r: Result<PeriodReport, Failure>)
    ensures r.Err? <==> !(period == "day" || period == "week" || period == "month")
    ensures r.Err? ==> r.error == Rejected("Invalid period")
    ensures r.Ok? ==> var (s, e) := PeriodWindow(period, now, addMonths).value;
      r.value == Report(GetSalesStats(games, s, e))
  {
    if period == "day" then Ok(Report(DailySales(games, now)))
    else if period == "week" then Ok(Report(WeeklySales(games, now - 7 * MS_PER_DAY)))
    else if period == "month" then Ok(Report(MonthlySales(games, addMonths(now, -1), addMonths)))
    else Err(Rejected("Invalid period"))
  }

  /** The weekly report counts the games of the last seven days up to the
      request, both ends included. */
  lemma WeekEndsNow(games: seq<Game>, now: int, addMonths: (int, int) -> int)
    ensures SalesForPeriod(games, "week", now, addMonths).value.totalGames
         == |GamesInWindow(games, now - 7 * MS_PER_DAY, now)|
  {
  }

  // ---------------------------------------------------------------------------
  // GET /api/admin/hourly-sales

  const FIRST_OPEN_HOUR: int := 9
  const LAST_OPEN_HOUR: int := 20

  datatype HourPoint = HourPoint(hour: int, games: nat, revenue: string, clockLabel: string)

  /** `hourlyData.find(h => h.hour === hour)`: the first bucket for the hour. */
  function FindBucket(bs: seq<HourBucket>, hour: int): (r: Option<HourBucket>)
    ensures r.None? <==> forall i :: 0 <= i < |bs| ==> bs[i].hour != hour
    ensures r.Some? ==> r.value in bs && r.value.hour == hour
  {
    if |bs| == 0 then None
    else if bs[0].hour == hour then Some(bs[0])
    else FindBucket(bs[1..], hour)
  }

  /** The label as the handler writes it: hours up to 12 are "AM". */
  function HourLabelAsWritten(hour: int): (r: string)
    ensures |r| >= 3
    ensures r[|r| - 2..] == (if hour <= 12 then "AM" else "PM")
    ensures 0 <= hour < 24 ==> var n := r[..|r| - 2];
      AllDigits(n) && ParseNat(n) == (if hour <= 12 then hour else hour - 12)
  {
    var t := IntToString(if hour <= 12 then hour else hour - 12);
    var r := t + (if hour <= 12 then "AM" else "PM");
    assert r[..|r| - 2] == t;
    r
  }

  /** The clock label of an hour from 1 to 23: "AM" before noon, "PM" from
      noon on, with noon itself written "12PM". */
  function HourLabel(hour: int): (r: string)
    requires 1 <= hour < 24
    ensures |r| >= 3
    ensures r[|r| - 2..] == (if hour < 12 then "AM" else "PM")
    ensures var n := r[..|r| - 2];
      AllDigits(n) && ParseNat(n) == (if hour <= 12 then hour else hour - 12)
  {
    var n := if hour <= 12 then hour else hour - 12;
    var t := NatToString(n);
    var r := t + (if hour < 12 then "AM" else "PM");
    assert r[..|r| - 2] == t;
    r
  }

  /** The handler labels noon "12AM", the label of midnight. */
  lemma NoonLabelledAsMidnight(h: int)
    requires h == 12
    ensures HourLabelAsWritten(h) == IntToString(12) + "AM"
    ensures HourLabel(h)[|HourLabel(h)| - 2..] == "PM"
  {
  }

  /** Both labellings agree on every opening hour except noon. */
  lemma LabelsAgreeExceptNoon(hour: int)
    requires FIRST_OPEN_HOUR <= hour <= LAST_OPEN_HOUR && hour != 12
    ensures HourLabelAsWritten(hour) == HourLabel(hour)
  {
  }

  /** One point of the series, with the bucket's count and revenue when the
      hour has one and zeros otherwise. */
  function HourPointWith(bs: seq<HourBucket>, hour: int, tag: string): (r: HourPoint)
    ensures r.hour == hour && r.clockLabel == tag
    ensures FindBucket(bs, hour).None? ==> r.games == 0 && r.revenue == "0"
    ensures FindBucket(bs, hour).Some? ==>
      r.games == FindBucket(bs, hour).value.games && r.revenue == MoneyText(FindBucket(bs, hour).value.revenue)
  {
    match FindBucket(bs, hour)
    case None => HourPoint(hour, 0, "0", tag)
    case Some(b) => HourPoint(hour, b.games, MoneyText(b.revenue), tag)
  }

  /** The handler's point for an hour, labelled as line 302 writes it. */
  function HourPointOf(bs: seq<HourBucket>, hour: int): (r: HourPoint)
    ensures r.hour == hour && r.clockLabel == HourLabelAsWritten(hour)
    ensures FindBucket(bs, hour).None? ==> r.games == 0 && r.revenue == "0"
    ensures FindBucket(bs, hour).Some? ==>
      r.games == FindBucket(bs, hour).value.games && r.revenue == MoneyText(FindBucket(bs, hour).value.revenue)
  {
    HourPointWith(bs, hour, HourLabelAsWritten(hour))
  }

  /** The zero-filled series for the opening hours 9 through 20, as the
      handler builds it. */
  function HourlySeries(bs: seq<HourBucket>): (r: seq<HourPoint>)
    ensures |r| == LAST_OPEN_HOUR - FIRST_OPEN_HOUR + 1
    ensures forall i :: 0 <= i < |r| ==> r[i] == HourPointOf(bs, FIRST_OPEN_HOUR + i)
  {
    seq(LAST_OPEN_HOUR - FIRST_OPEN_HOUR + 1,
        i requires 0 <= i < LAST_OPEN_HOUR - FIRST_OPEN_HOUR + 1 => HourPointOf(bs, FIRST_OPEN_HOUR + i))
  }

  /** The point for an hour with the corrected clock label, noon reading "12PM". */
  function CorrectedHourPointOf(bs: seq<HourBucket>, hour: int): (r: HourPoint)
    requires 1 <= hour < 24
    ensures r.hour == hour && r.clockLabel == HourLabel(hour)
    ensures FindBucket(bs, hour).None? ==> r.games == 0 && r.revenue == "0"
    ensures FindBucket(bs, hour).Some? ==>
      r.games == FindBucket(bs, hour).value.games && r.revenue == MoneyText(FindBucket(bs, hour).value.revenue)
  {
    HourPointWith(bs, hour, HourLabel(hour))
  }

  /** The series with noon labelled "12PM". */
  function CorrectedHourlySeries(bs: seq<HourBucket>): (r: seq<HourPoint>)
    ensures |r| == LAST_OPEN_HOUR - FIRST_OPEN_HOUR + 1
    ensures forall i :: 0 <= i < |r| ==> r[i] == CorrectedHourPointOf(bs, FIRST_OPEN_HOUR + i)
  {
    seq(LAST_OPEN_HOUR - FIRST_OPEN_HOUR + 1,
        i requires 0 <= i < LAST_OPEN_HOUR - FIRST_OPEN_HOUR + 1 => CorrectedHourPointOf(bs, FIRST_OPEN_HOUR + i))
  }

  /** The two series carry the same hours, counts and revenues, and differ
      only in the label of the noon point, which the handler writes with
      "AM". */
  lemma SeriesDifferOnlyAtNoon(bs: seq<HourBucket>, i: int)
    requires 0 <= i < LAST_OPEN_HOUR - FIRST_OPEN_HOUR + 1
    ensures var p, q := HourlySeries(bs)[i], CorrectedHourlySeries(bs)[i];
      && p.hour == q.hour && p.games == q.games && p.revenue == q.revenue
      && (p.clockLabel == q.clockLabel <==> p.hour != 12)
      && (p.hour == 12 ==> p.clockLabel[|p.clockLabel| - 2..] == "AM" && q.clockLabel[|q.clockLabel| - 2..] == "PM")
  {
    var h := FIRST_OPEN_HOUR + i;
    var p, q := HourlySeries(bs)[i], CorrectedHourlySeries(bs)[i];
    if h == 12 {
      NoonLabelledAsMidnight(h);
      assert p.clockLabel[|p.clockLabel| - 2..] != q.clockLabel[|q.clockLabel| - 2..];
    } else {
      LabelsAgreeExceptNoon(h);
    }
  }

  /** Fed the day's hourly sales, each point of the series carries the
      number of that day's games completed in its hour, zero included. */
  lemma HourlySeriesCounts(games: seq<Game>, date: int, i: int)
    requires 0 <= i < LAST_OPEN_HOUR - FIRST_OPEN_HOUR + 1
    ensures var w := GamesInWindow(games, StartOfDay(date), EndOfDay(date));
      HourlySeries(HourlySales(games, date))[i].games == |GamesAtHour(w, FIRST_OPEN_HOUR + i)|
  {
    var w := GamesInWindow(games, StartOfDay(date), EndOfDay(date));
    var bs := HourlySales(games, date);
    assert bs == HourlyBuckets(w);
    var h := FIRST_OPEN_HOUR + i;
    var p := HourlySeries(bs)[i];
    assert p == HourPointOf(bs, h);
    BucketCount(w, bs, h);
  }

  /** The point for hour `h` counts the games of that hour. */
  lemma BucketCount(w: seq<Game>, bs: seq<HourBucket>, h: int)
    requires 1 <= h < 24
    requires bs == HourlyBuckets(w)
    ensures HourPointOf(bs, h).games == |GamesAtHour(w, h)|
  {
    match FindBucket(bs, h)
    case None =>
    case Some(b) =>
      var j :| 0 <= j < |bs| && bs[j] == b;
      assert b == Bucket(w, h);
  }

  // ---------------------------------------------------------------------------
  // GET /api/admin/recent-games and GET /api/admin/transactions

  const RECENT_LIMIT: nat := 10

  /** `playerNames[0] || "Unknown"`: an empty list or an empty first name
      both give "Unknown". */
  function LeadPlayer(names: seq<string>): (r: string)
    ensures |names| > 0 && names[0] != "" ==> r == names[0]
    ensures |names| == 0 || names[0] == "" ==> r == "Unknown"
  {
    if |names| > 0 && names[0] != "" then names[0] else "Unknown"
  }

  datatype RecentGame = RecentGame(id: string, playerCount: int, leadPlayer: string, cost: int, completedAt: int)

  /** The first ten of today's games, newest first. */
  function RecentGames(games: seq<Game>, now: int): (r: seq<RecentGame>)
    ensures var today := GamesByDateRange(games, StartOfDay(now), EndOfDay(now));
      && |r| == (if |today| < RECENT_LIMIT then |today| else RECENT_LIMIT)
      && forall i :: 0 <= i < |r| ==>
        r[i] == RecentGame(today[i].id, today[i].playerCount, LeadPlayer(today[i].playerNames),
                           today[i].totalCost, today[i].completedAt)
  {
    var today := GamesByDateRange(games, StartOfDay(now), EndOfDay(now));
    var first := if |today| < RECENT_LIMIT then today else today[..RECENT_LIMIT];
    seq(|first|, i requires 0 <= i < |first| =>
      RecentGame(first[i].id, first[i].playerCount, LeadPlayer(first[i].playerNames), first[i].totalCost, first[i].completedAt))
  }

  /** Every recent game was completed today, and none is older than a
      today's game left out of the list. */
  lemma RecentGamesAreNewestOfToday(games: seq<Game>, now: int)
    ensures var r := RecentGames(games, now);
      var today := GamesByDateRange(games, StartOfDay(now), EndOfDay(now));
      && (forall i :: 0 <= i < |r| ==> StartOfDay(now) <= r[i].completedAt <= EndOfDay(now))
      && (forall i, j :: 0 <= i < |r| && |r| <= j < |today| ==> r[i].completedAt >= today[j].completedAt)
  {
    var today := GamesByDateRange(games, StartOfDay(now), EndOfDay(now));
    assert forall i :: 0 <= i < |today| ==> today[i] in today;
  }

  datatype Transaction = Transaction(id: string, completedAt: int, player: string, playerCount: int, cost: int, kind: string)

  function DayKind(isWeekend: bool): string {
    if isWeekend then "Weekend" else "Weekday"
  }

  /** Every game of the day of `date`, newest first, as a ledger line. */
  function Transactions(games: seq<Game>, date: int): (r: seq<Transaction>)
    ensures var day := GamesByDateRange(games, StartOfDay(date), EndOfDay(date));
      && |r| == |day|
      && forall i :: 0 <= i < |r| ==>
        r[i] == Transaction(day[i].id, day[i].completedAt, LeadPlayer(day[i].playerNames),
                            day[i].playerCount, day[i].totalCost, DayKind(day[i].isWeekend))
  {
    var day := GamesByDateRange(games, StartOfDay(date), EndOfDay(date));
    seq(|day|, i requires 0 <= i < |day| =>
      Transaction(day[i].id, day[i].completedAt, LeadPlayer(day[i].playerNames),
                  day[i].playerCount, day[i].totalCost, DayKind(day[i].isWeekend)))
  }

  /** The ledger of a day lists every game completed that day with its
      cost, newest first, and nothing from any other day. */
  lemma TransactionsAreTheDay(games: seq<Game>, date: int)
    ensures var r := Transactions(games, date);
      && (forall i :: 0 <= i < |r| ==> StartOfDay(date) <= r[i].completedAt <= EndOfDay(date))
      && (forall i, j :: 0 <= i < j < |r| ==> r[i].completedAt >= r[j].completedAt)
      && (forall g :: g in games && StartOfDay(date) <= g.completedAt <= EndOfDay(date) ==>
            exists i :: 0 <= i < |r| && r[i].id == g.id && r[i].cost == g.totalCost)
  {
    var day := GamesByDateRange(games, StartOfDay(date), EndOfDay(date));
    var r := Transactions(games, date);
    assert forall i :: 0 <= i < |day| ==> day[i] in day;
    forall g | g in games && StartOfDay(date) <= g.completedAt <= EndOfDay(date)
      ensures exists i :: 0 <= i < |r| && r[i].id == g.id && r[i].cost == g.totalCost
    {
      assert g in day;
      var i :| 0 <= i < |day| && day[i] == g;
      assert r[i].id == g.id && r[i].cost == g.totalCost;
    }
  }
}

=== FILE: sales.dfy ===
/** The transaction export of client/src/pages/sales.tsx: a fixed header
    line, then one comma-separated line per transaction, joined by line
    feeds. The export as written neither quotes nor escapes its fields;
    `QuotedCsv` is the corrected export that does. */
module Sales {
  import opened Wrappers
  import opened Text

  /** One transaction as the sales page receives it. The time and cost are
      the display strings the server produced. */
  datatype Row = Row(time: string, player: string, playerCount: int, cost: string, kind: string)

  const HEADER: string := "Time,Player,Players,Cost,Type"

  /** The five columns of a row, in header order. */
  function Fields(t: Row): (r: seq<string>)
    ensures |r| == 5
  {
    [t.time, t.player, IntToString(t.playerCount), t.cost, t.kind]
  }

  // ---------------------------------------------------------------------------
  // The export as written

  /** A line as written: the fields joined by commas, nothing quoted. */
  function CsvLine(t: Row): string {
    Join(Fields(t), ',')
  }

  function CsvLines(rows: seq<Row>): (r: seq<string>)
    ensures |r| == |rows|
    ensures forall i :: 0 <= i < |r| ==> r[i] == CsvLine(rows[i])
  {
    seq(|rows|, i requires 0 <= i < |rows| => CsvLine(rows[i]))
  }

  /** `handleExport`: nothing without transactions; otherwise the header, a
      line feed, and the lines joined by line feeds with none after the last. */
  function Csv(rows: Option<seq<Row>>): (r: Option<string>)
    ensures r.None? <==> rows.None?
    ensures r.Some? ==> |r.value| >= |HEADER| + 1 && r.value[..|HEADER| + 1] == HEADER + "\n"
    ensures rows == Some([]) ==> r == Some(HEADER + "\n")
  {
    match rows
    case None => None
    case Some(ts) =>
      var body := Join(CsvLines(ts), '\n');
      assert |ts| == 0 ==> body == "" && HEADER + "\n" + body == HEADER + "\n";
      Some(HEADER + "\n" + body)
  }

  /** The body after the header line. */
  function Body(doc: string): string
    requires |doc| >= |HEADER| + 1
  {
    doc[|HEADER| + 1..]
  }

  predicate FreeOf(fields: seq<string>, c: char) {
    forall k :: 0 <= k < |fields| ==> c !in fields[k]
  }

  /** The text a row carries: its strings, and none of them holds `c`. */
  predicate RowFreeOf(t: Row, c: char) {
    c !in t.time && c !in t.player && c !in t.cost && c !in t.kind
  }

  lemma IntTextFreeOf(i: int, c: char)
    requires c != '-' && !IsDigit(c)
    ensures c !in IntToString(i)
  {
    var s := NatToString(if i < 0 then -i else i);
    assert AllDigits(s);
    assert IntToString(i) == (if i < 0 then "-" + s else s);
  }

  lemma FieldsFreeOf(t: Row, c: char)
    requires c != '-' && !IsDigit(c)
    ensures FreeOf(Fields(t), c) <==> RowFreeOf(t, c)
  {
    IntTextFreeOf(t.playerCount, c);
    var fs := Fields(t);
    assert fs[0] == t.time && fs[1] == t.player && fs[2] == IntToString(t.playerCount);
    assert fs[3] == t.cost && fs[4] == t.kind;
  }

  /** A character that is neither the separator nor in any part is not in
      their join. */
  lemma {:induction false} JoinFreeOf(parts: seq<string>, sep: char, c: char)
    requires c != sep && FreeOf(parts, c)
    ensures c !in Join(parts, sep)
    decreases |parts|
  {
    if |parts| > 1 {
      JoinFreeOf(parts[1..], sep, c);
      assert Join(parts, sep) == parts[0] + [sep] + Join(parts[1..], sep);
    }
  }

  /** A line read back on commas gives exactly the row's columns if and only
      if no column contains a comma. */
  lemma LineReadsBackIff(t: Row)
    ensures Split(CsvLine(t), ',') == Fields(t) <==> RowFreeOf(t, ',')
  {
    FieldsFreeOf(t, ',');
    if RowFreeOf(t, ',') {
      SplitJoin(Fields(t), ',');
    }
  }

  lemma LineUnbroken(t: Row)
    requires RowFreeOf(t, '\n')
    ensures '\n' !in CsvLine(t)
  {
    FieldsFreeOf(t, '\n');
    JoinFreeOf(Fields(t), ',', '\n');
  }

  /** For transactions whose texts hold neither commas nor line feeds, the
      export as written reads back: the body splits into one line per row
      and each line into that row's columns. */
  lemma CsvReadsBack(rows: seq<Row>)
    requires |rows| > 0
    requires forall i :: 0 <= i < |rows| ==> RowFreeOf(rows[i], ',') && RowFreeOf(rows[i], '\n')
    ensures var lines := Split(Body(Csv(Some(rows)).value), '\n');
      && lines == CsvLines(rows)
      && forall i :: 0 <= i < |rows| ==> Split(lines[i], ',') == Fields(rows[i])
  {
    var lines := CsvLines(rows);
    forall i | 0 <= i < |rows| ensures '\n' !in lines[i] && Split(lines[i], ',') == Fields(rows[i]) {
      LineUnbroken(rows[i]);
      LineReadsBackIff(rows[i]);
    }
    SplitJoin(lines, '\n');
    assert Body(Csv(Some(rows)).value) == Join(lines, '\n');
  }

  /** A cost shown with a thousands separator, such as "₹1,200", breaks its
      line: the line no longer reads back as the row's five columns. */
  lemma ThousandsSeparatorShiftsColumns(t: Row)
    requires t.cost == "\U{20B9}1,200"
    ensures Split(CsvLine(t), ',') != Fields(t)
  {
    assert t.cost[2] == ',';
    LineReadsBackIff(t);
  }

  // ---------------------------------------------------------------------------
  // The corrected export: every field in double quotes, inner quotes doubled

  function Escape(f: string): (r: string)
    ensures forall c :: c != '"' ==> (c in r <==> c in f)
  {
    if |f| == 0 then ""
    else (if f[0] == '"' then "\"\"" else [f[0]]) + Escape(f[1..])
  }

  function Quote(f: string): string {
    "\"" + Escape(f) + "\""
  }

  function QuotedLine(t: Row): string {
    var fs := Fields(t);
    Join([Quote(fs[0]), Quote(fs[1]), Quote(fs[2]), Quote(fs[3]), Quote(fs[4])], ',')
  }

  function QuotedLines(rows: seq<Row>): (r: seq<string>)
    ensures |r| == |rows|
    ensures forall i :: 0 <= i < |r| ==> r[i] == QuotedLine(rows[i])
  {
    seq(|rows|, i requires 0 <= i < |rows| => QuotedLine(rows[i]))
  }

  /** The export with quoted fields; the header and line structure are those
      of `Csv`. */
  function QuotedCsv(rows: Option<seq<Row>>): (r: Option<string>)
    ensures r.None? <==> rows.None?
    ensures r.Some? ==> |r.value| >= |HEADER| + 1 && r.value[..|HEADER| + 1] == HEADER + "\n"
    ensures rows == Some([]) ==> r == Csv(rows)
  {
    match rows
    case None => None
    case Some(ts) =>
      var body := Join(QuotedLines(ts), '\n');
      assert |ts| == 0 ==> body == "" && HEADER + "\n" + body == HEADER + "\n" && Csv(rows) == Some(HEADER + "\n");
      Some(HEADER + "\n" + body)
  }

  /** Reads a quoted field from just after its opening quote: a doubled quote
      stands for one quote, a single quote closes the field. Gives the field
      and the text after the closing quote. */
  function ReadQuoted(s: string): (r: Option<(string, string)>)
    ensures r.Some? ==> |r.value.1| < |s|
    decreases |s|
  {
    if |s| == 0 then None
    else if s[0] == '"' then
      if |s| > 1 && s[1] == '"' then
        match ReadQuoted(s[2..])
        case None => None
        case Some(p) => Some(("\"" + p.0, p.1))
      else Some(("", s[1..]))
    else
      match ReadQuoted(s[1..])
      case None => None
      case Some(p) => Some(([s[0]] + p.0, p.1))
  }

  /** Reads a line of comma-separated quoted fields. */
  function ReadFields(s: string): (r: Option<seq<string>>)
    ensures r.Some? ==> |r.value| >= 1
    decreases |s|
  {
    if |s| == 0 || s[0] != '"' then None
    else
      match ReadQuoted(s[1..])
      case None => None
      case Some(p) =>
        if |p.1| == 0 then Some([p.0])
        else if p.1[0] == ',' then
          match ReadFields(p.1[1..])
          case None => None
          case Some(fs) => Some([p.0] + fs)
        else None
  }

  /** An escaped field followed by the closing quote reads back as the field,
      whatever follows, provided it does not start with another quote. */
  lemma {:induction false} ReadQuotedEscape(f: string, tail: string)
    requires |tail| == 0 || tail[0] != '"'
    ensures ReadQuoted(Escape(f) + "\"" + tail) == Some((f, tail))
    decreases |f|
  {
    var s := Escape(f) + "\"" + tail;
    if |f| == 0 {
      assert s == "\"" + tail;
      assert s[1..] == tail;
    } else {
      ReadQuotedEscape(f[1..], tail);
      var inner := Escape(f[1..]) + "\"" + tail;
      if f[0] == '"' {
        assert s == "\"\"" + inner;
        assert s[2..] == inner;
        assert "\"" + f[1..] == f;
      } else {
        assert s == [f[0]] + inner;
        assert s[1..] == inner;
        assert [f[0]] + f[1..] == f;
      }
    }
  }

  function Quotes(fs: seq<string>): (r: seq<string>)
    ensures |r| == |fs|
    ensures forall i :: 0 <= i < |r| ==> r[i] == Quote(fs[i])
  {
    seq(|fs|, i requires 0 <= i < |fs| => Quote(fs[i]))
  }

  /** Any fields, quoted and joined by commas, read back as themselves. */
  lemma {:induction false} QuotedFieldsReadBack(fs: seq<string>)
    requires |fs| >= 1
    ensures ReadFields(Join(Quotes(fs), ',')) == Some(fs)
    decreases |fs|
  {
    var qs := Quotes(fs);
    var s := Join(qs, ',');
    if |fs| == 1 {
      assert s == "\"" + (Escape(fs[0]) + "\"" + "");
      ReadQuotedEscape(fs[0], "");
      assert s[1..] == Escape(fs[0]) + "\"" + "";
      assert [fs[0]] == fs;
    } else {
      var rest := Join(qs[1..], ',');
      assert qs[1..] == Quotes(fs[1..]);
      QuotedFieldsReadBack(fs[1..]);
      var tail := "," + rest;
      assert s == "\"" + (Escape(fs[0]) + "\"" + tail);
      ReadQuotedEscape(fs[0], tail);
      assert s[1..] == Escape(fs[0]) + "\"" + tail;
      assert tail[1..] == rest;
      assert [fs[0]] + fs[1..] == fs;
    }
  }

  /** Every corrected line reads back as its row's five columns, commas and
      quotes included. */
  lemma QuotedLineReadsBack(t: Row)
    ensures ReadFields(QuotedLine(t)) == Some(Fields(t))
  {
    var fs := Fields(t);
    assert Quotes(fs) == [Quote(fs[0]), Quote(fs[1]), Quote(fs[2]), Quote(fs[3]), Quote(fs[4])];
    QuotedFieldsReadBack(fs);
  }

  lemma QuotedLineUnbroken(t: Row)
    requires RowFreeOf(t, '\n')
    ensures '\n' !in QuotedLine(t)
  {
    var fs := Fields(t);
    FieldsFreeOf(t, '\n');
    var qs := [Quote(fs[0]), Quote(fs[1]), Quote(fs[2]), Quote(fs[3]), Quote(fs[4])];
    assert FreeOf(qs, '\n');
    JoinFreeOf(qs, ',', '\n');
  }

  /** For transactions whose texts hold no line feed, the corrected export
      reads back: one line per row, and each line gives that row's columns,
      whatever commas or quotes they contain. */
  lemma QuotedCsvReadsBack(rows: seq<Row>)
    requires |rows| > 0
    requires forall i :: 0 <= i < |rows| ==> RowFreeOf(rows[i], '\n')
    ensures var lines := Split(Body(QuotedCsv(Some(rows)).value), '\n');
      && lines == QuotedLines(rows)
      && forall i :: 0 <= i < |rows| ==> ReadFields(lines[i]) == Some(Fields(rows[i]))
  {
    var lines := QuotedLines(rows);
    forall i | 0 <= i < |rows| ensures '\n' !in lines[i] && ReadFields(lines[i]) == Some(Fields(rows[i])) {
      QuotedLineUnbroken(rows[i]);
      QuotedLineReadsBack(rows[i]);
    }
    SplitJoin(lines, '\n');
    assert Body(QuotedCsv(Some(rows)).value) == Join(lines, '\n');
  }

  /** The corrected export keeps the cost "₹1,200" in one column. */
  lemma ThousandsSeparatorKept(t: Row)
    requires t.cost == "\U{20B9}1,200"
    ensures var r := ReadFields(QuotedLine(t)); r.Some? && |r.value| == 5 && r.value[3] == t.cost
  {
    QuotedLineReadsBack(t);
  }
}

=== FILE: schema.dfy ===
/** The tables of shared/schema.ts and the request validation derived from
    them. Money columns are numeric(10, 2) held here as integer paise,
    timestamps are integer milliseconds, and a JSON field of the wrong type is
    modelled as an absent one (both fail validation alike). */
module Schema {
  import opened Wrappers

  datatype Player = Player(id: string, name: string, contact: string, email: string, createdAt: int)

  /** A game row; `totalCost` is in paise. */
  datatype Game = Game(
    id: string,
    playerId: string,
    playerNames: seq<string>,
    playerCount: int,
    totalCost: int,
    isWeekend: bool,
    completedAt: int)

  datatype Score = Score(id: string, gameId: string, playerName: string, hole: int, strokes: int)

  /** A pricing row; both prices are per player, in paise. */
  datatype Pricing = Pricing(id: string, weekdayPrice: int, weekendPrice: int, updatedAt: int, updatedBy: string)

  // ---------------------------------------------------------------------------
  // insertGameSchema

  /** A game-creation body as the client may send it, including the columns
      the insert schema omits. */
  datatype GameRequest = GameRequest(
    id: Option<string>,
    playerId: Option<string>,
    playerNames: Option<seq<string>>,
    playerCount: Option<real>,
    totalCost: Option<string>,
    isWeekend: Option<bool>,
    completedAt: Option<int>)

  datatype InsertGame = InsertGame(playerId: string, playerNames: seq<string>, playerCount: int, isWeekend: bool)

  /** The fields of insertGameSchema, in the table's column order. */
  datatype GameField = PlayerIdField | PlayerNamesField | PlayerCountField | IsWeekendField

  const MIN_PLAYERS: int := 1
  const MAX_PLAYERS: int := 8

  /** `z.number().int().min(1).max(8)`. */
  predicate ValidPlayerCount(x: real) {
    x.Floor as real == x && MIN_PLAYERS as real <= x <= MAX_PLAYERS as real
  }

  predicate GameFieldValid(req: GameRequest, f: GameField) {
    match f
    case PlayerIdField => req.playerId.Some?
    case PlayerNamesField => req.playerNames.Some? && |req.playerNames.value| >= 1
    case PlayerCountField => req.playerCount.Some? && ValidPlayerCount(req.playerCount.value)
    case IsWeekendField => req.isWeekend.Some?
  }

  function IssueIf(bad: bool, f: GameField): seq<GameField> {
    if bad then [f] else []
  }

  /** `insertGameSchema.parse(body)`: every invalid field is reported, in
      column order; `id`, `completedAt` and `totalCost` are stripped. */
  function ParseInsertGame(req: GameRequest): (r: Result<InsertGame, seq<GameField>>)
    ensures r.Ok? <==> forall f: GameField :: GameFieldValid(req, f)
    ensures r.Ok? ==>
      && r.value.playerId == req.playerId.value
      && r.value.playerNames == req.playerNames.value
      && r.value.playerCount as real == req.playerCount.value
      && r.value.isWeekend == req.isWeekend.value
    ensures r.Err? ==> |r.error| > 0 && forall f :: f in r.error <==> !GameFieldValid(req, f)
  {
    var issues :=
      IssueIf(!GameFieldValid(req, PlayerIdField), PlayerIdField)
      + IssueIf(!GameFieldValid(req, PlayerNamesField), PlayerNamesField)
      + IssueIf(!GameFieldValid(req, PlayerCountField), PlayerCountField)
      + IssueIf(!GameFieldValid(req, IsWeekendField), IsWeekendField);
    if |issues| > 0 then Err(issues)
    else
      Ok(InsertGame(req.playerId.value, req.playerNames.value, req.playerCount.value.Floor, req.isWeekend.value))
  }

  /** The insert schema omits `id`, `completedAt` and `totalCost`: whatever
      the client puts there has no effect, so the cost is always the
      server's. */
  lemma ClientCannotSetCost(req: GameRequest, id: Option<string>, cost: Option<string>, at: Option<int>)
    ensures ParseInsertGame(req.(id := id, totalCost := cost, completedAt := at)) == ParseInsertGame(req)
  {
  }

  /** An empty roster is refused. */
  lemma EmptyRosterRefused(req: GameRequest)
    requires req.playerNames == Some([])
    ensures ParseInsertGame(req).Err? && PlayerNamesField in ParseInsertGame(req).error
  {
  }

  /** Counts of 9 and 10, which player setup offers, fail validation, as do
      fractional counts. */
  lemma PlayerCountBounds(req: GameRequest)
    requires req.playerCount.Some?
    requires var c := req.playerCount.value; c > 8.0 || c < 1.0 || c.Floor as real != c
    ensures ParseInsertGame(req).Err? && PlayerCountField in ParseInsertGame(req).error
  {
  }

  // ---------------------------------------------------------------------------
  // insertPricingSchema and insertScoreSchema

  /** A pricing body; the decimal columns arrive as strings. */
  datatype PricingRequest = PricingRequest(
    id: Option<string>,
    weekdayPrice: Option<string>,
    weekendPrice: Option<string>,
    updatedAt: Option<int>,
    updatedBy: Option<string>)

  datatype InsertPricing = InsertPricing(weekdayPrice: string, weekendPrice: string, updatedBy: string)

  /** `insertPricingSchema.parse(body)`: both prices and `updatedBy` are
      required strings; `id` and `updatedAt` are stripped. The numeric format
      of the prices is checked only when the row is stored. */
  function ParseInsertPricing(req: PricingRequest): (r: Option<InsertPricing>)
    ensures r.Some? <==> req.weekdayPrice.Some? && req.weekendPrice.Some? && req.updatedBy.Some?
    ensures r.Some? ==> r.value == InsertPricing(req.weekdayPrice.value, req.weekendPrice.value, req.updatedBy.value)
  {
    if req.weekdayPrice.Some? && req.weekendPrice.Some? && req.updatedBy.Some? then
      Some(InsertPricing(req.weekdayPrice.value, req.weekendPrice.value, req.updatedBy.value))
    else None
  }

  /** A pricing insert cannot choose its own `id` or `updatedAt`. */
  lemma PricingTimestampServerSide(req: PricingRequest, id: Option<string>, at: Option<int>)
    ensures ParseInsertPricing(req.(id := id, updatedAt := at)) == ParseInsertPricing(req)
  {
  }

  /** One element of the score-batch body (`gameId` comes from the URL). A
      field that is missing, or not a number, is `None`. */
  datatype ScoreRequest = ScoreRequest(playerName: Option<string>, hole: Option<int>, strokes: Option<int>)

  datatype InsertScore = InsertScore(playerName: string, hole: int, strokes: int)

  /** PostgreSQL's `integer` column: a signed 32-bit value. */
  predicate IsInt32(x: int) {
    -0x8000_0000 <= x < 0x8000_0000
  }

  predicate ScoreRequestValid(req: ScoreRequest) {
    && req.playerName.Some?
    && req.hole.Some? && IsInt32(req.hole.value)
    && req.strokes.Some? && IsInt32(req.strokes.value)
  }

  /** `z.array(insertScoreSchema.omit({ gameId: true })).parse(body)`: the
      whole batch is refused if any element is invalid. */
  function ParseScoreBatch(reqs: seq<ScoreRequest>): (r: Option<seq<InsertScore>>)
    ensures r.Some? <==> forall i :: 0 <= i < |reqs| ==> ScoreRequestValid(reqs[i])
    ensures r.Some? ==> |r.value| == |reqs| && forall i :: 0 <= i < |reqs| ==>
      r.value[i] == InsertScore(reqs[i].playerName.value, reqs[i].hole.value, reqs[i].strokes.value)
  {
    if |reqs| == 0 then Some([])
    else
      match ParseScoreBatch(reqs[1..])
      case None => None
      case Some(rest) =>
        if ScoreRequestValid(reqs[0]) then
          Some([InsertScore(reqs[0].playerName.value, reqs[0].hole.value, reqs[0].strokes.value)] + rest)
        else None
  }
}

=== FILE: sorting.dfy ===
/** Sorting of a sequence by a caller-supplied total preorder. The
    store's ORDER BY clauses and the results page's `Array.prototype.sort` are
    both modelled with it. */
module Sorting {

  /** `le` is total and transitive, so it orders any two values consistently. */
  ghost predicate TotalPreorder<T(!new)>(le: (T, T) -> bool) {
    && (forall a, b :: le(a, b) || le(b, a))
    && (forall a, b, c :: le(a, b) && le(b, c) ==> le(a, c))
  }

  ghost predicate SortedBy<T>(le: (T, T) -> bool, xs: seq<T>) {
    forall i, j :: 0 <= i < j < |xs| ==> le(xs[i], xs[j])
  }

  /** Places `x` before the first element it is `le` to, so that `x` stays
      ahead of the elements it ties with. */
  function Insert<T(!new)>(le: (T, T) -> bool, x: T, ys: seq<T>): (r: seq<T>)
    requires TotalPreorder(le)
    requires SortedBy(le, ys)
    ensures SortedBy(le, r)
    ensures multiset(r) == multiset(ys) + multiset{x}
  {
    if |ys| == 0 then [x]
    else if le(x, ys[0]) then
      HeadBoundsAll(le, x, ys);
      [x] + ys
    else
      var rest := Insert(le, x, ys[1..]);
      assert ys == [ys[0]] + ys[1..];
      assert le(ys[0], x);
      HeadBoundsAll(le, ys[0], ys);
      BoundKeptByPermutation(le, ys[0], x, ys[1..], rest);
      [ys[0]] + rest
  }

  /** In a sorted sequence, anything `le` the head is `le` every element. */
  lemma HeadBoundsAll<T(!new)>(le: (T, T) -> bool, x: T, ys: seq<T>)
    requires TotalPreorder(le) && SortedBy(le, ys)
    requires |ys| > 0 && le(x, ys[0])
    ensures forall j :: 0 <= j < |ys| ==> le(x, ys[j])
  {
    forall j | 0 <= j < |ys| ensures le(x, ys[j]) {
      if j > 0 { assert le(ys[0], ys[j]); }
    }
  }

  /** A lower bound of `x` and of every element of `ys` bounds any
      rearrangement of `ys` with `x` added. */
  lemma BoundKeptByPermutation<T(!new)>(le: (T, T) -> bool, y: T, x: T, ys: seq<T>, rest: seq<T>)
    requires TotalPreorder(le)
    requires le(y, x) && forall j :: 0 <= j < |ys| ==> le(y, ys[j])
    requires multiset(rest) == multiset(ys) + multiset{x}
    ensures forall k :: 0 <= k < |rest| ==> le(y, rest[k])
  {
    forall k | 0 <= k < |rest| ensures le(y, rest[k]) {
      assert rest[k] in multiset(rest);
      if rest[k] != x {
        assert rest[k] in multiset(ys);
        var j :| 0 <= j < |ys| && ys[j] == rest[k];
      }
    }
  }

  /** A sort: the result is a permutation of `xs`, ordered by `le`. */
  function SortBy<T(!new)>(le: (T, T) -> bool, xs: seq<T>): (r: seq<T>)
    requires TotalPreorder(le)
    ensures SortedBy(le, r)
    ensures multiset(r) == multiset(xs)
    ensures |r| == |xs|
    ensures forall x :: x in r <==> x in xs
  {
    if |xs| == 0 then []
    else
      assert xs == [xs[0]] + xs[1..];
      var r := Insert(le, xs[0], SortBy(le, xs[1..]));
      assert forall x :: x in r <==> x in multiset(r);
      assert forall x :: x in xs <==> x in multiset(xs);
      r
  }
}

=== FILE: storage.dfy ===
/** The queries of server/storage.ts as pure functions over the table
    contents. A table is a sequence of rows in insertion order; a timestamp is
    an integer number of milliseconds on the venue's local clock (no time
    zone, no daylight saving), so midnight is a multiple of MS_PER_DAY. */
module Storage {
  import opened Wrappers
  import opened Text
  import opened Sorting
  import opened Decimal
  import opened Schema

  const MS_PER_SECOND: int := 1000
  const MS_PER_MINUTE: int := 60_000
  const MS_PER_HOUR: int := 3_600_000
  const MS_PER_DAY: int := 86_400_000

  /** The tables the core reads and writes. */
  datatype Db = Db(players: seq<Player>, games: seq<Game>, scores: seq<Score>, pricing: seq<Pricing>)

  // ---------------------------------------------------------------------------
  // Games in a time window

  /** `gte(completedAt, start) && lte(completedAt, end)`: both ends included. */
  predicate InWindow(g: Game, start: int, end: int) {
    start <= g.completedAt <= end
  }

  function GamesInWindow(games: seq<Game>, start: int, end: int): (r: seq<Game>)
    ensures |r| <= |games|
    ensures forall i :: 0 <= i < |r| ==> InWindow(r[i], start, end)
    ensures forall g :: g in r <==> g in games && InWindow(g, start, end)
  {
    if |games| == 0 then []
    else
      (if InWindow(games[0], start, end) then [games[0]] else [])
      + GamesInWindow(games[1..], start, end)
  }

  predicate NewestFirst(a: Game, b: Game) {
    a.completedAt >= b.completedAt
  }

  lemma NewestFirstOrders()
    ensures TotalPreorder(NewestFirst)
  {
  }

  /** `getGamesByDateRange(start, end)`: exactly the games completed in
      [start, end], each once, newest first. */
  function GamesByDateRange(games: seq<Game>, start: int, end: int): (r: seq<Game>)
    ensures forall i, j :: 0 <= i < j < |r| ==> r[i].completedAt >= r[j].completedAt
    ensures forall g :: g in r <==> g in games && InWindow(g, start, end)
    ensures multiset(r) == multiset(GamesInWindow(games, start, end))
  {
    NewestFirstOrders();
    SortBy(NewestFirst, GamesInWindow(games, start, end))
  }

  /** `getGames(start?, end?)`: the window applies only when both bounds are
      given; otherwise every game is returned, newest first. */
  function GetGames(games: seq<Game>, start: Option<int>, end: Option<int>): (r: seq<Game>)
    ensures forall i, j :: 0 <= i < j < |r| ==> r[i].completedAt >= r[j].completedAt
    ensures start.Some? && end.Some? ==>
      forall g :: g in r <==> g in games && InWindow(g, start.value, end.value)
    ensures start.None? || end.None? ==> multiset(r) == multiset(games)
  {
    NewestFirstOrders();
    if start.Some? && end.Some? then GamesByDateRange(games, start.value, end.value)
    else SortBy(NewestFirst, games)
  }

  /** `getGame(id)`: the row with that primary key, if any. */
  function FindGame(games: seq<Game>, id: string): (r: Option<Game>)
    ensures r.Some? ==> r.value in games && r.value.id == id
    ensures r.None? <==> forall g :: g in games ==> g.id != id
  {
    if |games| == 0 then None
    else if games[0].id == id then Some(games[0])
    else FindGame(games[1..], id)
  }

  // ---------------------------------------------------------------------------
  // Aggregates

  function Revenue(gs: seq<Game>): int {
    if |gs| == 0 then 0 else gs[0].totalCost + Revenue(gs[1..])
  }

  function Headcount(gs: seq<Game>): int {
    if |gs| == 0 then 0 else gs[0].playerCount + Headcount(gs[1..])
  }

  /** The `{ totalGames, totalRevenue, totalPlayers }` row; revenue in paise. */
  datatype SalesStats = SalesStats(totalGames: nat, totalRevenue: int, totalPlayers: int)

  /** `getSalesStats(start, end)`: count(*), sum(totalCost) and
      sum(playerCount) over the window. SQL's `sum` over no rows is NULL and
      the `|| 0` fallback turns it into zero, so an empty window is all
      zeros rather than an error. */
  function GetSalesStats(games: seq<Game>, start: int, end: int): (r: SalesStats)
    ensures r.totalGames == |GamesInWindow(games, start, end)|
    ensures r.totalRevenue == Revenue(GamesInWindow(games, start, end))
    ensures r.totalPlayers == Headcount(GamesInWindow(games, start, end))
  {
    var w := GamesInWindow(games, start, end);
    var revenue: Option<int> := if |w| == 0 then None else Some(Revenue(w));
    var players: Option<int> := if |w| == 0 then None else Some(Headcount(w));
    SalesStats(|w|, revenue.GetOr(0), players.GetOr(0))
  }

  /** A window no game falls in reports zeros rather than missing sums. */
  lemma EmptyWindowIsZero(games: seq<Game>, start: int, end: int)
    requires forall g :: g in games ==> !InWindow(g, start, end)
    ensures GetSalesStats(games, start, end) == SalesStats(0, 0, 0)
  {
  }

  function AddStats(a: SalesStats, b: SalesStats): SalesStats {
    SalesStats(a.totalGames + b.totalGames, a.totalRevenue + b.totalRevenue, a.totalPlayers + b.totalPlayers)
  }

  /** Splitting a window at any instant splits its totals: nothing is counted
      twice and nothing is lost. */
  lemma WindowSplit(games: seq<Game>, start: int, mid: int, end: int)
    requires start <= mid < end
    ensures GetSalesStats(games, start, end)
         == AddStats(GetSalesStats(games, start, mid), GetSalesStats(games, mid + 1, end))
  {
    WindowSplitParts(games, start, mid, end);
    StatsOfWindow(games, start, end);
    StatsOfWindow(games, start, mid);
    StatsOfWindow(games, mid + 1, end);
    var x, y, z := GetSalesStats(games, start, end), GetSalesStats(games, start, mid), GetSalesStats(games, mid + 1, end);
    assert x.totalGames == y.totalGames + z.totalGames;
    assert x.totalRevenue == y.totalRevenue + z.totalRevenue;
    assert x.totalPlayers == y.totalPlayers + z.totalPlayers;
    StatsAddUp(x, y, z);
  }

  /** Totals that agree field by field with a sum are that sum. */
  lemma StatsAddUp(x: SalesStats, y: SalesStats, z: SalesStats)
    requires x.totalGames == y.totalGames + z.totalGames
    requires x.totalRevenue == y.totalRevenue + z.totalRevenue
    requires x.totalPlayers == y.totalPlayers + z.totalPlayers
    ensures x == AddStats(y, z)
  {
  }

  lemma StatsOfWindow(games: seq<Game>, start: int, end: int)
    ensures var w := GamesInWindow(games, start, end);
      GetSalesStats(games, start, end) == SalesStats(|w|, Revenue(w), Headcount(w))
  {
  }

  lemma {:induction false} WindowSplitParts(games: seq<Game>, start: int, mid: int, end: int)
    requires start <= mid < end
    ensures |GamesInWindow(games, start, end)| == |GamesInWindow(games, start, mid)| + |GamesInWindow(games, mid + 1, end)|
    ensures Revenue(GamesInWindow(games, start, end))
         == Revenue(GamesInWindow(games, start, mid)) + Revenue(GamesInWindow(games, mid + 1, end))
    ensures Headcount(GamesInWindow(games, start, end))
         == Headcount(GamesInWindow(games, start, mid)) + Headcount(GamesInWindow(games, mid + 1, end))
    decreases |games|
  {
    if |games| > 0 {
      var g := games[0];
      var rest := games[1..];
      assert games == [g] + rest;
      WindowSplitParts(rest, start, mid, end);
      WindowCons(g, rest, start, end);
      WindowCons(g, rest, start, mid);
      WindowCons(g, rest, mid + 1, end);
    }
  }

  /** The window of `[g] + rest` is that of `rest`, plus `g` if it falls inside. */
  lemma WindowCons(g: Game, rest: seq<Game>, start: int, end: int)
    ensures var w := GamesInWindow([g] + rest, start, end);
      var w' := GamesInWindow(rest, start, end);
      && |w| == |w'| + (if InWindow(g, start, end) then 1 else 0)
      && Revenue(w) == Revenue(w') + (if InWindow(g, start, end) then g.totalCost else 0)
      && Headcount(w) == Headcount(w') + (if InWindow(g, start, end) then g.playerCount else 0)
  {
    assert ([g] + rest)[1..] == rest;
    var w := GamesInWindow([g] + rest, start, end);
    if InWindow(g, start, end) {
      assert w[1..] == GamesInWindow(rest, start, end);
    } else {
      assert w == GamesInWindow(rest, start, end);
    }
  }

  // ---------------------------------------------------------------------------
  // Day, week and month windows

  /** `setHours(0, 0, 0, 0)` on the local clock. */
  function StartOfDay(t: int): int {
    t - t % MS_PER_DAY
  }

  /** `setHours(23, 59, 59, 999)` on the local clock. */
  function EndOfDay(t: int): int {
    StartOfDay(t) + MS_PER_DAY - 1
  }

  /** The daily window holds exactly the instants of the same calendar day,
      from 00:00:00.000 through 23:59:59.999. */
  lemma DayWindowIsCalendarDay(t: int, date: int)
    ensures StartOfDay(date) <= t <= EndOfDay(date) <==> StartOfDay(t) == StartOfDay(date)
    ensures EndOfDay(date) - StartOfDay(date) == 23 * MS_PER_HOUR + 59 * MS_PER_MINUTE + 59 * MS_PER_SECOND + 999
  {
    var d := StartOfDay(date);
    assert d % MS_PER_DAY == 0;
    if d <= t <= d + MS_PER_DAY - 1 {
      assert (t - d) % MS_PER_DAY == t - d;
      assert t % MS_PER_DAY == t - d;
    }
  }

  /** The games finished on the calendar day of `date`, in table order. */
  function GamesOnDay(games: seq<Game>, date: int): seq<Game> {
    if |games| == 0 then []
    else
      (if StartOfDay(games[0].completedAt) == StartOfDay(date) then [games[0]] else [])
      + GamesOnDay(games[1..], date)
  }

  /** The daily window selects exactly the games of that calendar day. */
  lemma {:induction false} DayWindowIsGamesOnDay(games: seq<Game>, date: int)
    ensures GamesInWindow(games, StartOfDay(date), EndOfDay(date)) == GamesOnDay(games, date)
    decreases |games|
  {
    if |games| > 0 {
      DayWindowIsCalendarDay(games[0].completedAt, date);
      DayWindowIsGamesOnDay(games[1..], date);
    }
  }

  /** `getDailySales(date)`: the totals of the games of that calendar day. */
  function DailySales(games: seq<Game>, date: int): (r: SalesStats)
    ensures var d := GamesOnDay(games, date);
      r == SalesStats(|d|, Revenue(d), Headcount(d))
  {
    DayWindowIsGamesOnDay(games, date);
    GetSalesStats(games, StartOfDay(date), EndOfDay(date))
  }

  /** `getWeeklySales(start)`: [start, start + 7 days], both ends included. */
  function WeeklySales(games: seq<Game>, start: int): (r: SalesStats)
    ensures var w := GamesInWindow(games, start, start + 7 * MS_PER_DAY);
      && (forall g :: g in w <==> g in games && start <= g.completedAt <= start + 7 * MS_PER_DAY)
      && r == SalesStats(|w|, Revenue(w), Headcount(w))
  {
    GetSalesStats(games, start, start + 7 * MS_PER_DAY)
  }

  /** `getMonthlySales(start)`: [start, one calendar month later], both ends
      included. `addMonths(t, k)` is the local calendar's `setMonth` step. */
  function MonthlySales(games: seq<Game>, start: int, addMonths: (int, int) -> int): (r: SalesStats)
    ensures var w := GamesInWindow(games, start, addMonths(start, 1));
      && (forall g :: g in w <==> g in games && start <= g.completedAt <= addMonths(start, 1))
      && r == SalesStats(|w|, Revenue(w), Headcount(w))
  {
    GetSalesStats(games, start, addMonths(start, 1))
  }

  /** Both ends of the weekly window are inclusive: a game finished exactly
      seven days after `start` counts in this week and in the next. */
  lemma WeeklyWindowsShareAnInstant(games: seq<Game>, start: int)
    requires |games| == 1 && games[0].completedAt == start + 7 * MS_PER_DAY
    ensures WeeklySales(games, start).totalGames == 1
    ensures WeeklySales(games, start + 7 * MS_PER_DAY).totalGames == 1
  {
    assert games == [games[0]] + [];
    WindowCons(games[0], [], start, start + 7 * MS_PER_DAY);
    WindowCons(games[0], [], start + 7 * MS_PER_DAY, start + 14 * MS_PER_DAY);
  }

  // ---------------------------------------------------------------------------
  // Hourly breakdown

  /** `extract(hour from completedAt)` on the local clock. */
  function HourOf(t: int): (h: int)
    ensures 0 <= h < 24
  {
    (t % MS_PER_DAY) / MS_PER_HOUR
  }

  function GamesAtHour(gs: seq<Game>, h: int): (r: seq<Game>)
    ensures forall g :: g in r <==> g in gs && HourOf(g.completedAt) == h
  {
    if |gs| == 0 then []
    else
      (if HourOf(gs[0].completedAt) == h then [gs[0]] else [])
      + GamesAtHour(gs[1..], h)
  }

  function GamesFromHour(gs: seq<Game>, h: int): seq<Game> {
    if |gs| == 0 then []
    else
      (if HourOf(gs[0].completedAt) >= h then [gs[0]] else [])
      + GamesFromHour(gs[1..], h)
  }

  datatype HourBucket = HourBucket(hour: int, games: nat, revenue: int)

  /** The hours from `h` to 23 at which at least one game finished, ascending. */
  function ActiveHours(gs: seq<Game>, h: nat): (r: seq<int>)
    ensures forall i, j :: 0 <= i < j < |r| ==> r[i] < r[j]
    ensures forall k :: k in r <==> h <= k < 24 && |GamesAtHour(gs, k)| > 0
    decreases 24 - h
  {
    if h >= 24 then []
    else
      var rest := ActiveHours(gs, h + 1);
      if |GamesAtHour(gs, h)| > 0 then
        assert forall i :: 0 <= i < |rest| ==> rest[i] in rest;
        [h] + rest
      else rest
  }

  function Bucket(gs: seq<Game>, hour: int): HourBucket {
    var at := GamesAtHour(gs, hour);
    HourBucket(hour, |at|, Revenue(at))
  }

  /** The bucket of each listed hour, in the order given. */
  function BucketsOf(gs: seq<Game>, hours: seq<int>): (r: seq<HourBucket>)
    ensures |r| == |hours|
    ensures forall i :: 0 <= i < |r| ==> r[i] == Bucket(gs, hours[i])
  {
    if |hours| == 0 then [] else [Bucket(gs, hours[0])] + BucketsOf(gs, hours[1..])
  }

  function BucketGames(bs: seq<HourBucket>): int {
    if |bs| == 0 then 0 else bs[0].games + BucketGames(bs[1..])
  }

  /** The buckets of a set of games: one per hour that has at least one
      game, ascending, each with that hour's count and revenue. */
  function HourlyBuckets(w: seq<Game>): (r: seq<HourBucket>)
    ensures forall i, j :: 0 <= i < j < |r| ==> r[i].hour < r[j].hour
    ensures forall i :: 0 <= i < |r| ==> 0 <= r[i].hour < 24 && r[i] == Bucket(w, r[i].hour) && r[i].games > 0
    ensures forall k :: 0 <= k < 24 && |GamesAtHour(w, k)| > 0 ==> exists i :: 0 <= i < |r| && r[i].hour == k
  {
    BucketHours(w, ActiveHours(w, 0));
    BucketsOf(w, ActiveHours(w, 0))
  }

  /** Facts about the buckets of an ascending list of active hours. */
  lemma BucketHours(w: seq<Game>, hours: seq<int>)
    requires forall i, j :: 0 <= i < j < |hours| ==> hours[i] < hours[j]
    requires forall k :: k in hours <==> 0 <= k < 24 && |GamesAtHour(w, k)| > 0
    ensures var r := BucketsOf(w, hours);
      && (forall i, j :: 0 <= i < j < |r| ==> r[i].hour < r[j].hour)
      && (forall i :: 0 <= i < |r| ==> 0 <= r[i].hour < 24 && r[i] == Bucket(w, r[i].hour) && r[i].games > 0)
      && (forall k :: 0 <= k < 24 && |GamesAtHour(w, k)| > 0 ==> exists i :: 0 <= i < |r| && r[i].hour == k)
  {
    var r := BucketsOf(w, hours);
    forall i | 0 <= i < |r| ensures r[i].hour == hours[i] && hours[i] in hours {
      assert r[i] == Bucket(w, hours[i]);
    }
    forall k | 0 <= k < 24 && |GamesAtHour(w, k)| > 0 ensures exists i :: 0 <= i < |r| && r[i].hour == k {
      assert k in hours;
      var i :| 0 <= i < |hours| && hours[i] == k;
      assert r[i].hour == k;
    }
  }

  /** `getHourlySales(date)`: one bucket per hour of the calendar day in
      which a game finished, ascending, with that hour's count and revenue. */
  function HourlySales(games: seq<Game>, date: int): (r: seq<HourBucket>)
    ensures var day := GamesOnDay(games, date);
      && (forall i, j :: 0 <= i < j < |r| ==> r[i].hour < r[j].hour)
      && (forall i :: 0 <= i < |r| ==>
            && 0 <= r[i].hour < 24 && r[i].games > 0
            && r[i].games == |GamesAtHour(day, r[i].hour)|
            && r[i].revenue == Revenue(GamesAtHour(day, r[i].hour)))
      && (forall k :: 0 <= k < 24 && |GamesAtHour(day, k)| > 0 ==> exists i :: 0 <= i < |r| && r[i].hour == k)
  {
    var w := GamesInWindow(games, StartOfDay(date), EndOfDay(date));
    assert HourlyBuckets(w) == HourlyBuckets(GamesOnDay(games, date)) by {
      DayWindowIsGamesOnDay(games, date);
    }
    HourlyBucketsOfDay(GamesOnDay(games, date));
    HourlyBuckets(w)
  }

  /** The bucket facts of `HourlyBuckets`, with each bucket's fields spelt out. */
  lemma HourlyBucketsOfDay(day: seq<Game>)
    ensures var r := HourlyBuckets(day);
      && (forall i, j :: 0 <= i < j < |r| ==> r[i].hour < r[j].hour)
      && (forall i :: 0 <= i < |r| ==>
            && 0 <= r[i].hour < 24 && r[i].games > 0
            && r[i].games == |GamesAtHour(day, r[i].hour)|
            && r[i].revenue == Revenue(GamesAtHour(day, r[i].hour)))
      && (forall k :: 0 <= k < 24 && |GamesAtHour(day, k)| > 0 ==> exists i :: 0 <= i < |r| && r[i].hour == k)
  {
    var r := HourlyBuckets(day);
    forall i | 0 <= i < |r|
      ensures r[i].games == |GamesAtHour(day, r[i].hour)| && r[i].revenue == Revenue(GamesAtHour(day, r[i].hour))
    {
      assert r[i] == Bucket(day, r[i].hour);
    }
  }

  /** The hourly counts add up to the day's `totalGames`. */
  lemma HourlyCountsSumToDaily(games: seq<Game>, date: int)
    ensures BucketGames(HourlySales(games, date)) == DailySales(games, date).totalGames
  {
    var w := GamesInWindow(games, StartOfDay(date), EndOfDay(date));
    BucketsCountFrom(w, 0);
    FromHourZero(w);
  }

  lemma {:induction false} BucketsCountFrom(gs: seq<Game>, h: nat)
    ensures BucketGames(BucketsOf(gs, ActiveHours(gs, h))) == |GamesFromHour(gs, h)|
    decreases 24 - h
  {
    if h >= 24 {
      NoGamesFromHour(gs, h);
    } else {
      BucketsCountFrom(gs, h + 1);
      FromHourSplit(gs, h);
      var rest := ActiveHours(gs, h + 1);
      if |GamesAtHour(gs, h)| > 0 {
        assert ([h] + rest)[1..] == rest;
      }
    }
  }

  lemma {:induction false} NoGamesFromHour(gs: seq<Game>, h: int)
    requires h >= 24
    ensures GamesFromHour(gs, h) == []
    decreases |gs|
  {
    if |gs| > 0 {
      NoGamesFromHour(gs[1..], h);
    }
  }

  lemma {:induction false} FromHourZero(gs: seq<Game>)
    ensures GamesFromHour(gs, 0) == gs
    decreases |gs|
  {
    if |gs| > 0 {
      FromHourZero(gs[1..]);
      assert [gs[0]] + gs[1..] == gs;
    }
  }

  lemma {:induction false} FromHourSplit(gs: seq<Game>, h: int)
    ensures |GamesFromHour(gs, h)| == |GamesAtHour(gs, h)| + |GamesFromHour(gs, h + 1)|
    decreases |gs|
  {
    if |gs| > 0 {
      FromHourSplit(gs[1..], h);
    }
  }

  // ---------------------------------------------------------------------------
  // Pricing history

  predicate NewerPricing(a: Pricing, b: Pricing) {
    a.updatedAt >= b.updatedAt
  }

  lemma NewerPricingOrders()
    ensures TotalPreorder(NewerPricing)
  {
  }

  /** `getPricingHistory()`: every row, newest `updatedAt` first. */
  function PricingHistory(rows: seq<Pricing>): (r: seq<Pricing>)
    ensures multiset(r) == multiset(rows)
    ensures forall i, j :: 0 <= i < j < |r| ==> r[i].updatedAt >= r[j].updatedAt
  {
    NewerPricingOrders();
    SortBy(NewerPricing, rows)
  }

  /** `getCurrentPricing()`: the first row of the history, which is a row
      with the greatest `updatedAt`; nothing when the table is empty. */
  function CurrentPricing(rows: seq<Pricing>): (r: Option<Pricing>)
    ensures r.None? <==> |rows| == 0
    ensures r.Some? ==> r.value in rows && forall p :: p in rows ==> p.updatedAt <= r.value.updatedAt
  {
    var h := PricingHistory(rows);
    if |h| == 0 then None
    else
      assert h[0] in multiset(rows);
      assert forall p :: p in rows ==> p in multiset(h);
      Some(h[0])
  }

  /** `createPricing`: converts both prices to numeric(10, 2) and appends a
      row stamped `now`; earlier rows are never changed or removed. */
  function CreatePricing(rows: seq<Pricing>, ins: InsertPricing, id: string, now: int): (r: Result<seq<Pricing>, string>)
    ensures r.Ok? <==> NumericToPaise(ins.weekdayPrice).Ok? && NumericToPaise(ins.weekendPrice).Ok?
    ensures r.Ok? ==>
      && |r.value| == |rows| + 1
      && r.value[..|rows|] == rows
      && r.value[|rows|] == Pricing(id, NumericToPaise(ins.weekdayPrice).value,
                                    NumericToPaise(ins.weekendPrice).value, now, ins.updatedBy)
  {
    match NumericToPaise(ins.weekdayPrice)
    case Err(e) => Err(e)
    case Ok(weekday) =>
      match NumericToPaise(ins.weekendPrice)
      case Err(e) => Err(e)
      case Ok(weekend) =>
        var r := rows + [Pricing(id, weekday, weekend, now, ins.updatedBy)];
        assert r[..|rows|] == rows;
        Ok(r)
  }

  /** A row stamped later than every earlier row becomes the current pricing,
      and the history only grows. */
  lemma LatestPricingWins(rows: seq<Pricing>, ins: InsertPricing, id: string, now: int)
    requires forall p :: p in rows ==> p.updatedAt < now
    requires CreatePricing(rows, ins, id, now).Ok?
    ensures var rows' := CreatePricing(rows, ins, id, now).value;
      && CurrentPricing(rows') == Some(rows'[|rows|])
      && |PricingHistory(rows')| == |PricingHistory(rows)| + 1
      && forall p :: p in PricingHistory(rows) ==> p in PricingHistory(rows')
  {
    var rows' := CreatePricing(rows, ins, id, now).value;
    var p := rows'[|rows|];
    assert rows' == rows + [p];
    forall q | q in PricingHistory(rows) ensures q in PricingHistory(rows') {
      assert q in multiset(PricingHistory(rows));
      assert q in multiset(rows');
    }
  }

  // ---------------------------------------------------------------------------
  // Scores

  function ScoresOfGame(scores: seq<Score>, gameId: string): (r: seq<Score>)
    ensures forall s :: s in r <==> s in scores && s.gameId == gameId
  {
    if |scores| == 0 then []
    else
      (if scores[0].gameId == gameId then [scores[0]] else [])
      + ScoresOfGame(scores[1..], gameId)
  }

  /** ORDER BY hole, playerName (names compared by character code). */
  predicate HoleThenName(a: Score, b: Score) {
    a.hole < b.hole || (a.hole == b.hole && StrLe(a.playerName, b.playerName))
  }

  lemma HoleThenNameOrders()
    ensures TotalPreorder(HoleThenName)
  {
    forall a: Score, b: Score ensures HoleThenName(a, b) || HoleThenName(b, a) {
      StrLeTotal(a.playerName, b.playerName);
    }
    forall a: Score, b: Score, c: Score | HoleThenName(a, b) && HoleThenName(b, c)
      ensures HoleThenName(a, c)
    {
      if a.hole == b.hole == c.hole {
        StrLeTrans(a.playerName, b.playerName, c.playerName);
      }
    }
  }

  /** `getScoresByGame(gameId)`: that game's scores ordered by hole, then by
      player name. */
  function ScoresByGame(scores: seq<Score>, gameId: string): (r: seq<Score>)
    ensures forall s :: s in r <==> s in scores && s.gameId == gameId
    ensures forall i, j :: 0 <= i < j < |r| ==>
      r[i].hole < r[j].hole || (r[i].hole == r[j].hole && StrLe(r[i].playerName, r[j].playerName))
  {
    HoleThenNameOrders();
    SortBy(HoleThenName, ScoresOfGame(scores, gameId))
  }

  // ---------------------------------------------------------------------------
  // Inserts

  predicate PlayerExists(db: Db, playerId: string) {
    exists i :: 0 <= i < |db.players| && db.players[i].id == playerId
  }

  /** `createGame`: the cost text is stored into numeric(10, 2) and the
      player reference must exist; the new row is appended, stamped `now`. */
  function CreateGame(db: Db, ins: InsertGame, totalCost: string, id: string, now: int): (r: Result<(Game, Db), string>)
    ensures r.Ok? <==> NumericToPaise(totalCost).Ok? && PlayerExists(db, ins.playerId)
    ensures r.Ok? ==>
      && r.value.0 == Game(id, ins.playerId, ins.playerNames, ins.playerCount,
                           NumericToPaise(totalCost).value, ins.isWeekend, now)
      && r.value.1 == db.(games := db.games + [r.value.0])
  {
    match NumericToPaise(totalCost)
    case Err(e) => Err(e)
    case Ok(cost) =>
      if !PlayerExists(db, ins.playerId) then Err("violates foreign key constraint games_player_id_players_id_fk")
      else
        var game := Game(id, ins.playerId, ins.playerNames, ins.playerCount, cost, ins.isWeekend, now);
        Ok((game, db.(games := db.games + [game])))
  }

  predicate GameExists(db: Db, gameId: string) {
    exists i :: 0 <= i < |db.games| && db.games[i].id == gameId
  }

  /** The rows a score batch becomes, the i-th taking the i-th fresh id. */
  function ScoreRows(gameId: string, batch: seq<InsertScore>, ids: seq<string>): (r: seq<Score>)
    requires |ids| == |batch|
    ensures |r| == |batch|
    ensures forall i :: 0 <= i < |r| ==> r[i] == Score(ids[i], gameId, batch[i].playerName, batch[i].hole, batch[i].strokes)
  {
    seq(|batch|, i requires 0 <= i < |batch| => Score(ids[i], gameId, batch[i].playerName, batch[i].hole, batch[i].strokes))
  }

  /** One `createScore` per element of the batch, all for the same game.
      Every insert carries the same game reference, so either the game exists
      and all rows are appended or every insert fails and nothing is. An
      empty batch inserts nothing and succeeds. */
  function CreateScores(db: Db, gameId: string, batch: seq<InsertScore>, ids: seq<string>): (r: Result<Db, string>)
    requires |ids| == |batch|
    ensures r.Ok? <==> |batch| == 0 || GameExists(db, gameId)
    ensures r.Ok? ==> r.value == db.(scores := db.scores + ScoreRows(gameId, batch, ids))
  {
    if |batch| > 0 && !GameExists(db, gameId) then Err("violates foreign key constraint scores_game_id_games_id_fk")
    else Ok(db.(scores := db.scores + ScoreRows(gameId, batch, ids)))
  }
}

=== FILE: text.dfy ===
/** Character and string helpers shared by the model: decimal digits and their
    values, decimal rendering of naturals, joining and splitting on a separator
    character, JavaScript's `trim` and an ASCII lower-case mapping. */
module Text {

  predicate IsDigit(c: char) {
    '0' <= c <= '9'
  }

  predicate AllDigits(s: string) {
    forall i :: 0 <= i < |s| ==> IsDigit(s[i])
  }

  function DigitValue(c: char): (d: nat)
    requires IsDigit(c)
    ensures d < 10
  {
    c as int - '0' as int
  }

  function DigitChar(d: nat): (c: char)
    requires d < 10
    ensures IsDigit(c) && DigitValue(c) == d
  {
    ('0' as int + d) as char
  }

  function Pow10(k: nat): (p: nat)
    ensures p >= 1
  {
    if k == 0 then 1 else 10 * Pow10(k - 1)
  }

  /** The value of a string of decimal digits; leading zeros are allowed and
      the empty string is worth 0. */
  function ParseNat(s: string): nat
    requires AllDigits(s)
  {
    if |s| == 0 then 0 else 10 * ParseNat(s[..|s| - 1]) + DigitValue(s[|s| - 1])
  }

  /** The shortest decimal rendering of `n`, as JavaScript's `String(n)` gives
      it for a non-negative integer. */
  function NatToString(n: nat): (s: string)
    ensures |s| >= 1 && AllDigits(s)
    ensures ParseNat(s) == n
    ensures s[0] == '0' ==> n == 0 && s == "0"
  {
    if n < 10 then [DigitChar(n)]
    else
      var init := NatToString(n / 10);
      var s := init + [DigitChar(n % 10)];
      assert s[..|s| - 1] == init;
      s
  }

  /** Decimal rendering of an integer, with a leading '-' when negative. */
  function IntToString(i: int): (s: string)
    ensures |s| >= 1
    ensures (s[0] == '-') <==> i < 0
  {
    if i < 0 then "-" + NatToString(-i) else NatToString(i)
  }

  lemma {:induction false} ParseNatBound(s: string)
    requires AllDigits(s)
    ensures ParseNat(s) < Pow10(|s|)
    decreases |s|
  {
    if |s| > 0 {
      ParseNatBound(s[..|s| - 1]);
    }
  }

  /** Reading the digits of `a + b` shifts the value of `a` left by |b| places. */
  lemma {:induction false} ParseNatAppend(a: string, b: string)
    requires AllDigits(a) && AllDigits(b)
    ensures AllDigits(a + b)
    ensures ParseNat(a + b) == ParseNat(a) * Pow10(|b|) + ParseNat(b)
    decreases |b|
  {
    if |b| == 0 {
      assert a + b == a;
    } else {
      var ab := a + b;
      var b' := b[..|b| - 1];
      assert ab[..|ab| - 1] == a + b';
      assert ab[|ab| - 1] == b[|b| - 1];
      ParseNatAppend(a, b');
      var d := DigitValue(b[|b| - 1]);
      assert ParseNat(ab) == 10 * ParseNat(a + b') + d;
      assert ParseNat(b) == 10 * ParseNat(b') + d;
      ShiftDigit(ParseNat(a), Pow10(|b'|), ParseNat(b'), d);
    }
  }

  lemma ShiftDigit(x: int, p: int, q: int, d: int)
    ensures 10 * (x * p + q) + d == x * (10 * p) + (10 * q + d)
  {
  }

  predicate AllZeros(z: string) {
    forall i :: 0 <= i < |z| ==> z[i] == '0'
  }

  lemma {:induction false} ParseNatZeros(z: string)
    requires AllZeros(z)
    ensures AllDigits(z) && ParseNat(z) == 0
    decreases |z|
  {
    if |z| > 0 {
      ParseNatZeros(z[..|z| - 1]);
    }
  }

  /** Leading zeros do not change the value of a digit string. */
  lemma ParseNatLeadingZeros(z: string, s: string)
    requires AllZeros(z) && AllDigits(s)
    ensures AllDigits(z + s) && ParseNat(z + s) == ParseNat(s)
  {
    ParseNatZeros(z);
    ParseNatAppend(z, s);
  }

  function Zeros(n: nat): (z: string)
    ensures |z| == n && AllZeros(z)
  {
    seq(n, _ => '0')
  }

  /** Left-pads a digit string with zeros up to `width` characters. */
  function PadDigits(s: string, width: nat): (r: string)
    requires AllDigits(s)
    ensures AllDigits(r) && ParseNat(r) == ParseNat(s)
    ensures |r| == if |s| < width then width else |s|
  {
    if |s| < width then
      ParseNatLeadingZeros(Zeros(width - |s|), s);
      Zeros(width - |s|) + s
    else s
  }

  // ---------------------------------------------------------------------------
  // Joining and splitting on a one-character separator

  /** JavaScript's `parts.join(sep)`: no separator before the first part or
      after the last, and the empty list joins to "". */
  function Join(parts: seq<string>, sep: char): (r: string)
  {
    if |parts| == 0 then ""
    else if |parts| == 1 then parts[0]
    else parts[0] + [sep] + Join(parts[1..], sep)
  }

  function IndexOf(s: string, c: char): (i: nat)
    requires c in s
    ensures i < |s| && s[i] == c && c !in s[..i]
  {
    if s[0] == c then 0
    else
      var i := 1 + IndexOf(s[1..], c);
      assert s[..i] == [s[0]] + s[1..][..i - 1];
      i
  }

  /** JavaScript's `s.split(sep)` for a one-character separator. */
  function Split(s: string, sep: char): (parts: seq<string>)
    ensures |parts| >= 1
    ensures forall k :: 0 <= k < |parts| ==> sep !in parts[k]
    decreases |s|
  {
    if sep !in s then [s]
    else
      var i := IndexOf(s, sep);
      [s[..i]] + Split(s[i + 1..], sep)
  }

  /** Splitting a join of separator-free parts gives the parts back. */
  lemma {:induction false} SplitJoin(parts: seq<string>, sep: char)
    requires |parts| >= 1
    requires forall k :: 0 <= k < |parts| ==> sep !in parts[k]
    ensures Split(Join(parts, sep), sep) == parts
    decreases |parts|
  {
    if |parts| > 1 {
      var rest := Join(parts[1..], sep);
      var s := parts[0] + [sep] + rest;
      assert Join(parts, sep) == s;
      SplitAtFirst(parts[0], sep, rest);
      SplitJoin(parts[1..], sep);
      assert [parts[0]] + parts[1..] == parts;
    }
  }

  /** The first separator of `a + [sep] + rest` ends a separator-free `a`. */
  lemma SplitAtFirst(a: string, sep: char, rest: string)
    requires sep !in a
    ensures Split(a + [sep] + rest, sep) == [a] + Split(rest, sep)
  {
    var s := a + [sep] + rest;
    assert s[|a|] == sep;
    var i := IndexOf(s, sep);
    assert s[..i] == a;
    assert s[i + 1..] == rest;
  }

  /** Joining the pieces of a split restores the string. */
  lemma {:induction false} JoinSplit(s: string, sep: char)
    ensures Join(Split(s, sep), sep) == s
    decreases |s|
  {
    if sep in s {
      var i := IndexOf(s, sep);
      JoinSplit(s[i + 1..], sep);
      var tail := Split(s[i + 1..], sep);
      assert Split(s, sep) == [s[..i]] + tail;
      assert ([s[..i]] + tail)[1..] == tail;
      assert s == s[..i] + [sep] + s[i + 1..];
    }
  }

  // ---------------------------------------------------------------------------
  // JavaScript's String.prototype.trim and an ASCII lower-case mapping

  /** The characters `trim` removes: ECMAScript WhiteSpace and LineTerminator. */
  predicate IsJsWhitespace(c: char) {
    || c == '\t' || c == '\n' || c == '\U{000B}' || c == '\U{000C}' || c == '\r'
    || c == ' ' || c == '\U{00A0}' || c == '\U{1680}'
    || ('\U{2000}' <= c <= '\U{200A}')
    || c == '\U{2028}' || c == '\U{2029}' || c == '\U{202F}' || c == '\U{205F}'
    || c == '\U{3000}' || c == '\U{FEFF}'
  }

  function LeadingWhitespace(s: string): (n: nat)
    ensures n <= |s|
    ensures forall k :: 0 <= k < n ==> IsJsWhitespace(s[k])
    ensures n < |s| ==> !IsJsWhitespace(s[n])
  {
    if |s| > 0 && IsJsWhitespace(s[0]) then 1 + LeadingWhitespace(s[1..]) else 0
  }

  function TrailingWhitespace(s: string): (n: nat)
    ensures n <= |s|
    ensures forall k :: |s| - n <= k < |s| ==> IsJsWhitespace(s[k])
    ensures n < |s| ==> !IsJsWhitespace(s[|s| - 1 - n])
  {
    if |s| > 0 && IsJsWhitespace(s[|s| - 1]) then 1 + TrailingWhitespace(s[..|s| - 1]) else 0
  }

  /** `s.trim()`: the slice of `s` left after dropping leading and trailing
      whitespace; it neither starts nor ends with whitespace. */
  function Trim(s: string): (r: string)
    ensures |r| <= |s|
    ensures |r| > 0 ==> !IsJsWhitespace(r[0]) && !IsJsWhitespace(r[|r| - 1])
    ensures LeadingWhitespace(s) + |r| <= |s|
    ensures r == s[LeadingWhitespace(s)..LeadingWhitespace(s) + |r|]
    ensures forall k :: LeadingWhitespace(s) + |r| <= k < |s| ==> IsJsWhitespace(s[k])
  {
    var a := LeadingWhitespace(s);
    var t := s[a..];
    var b := TrailingWhitespace(t);
    var r := t[..|t| - b];
    assert r == s[a..a + |r|];
    r
  }

  /** A string trims to "" exactly when it consists of whitespace only. */
  lemma TrimEmptyIff(s: string)
    ensures Trim(s) == "" <==> forall k :: 0 <= k < |s| ==> IsJsWhitespace(s[k])
  {
    var a := LeadingWhitespace(s);
    if a < |s| {
      var t := s[a..];
      var b := TrailingWhitespace(t);
      assert !IsJsWhitespace(t[0]);
      assert b < |t|;
    }
  }

  /** Trimming removes exactly the whitespace around a word whose ends are
      not whitespace. */
  lemma TrimPadded(pre: string, x: string, post: string)
    requires forall k :: 0 <= k < |pre| ==> IsJsWhitespace(pre[k])
    requires forall k :: 0 <= k < |post| ==> IsJsWhitespace(post[k])
    requires |x| > 0 && !IsJsWhitespace(x[0]) && !IsJsWhitespace(x[|x| - 1])
    ensures Trim(pre + x + post) == x
  {
    var s := pre + x + post;
    var n := |pre|;
    assert LeadingWhitespace(s) == n by {
      assert forall k :: 0 <= k < n ==> s[k] == pre[k];
      assert s[n] == x[0];
    }
    var r := Trim(s);
    assert |r| == |x| by {
      assert s[n + |x| - 1] == x[|x| - 1];
      assert forall k :: n + |x| <= k < |s| ==> s[k] == post[k - n - |x|];
    }
    assert r == s[n..n + |x|];
  }

  function LowerChar(c: char): char {
    if 'A' <= c <= 'Z' then (c as int + 32) as char else c
  }

  /** `s.toLowerCase()` restricted to ASCII letters. */
  function ToLower(s: string): (r: string)
    ensures |r| == |s|
    ensures forall k :: 0 <= k < |s| ==> r[k] == LowerChar(s[k])
  {
    seq(|s|, k requires 0 <= k < |s| => LowerChar(s[k]))
  }

  lemma LowerCharIdempotent(c: char)
    ensures LowerChar(LowerChar(c)) == LowerChar(c)
    ensures IsJsWhitespace(LowerChar(c)) <==> IsJsWhitespace(c)
  {
  }

  /** Lower-casing twice is lower-casing once, and it keeps whitespace where
      it was. */
  lemma ToLowerIdempotent(s: string)
    ensures ToLower(ToLower(s)) == ToLower(s)
    ensures forall k :: 0 <= k < |s| ==> (IsJsWhitespace(ToLower(s)[k]) <==> IsJsWhitespace(s[k]))
  {
    var l := ToLower(s);
    forall k | 0 <= k < |s|
      ensures ToLower(l)[k] == l[k]
      ensures IsJsWhitespace(l[k]) <==> IsJsWhitespace(s[k])
    {
      LowerCharIdempotent(s[k]);
    }
  }

  // ---------------------------------------------------------------------------
  // Lexicographic order of strings by character code

  /** `a` sorts no later than `b`: a proper prefix sorts first. */
  predicate StrLe(a: string, b: string) {
    if |a| == 0 then true
    else if |b| == 0 then false
    else if a[0] != b[0] then a[0] < b[0]
    else StrLe(a[1..], b[1..])
  }

  lemma {:induction false} StrLeTotal(a: string, b: string)
    ensures StrLe(a, b) || StrLe(b, a)
    decreases |a|
  {
    if |a| > 0 && |b| > 0 && a[0] == b[0] {
      StrLeTotal(a[1..], b[1..]);
    }
  }

  lemma {:induction false} StrLeTrans(a: string, b: string, c: string)
    requires StrLe(a, b) && StrLe(b, c)
    ensures StrLe(a, c)
    decreases |a|
  {
    if |a| > 0 && |b| > 0 && |c| > 0 && a[0] == b[0] && b[0] == c[0] {
      StrLeTrans(a[1..], b[1..], c[1..]);
    }
  }
}

=== FILE: wrappers.dfy ===
/** Failure-compatible wrappers shared by every module of the model. */
module Wrappers {

  /** A value that may be absent: a missing JSON field, an empty query result. */
  datatype Option<+T> = None | Some(value: T) {
    function GetOr(default: T): T {
      match this
      case Some(v) => v
      case None => default
    }
  }

  /** The outcome of an operation that can be refused with an error value. */
  datatype Result<+T, +E> = Ok(value: T) | Err(error: E)
}
